=== FILE: README.md ===
# fastapi-react-todo — a Dafny model of the API core

This project models the backend of a multi-user to-do service. Users sign up, log in with an e-mail address and a password, and hold a short-lived bearer access token plus a refresh token kept in an HTTP-only cookie. They define their own ordered list of statuses, such as "todo" or "done", and file tasks with due dates under those statuses. The model covers:

- the token life cycle: issuing, verifying and refreshing tokens, logging out, and resetting a password;
- the ownership rules: every status and task belongs to one user, and nobody sees or touches anyone else's;
- the integrity rules that tie tasks to statuses;
- the reorder controls of the status list page.

The database is one immutable `Db` value. Each table is a sequence of rows in insertion order, and each table has an auto-increment counter. Every endpoint is a pure function from a database, plus the request, to a new database and a `Result`. A `Result` holds either the response body or the HTTP error (`Results.Failure`).

- A token is modelled by the claims it carries once decoded (`sub`, `type`, `exp`) and by whether its signature checks out. Time is an integer count of seconds, passed in as `now`.
- A password hash is an injective tag on the password.
- The refresh cookie is an entry in a browser cookie jar keyed by name and path.
- The lifetimes of issued tokens and the cookie's `secure` flag are parameters.
- Whether a string is an e-mail address, and the normal form in which it is stored, is decided by a library behind `EmailStr`. So the validator is a parameter (`AuthSchemas.EmailValidator`): it yields the normalised address or rejects the string.

FastAPI resolves dependencies before it validates a request body. So the access-token check, and the "task or status or 404" lookups, happen before a malformed body earns a 422. Every router function follows that order.

Modules follow the source files:

- `Results`, `Models` and `Sorting`: shared carriers, entities and the `ORDER BY`/`WHERE` helpers.
- `Text`: substring search and PostgreSQL `LIKE`.
- `Config`: `api/app/config.py`.
- `Tokens`: `api/app/auth.py`.
- `AuthSchemas`, `StatusSchemas` and `TaskSchemas`: request validation.
- `UserCrud`, `AuthCrud`, `StatusCrud` and `TaskCrud`: storage.
- `AuthRouter`, `StatusRouter` and `TaskRouter`: endpoints.
- `AuthFlows` and `StatusOrdering`: multi-step properties.
- `StatusList`: the client-side reorder controls.

The model follows the code as written wherever the code runs. In four places the code as written cannot run: it imports or calls a name that is not defined, calls a function with an argument the function does not take, or reads an attribute or column that is not declared. There the model reconstructs the behaviour the call sites evidently intend:

- **Status scoping (reconstructed).** The functions in `crud/status.py` take no user id, and their maximum `order` is computed over every row. Yet the calls in `routers/status.py` at lines 21, 32, 49, 58 and 65 pass `user_id=`. As written, each of those calls raises a `TypeError`. The calls at lines 75, 83 and 88 pass no user id, but their endpoints first go through `get_status_or_404`, whose call at line 21 fails. So every status endpoint would answer 500. A status row has an owner column, and the callers evidently mean each operation to be scoped to the calling owner. The model does that. `StatusCrud.SingleOwnerScopeIsWholeTable` shows that with one owner the scoping selects the whole table, as the unscoped functions do.
- **The task's status (reconstructed).** `TaskBase` (`schemas/task.py:6-10`) declares no `status_id`. Yet both task routers read `task_data.status_id`, which raises `AttributeError` as written. A task row has that column, so the model's task payload carries it.
- **The task's owner (reconstructed).** `models/task.py` declares no `user_id` column. Yet `crud/task.py` filters on `Task.user_id` at lines 20 and 32 and passes `user_id=` to the `Task` constructor at line 37. As written, each of those fails. The model gives every task an owner, as those call sites intend.
- **Names the routers use but the source does not define (reconstructed).** `routers/auth.py:8-19` imports `TokenType`, `create_token`, `verify_token`, `get_current_user_id` and the three `*_TOKEN_EXPIRES` constants from `app.auth`, and `routers/status.py:4` imports `get_current_user_id` from it. None of them appears in `auth.py`, so as written both modules fail with an `ImportError` when they are imported. `routers/auth.py:137` also calls `user_crud.update_password`, which `crud/user.py` does not define. The model rebuilds these names after their nearest defined relatives:
  - `Tokens.CreateToken` after `create_refresh_token`;
  - `Tokens.Verify` after `verify_refresh_token`, generalised to any expected type;
  - `Tokens.GetCurrentUserId` as `Verify` for access tokens;
  - `UserCrud.UpdatePassword` after `update_username`;
  - the lifetimes as the `AuthRouter.Lifetimes` parameter.

Elsewhere the model follows the code as written:

- **Reset tokens are reusable.** `confirm_password_reset` (`routers/auth.py:129-138`) checks nothing that would retire a reset token once the password has changed. So the token keeps working until it expires (`AuthFlows.ResetTokenIsReusable`).
- **Error codes for a bad reset token.** A reset token that fails verification gets the 401 raised by token verification. Only a token whose user no longer exists gets the 400 "Invalid or expired token".
- **Shape of the login response.** The login test reads a top-level `access_token`, but the endpoint returns a `LoginResponse` whose `token` field holds it. The model follows the endpoint.
- **Login takes the address as typed.** Signup and the reset request store and look up the address in the normal form `EmailStr` gives it. Login looks up the form's `username` field exactly as typed. So an address the validator rewrites at signup logs in only in its normal form (`AuthFlows.SignupThenLoginAsTyped`). FastAPI reads an empty form field as a missing one, so an empty address or password at login gets 422.
- **The keyword search.** `get_tasks` passes the keyword to `contains()`, which compiles to an unescaped `LIKE`. So `%` and `_` in a keyword act as wildcards. `TaskRouter.ListTasks` models that, and `TaskRouter.ListTasksIntended` models the literal search (see "## Findings").

## Model

| member | source | states |
|---|---|---|
| Config.LoadSettings | api/app/config.py:6-10 | Settings exist iff the database URL, the origin list and the secret key are all given. The access-token lifetime falls back to 30 minutes. |
| Config.Strip | api/app/config.py:14 | The result has no whitespace at either end. It sits in the input with only whitespace around it. |
| Config.StripPadded | api/app/config.py:14 | Stripping whitespace-padded text that has no whitespace at its ends gives that text back. |
| Config.Split | api/app/config.py:14 | Splitting at a separator gives at least one segment. No segment contains the separator, and joining the segments rebuilds the input. |
| Config.SplitLength | api/app/config.py:14 | There is one segment more than the input has separators. |
| Config.SplitJoin | api/app/config.py:14 | Splitting the join of separator-free segments gives those segments back. |
| Config.CorsOriginsList | api/app/config.py:12-14 | The origin list has one entry per comma-separated segment. No entry contains a comma or surrounding whitespace. |
| Config.CorsOriginsInOrder | api/app/config.py:12-14 | Origins written between commas, with any whitespace around them, come out in the order written and without the whitespace. |
| Tokens.VerifyPasswordIffSame | api/app/auth.py:22-27 | A password verifies against a stored hash iff the hash was made from that same password. |
| Tokens.CreateAccessToken | api/app/auth.py:30-36 | The token's type is forced to access and its expiry to now plus the configured minutes. The caller's subject is kept. |
| Tokens.CreateRefreshToken | api/app/auth.py:39-44 | The token is a refresh token for the user, expiring after the configured number of days. |
| Tokens.CreateToken | api/app/routers/auth.py:61-62 | An issued token carries the user as subject and the requested type, expires the given lifetime after now, and is validly signed. |
| Tokens.AccessTokenIsTyped | api/app/auth.py:30-36 | An access token built from a payload with a subject is the typed token issued for that subject. |
| Tokens.Verify | api/app/auth.py:47-67 | Ok iff the signature is valid, the token is unexpired, its type is the expected one and it has a subject; the result is that subject. Otherwise one of three 401 details, checked in that order. |
| Tokens.GetCurrentUserId | api/app/routers/auth.py:106 | The dependency succeeds iff the token is a live access token with a subject, and then yields that subject. |
| Tokens.VerifyRefreshToken | api/app/auth.py:47-67 | Ok iff the token is a live refresh token with a subject, and then the result is that subject. A bad signature or expiry gets 401 "Invalid or expired refresh token"; otherwise another type gets "Invalid token type"; otherwise a missing subject gets "Invalid token". |
| Tokens.RefreshTokenRoundTrip | api/app/auth.py:39-67 | A token from `create_refresh_token` verifies as its user strictly before its expiry, and from then on is refused as expired. |
| Tokens.IssuedTokenVerifies | api/app/auth.py:39-67 | An issued token verifies as its user, for its own type, strictly before its expiry and never from then on. |
| Tokens.NoTypeConfusion | api/app/auth.py:51-55 | A token of another type is refused. When it is otherwise live, the detail is "Invalid token type". |
| Tokens.GetCurrentUser | api/app/auth.py:91-113 | Ok iff a live access token names an existing user; the result is that user. Every failure is the same 401 "Could not validate credentials". |
| Tokens.OnlyAccessTokensAuthenticate | api/app/auth.py:102-103 | A refresh or password-reset token never authenticates a request. |
| Tokens.ApplyCookie | api/app/auth.py:70-88 | Setting stores the value under the cookie's name and path, and deleting removes it. No other cookie changes. |
| Tokens.SetRefreshCookie | api/app/auth.py:70-78 | The cookie is named `refresh_token`, scoped to `/auth`, HTTP-only and same-site lax. Its secure flag is the configured one. |
| Tokens.ClearRefreshCookie | api/app/auth.py:81-88 | The deletion names the same cookie, with the same attributes. |
| Tokens.ClearRemovesSetCookie | api/app/auth.py:70-88 | After setting and then clearing, the browser holds no refresh cookie, and every other cookie is as before. |
| AuthSchemas.ValidateUserCreate | api/app/schemas/auth.py:4-7 | Accepted iff the username has 3 to 150 characters, the e-mail validator accepts the address and the password has at least 8 characters. The payload holds the normalised address. Otherwise 422. |
| AuthSchemas.ValidateUsernameUpdate | api/app/schemas/auth.py:18-19 | Accepted iff the username has 3 to 150 characters. |
| AuthSchemas.UsernameBoundsAgree | api/app/schemas/auth.py:4-19 | A username acceptable at signup is acceptable as a rename, and conversely. |
| AuthSchemas.ValidateResetRequest | api/app/schemas/auth.py:32-33 | Accepted iff an address the validator accepts is given, and then the result is its normal form. Otherwise 422. |
| AuthSchemas.ValidateResetConfirm | api/app/schemas/auth.py:36-38 | Accepted iff a token and a new password of at least 8 characters are given. |
| AuthSchemas.ResponseHidesPassword | api/app/schemas/auth.py:10-15 | The user response does not depend on the stored hash. |
| AuthSchemas.ResponseDeterminesIdentity | api/app/schemas/auth.py:10-15 | Two users have equal responses iff their id, username and e-mail address are equal. |
| AuthSchemas.BearerToken | api/app/schemas/auth.py:22-24 | The token response carries the token, with type "bearer". |
| StatusSchemas.ValidateStatus | api/app/schemas/status.py:6-19 | Create and update accept exactly the bodies with a name of 1 to 50 characters and a color of at most 7. There is no `order` field. |
| StatusSchemas.ValidateReorder | api/app/schemas/status.py:22-24 | A reorder body is accepted iff its id list is present and non-empty. |
| TaskSchemas.ValidateTask | api/app/schemas/task.py:6-10 | Accepted iff the title has 1 to 255 characters and the content, due date and status are present. |
| TaskSchemas.EmptyBodyRefused | api/app/schemas/task.py:6-10 | A body with no fields is refused with 422. |
| UserCrud.GetUserByEmail | api/app/crud/user.py:10-11 | Returns a user with that e-mail address, or nothing iff no user has it. |
| UserCrud.EmailIdentifiesUser | api/app/crud/user.py:10-11 | On a consistent table, looking up a user's e-mail address finds that user. |
| UserCrud.IdIdentifiesUser | api/app/routers/auth.py:97 | On a consistent table, looking up a user's id finds that user. |
| UserCrud.CreateUser | api/app/crud/user.py:25-38 | Fails iff the username or e-mail address is taken. Otherwise it appends the user with the next id and the password's hash, and nothing else changes. |
| UserCrud.ReplaceUser | api/app/crud/user.py:14-22 | Only the row with the given id is replaced. |
| UserCrud.UpdateUsername | api/app/crud/user.py:14-22 | Fails iff another user holds the name; keeping one's own name is no conflict. Otherwise only that user's username changes. |
| UserCrud.UpdatePassword | api/app/routers/auth.py:137 | Only that user's hash changes, to the hash of the new password. |
| UserCrud.CreatePreservesValid | api/app/crud/user.py:25-38 | Creating a user keeps ids, usernames and e-mail addresses unique. |
| UserCrud.ReplaceKeepsValid | api/app/crud/user.py:14-22 | Replacing a user, keeping its id and e-mail address and taking no other user's name, keeps the table consistent. |
| UserCrud.UpdateUsernamePreservesValid | api/app/crud/user.py:14-22 | A successful rename keeps the table consistent. |
| UserCrud.UpdatePasswordPreservesValid | api/app/routers/auth.py:137 | A password change keeps the table consistent. |
| AuthCrud.GetUserByEmail | api/app/crud/auth.py:13-14 | Returns a user with that e-mail address, or nothing iff none has it. |
| AuthCrud.CreateUser | api/app/crud/auth.py:17-30 | Behaves as the user module does, with the constraint failure reported as `DuplicateUserError`. |
| AuthCrud.CreateUserModulesAgree | api/app/crud/auth.py:17-30 | This module refuses a signup iff the username or e-mail address is taken. |
| AuthRouter.Signup | api/app/routers/auth.py:37-45 | 422 for a malformed body. Otherwise 409 iff the name or the normalised address is registered. On success the user is appended with the normalised address and the password's hash, and the store changes only on success. |
| AuthRouter.Login | api/app/routers/auth.py:48-67 | 422 for a missing or empty form field. Otherwise Ok iff the address, exactly as typed, is found and the password verifies; every other case gets the same 401 and no cookie. Success returns access and refresh tokens issued at `now`. |
| AuthRouter.RefreshTokens | api/app/routers/auth.py:70-84 | 401 "Refresh token missing" without a cookie. Ok iff the cookie holds a live refresh token with a subject. Success issues a new access token and rotates the cookie; failures leave the cookie alone. |
| AuthRouter.Logout | api/app/routers/auth.py:87-89 | Afterwards no browser holds a refresh cookie, whatever it held before. Other cookies are kept. |
| AuthRouter.GetMe | api/app/routers/auth.py:92-100 | Token failures pass through. Ok iff the token is valid and its user exists, and the response belongs to that user; a missing user gets 401 "Invalid token". |
| AuthRouter.UpdateMe | api/app/routers/auth.py:103-115 | Checks run in this order: the token's 401, then 422, then 401 "Invalid token" for a missing user, then 409 "Username already taken". Ok iff all checks pass and no other user has the name. Only the caller's username changes, and nothing changes on failure. |
| AuthRouter.RequestPasswordReset | api/app/routers/auth.py:118-126 | 202 iff the body is valid. A reset mail carrying a reset token for the user goes out iff the normalised address is registered. |
| AuthRouter.ConfirmPasswordReset | api/app/routers/auth.py:129-138 | Checks run in this order: 422, then the token's 401, then 400 for a missing user. Ok iff all pass, and then only that user's hash changes. |
| AuthFlows.LoginIffCredentials | api/app/routers/auth.py:48-60 | On a consistent table, login succeeds iff both fields are filled in and some user has this address and a hash of this password. |
| AuthFlows.FailedLoginsLookAlike | api/app/routers/auth.py:55-60 | With the fields filled in, a wrong password and an unknown address get identical answers. |
| AuthFlows.SignupThenLogin | api/app/routers/auth.py:37-67 | A fresh signup can log in with its address in the stored normal form and its password, and sees the user it created. |
| AuthFlows.SignupThenLoginAsTyped | api/app/routers/auth.py:37-67 | When the validator rewrote the address and no user holds it as typed, logging in with the address as typed at signup gets the 401. |
| AuthFlows.LoginThenMe | api/app/routers/auth.py:92-100 | The login's access token resolves to its user at `/auth/me` until it expires, and gets a 401 from then on. |
| AuthFlows.GetMeAgreesWithCurrentUser | api/app/auth.py:91-113 | `/auth/me` succeeds exactly when `get_current_user` does, with that user. |
| AuthFlows.LoginThenRefresh | api/app/routers/auth.py:70-84 | The cookie a login sets obtains access tokens for the same user until it expires. |
| AuthFlows.RefreshRotates | api/app/routers/auth.py:82-83 | The rotated cookie works for the same subject, for a lifetime counted from the refresh. |
| AuthFlows.LogoutThenRefreshFails | api/app/routers/auth.py:75-89 | After logout, refreshing gets 401 "Refresh token missing". |
| AuthFlows.UpdateMeThenMe | api/app/routers/auth.py:103-115 | After a rename, `/auth/me` shows the new name. |
| AuthFlows.ResetRequestRevealsNothing | api/app/routers/auth.py:118-126 | The answer to a reset request does not depend on which users exist. |
| AuthFlows.LoginAfterPasswordChange | api/app/routers/auth.py:129-138 | Once a user's hash is replaced by that of a new password, that password logs them in and no other does. |
| AuthFlows.ResetFlow | api/app/routers/auth.py:118-138 | A registered user who types an address that normalises to theirs gets the mailed token and confirms with it before it expires. Afterwards they log in with the new password and with no other. |
| AuthFlows.ResetTokenIsReusable | api/app/routers/auth.py:129-138 | A confirmed reset token confirms again, until it expires. |
| AuthFlows.SignupPreservesValid | api/app/routers/auth.py:37-45 | Signup keeps the store consistent. |
| AuthFlows.UpdateMePreservesValid | api/app/routers/auth.py:103-115 | A rename keeps the store consistent. |
| AuthFlows.ConfirmPreservesValid | api/app/routers/auth.py:129-138 | A password reset keeps the store consistent. |
| StatusCrud.OwnedStatuses | api/app/routers/status.py:32 | Keeps exactly the owner's rows, each as often as it occurs. |
| StatusCrud.SingleOwnerScopeIsWholeTable | api/app/crud/status.py:9-11 | With a single owner, scoping keeps the whole table. |
| StatusCrud.GetStatuses | api/app/crud/status.py:9-11 | The listing holds exactly the owner's statuses, each once per row, in ascending `order`. |
| StatusCrud.GetStatus | api/app/crud/status.py:14-16 | Found iff the owner has a status with that id, and the result is that status. |
| StatusCrud.MaxOrder | api/app/crud/status.py:21 | The largest order among the owner's statuses, or none iff the owner has none. |
| StatusCrud.CreateStatus | api/app/crud/status.py:19-26 | The new status has the next id, the given name and color, and an order one above the owner's highest, or 1 when the owner has no statuses. It is appended and nothing else changes. |
| StatusCrud.UpdateStatus | api/app/crud/status.py:29-36 | Name and color are replaced. Id, order and owner are kept, and no other row changes. |
| StatusCrud.LastIndex | api/app/crud/status.py:41-42 | The position of the last occurrence of an id in the list. |
| StatusCrud.SetOrder | api/app/crud/status.py:42 | One update sets the order of the owner's row with that id and leaves every other row as it was. |
| StatusCrud.ApplyOrders | api/app/crud/status.py:41-42 | The loop of updates changes only `order`, and only on the owner's rows whose id is in the list; every other row is untouched. |
| StatusCrud.ApplyOrdersLastWriteWins | api/app/crud/status.py:41-42 | After the sequence of updates, each of the owner's listed statuses has 1 plus the position of its last occurrence. Every other row is untouched. |
| StatusCrud.ReorderStatuses | api/app/crud/status.py:39-44 | Only the owner's listed statuses are renumbered, by their last position in the list. The owner's new listing is returned. |
| StatusCrud.HasTasksWithStatus | api/app/crud/status.py:47-49 | True iff some task refers to the status. |
| StatusCrud.DeleteStatus | api/app/crud/status.py:52-55 | Removes the row with that id and nothing else. |
| StatusRouter.GetStatusOr404 | api/app/routers/status.py:16-24 | Ok iff the caller owns a status with that id. Otherwise 404 "Status not found". |
| StatusRouter.CreateStatus | api/app/routers/status.py:43-49 | 422 iff the body is invalid, and nothing changes. Otherwise the new status has the next id, the caller as owner and the body's name and color. Its order is one above the caller's highest, or 1 for a first status. It is appended, and no other table changes. |
| StatusRouter.ListedIds | api/app/routers/status.py:58 | The ids in the owner's listing are exactly the ids of the owner's statuses. |
| StatusRouter.ReorderGateIsSetEquality | api/app/routers/status.py:58-60 | The gate holds iff the requested ids, as a set, equal the owner's status ids. |
| StatusRouter.ReorderStatuses | api/app/routers/status.py:52-66 | 422 for a missing or empty list, then 400 unless the set of ids matches. Ok iff both checks pass, and then the result is the storage reorder. Nothing changes on failure. |
| StatusRouter.UpdateStatus | api/app/routers/status.py:69-75 | 404 for a status the caller does not own, then 422, with nothing changed. Ok iff the caller owns the status and the body is valid. On success the stored row takes the new name and color and keeps its id, owner and order. Every other row and every other table is unchanged. |
| StatusRouter.DeleteStatus | api/app/routers/status.py:78-88 | 404 for a status the caller does not own, then 409 while any task refers to it. Ok iff neither applies, and then exactly the rows with that id are removed: every other row keeps its multiplicity, and the other tables are unchanged. |
| StatusRouter.DeletedStatusIsGone | api/tests/test_status.py:134-140 | After a delete, fetching the status gets 404. |
| StatusRouter.CreatePreservesValid | api/app/crud/status.py:19-26 | Creating a status keeps ids unique and the owner's orders positive and distinct. |
| StatusRouter.ThreeCreatesNumberOneTwoThree | api/tests/test_status.py:29-35 | Three creates for an owner with no statuses get orders 1, 2 and 3. |
| StatusRouter.UpdatePreservesValid | api/app/routers/status.py:69-75 | An update keeps the store consistent. |
| StatusRouter.FilterStatusesValid | api/app/crud/status.py:52-55 | Removing statuses keeps the remaining status rows consistent. |
| StatusRouter.TasksValidWithout | api/app/routers/status.py:83-87 | Removing a status no task refers to leaves every task's status in place. |
| StatusRouter.DeletePreservesValid | api/app/routers/status.py:78-88 | A delete keeps the store consistent; a task never loses its status. |
| StatusOrdering.ReorderPreservesValid | api/app/routers/status.py:52-66 | A reorder, accepted or not, keeps the store consistent. The owner's orders stay distinct even for a list with repeated ids. |
| StatusOrdering.GateNamesOwnedRows | api/app/routers/status.py:58-64 | A list that passes the gate names every status of the owner and only statuses of the owner. |
| StatusOrdering.RenumberedValid | api/app/crud/status.py:39-44 | Renumbering every one of an owner's statuses by list position keeps orders positive and distinct, and keeps the keys. |
| StatusOrdering.GatedReorderValid | api/app/crud/status.py:39-44 | A reorder past the gate keeps the store consistent. |
| StatusOrdering.LastIndexOfDistinct | api/app/crud/status.py:41 | In a duplicate-free list, each id's last position is its only position. |
| StatusOrdering.RenumberedOwnedRow | api/app/crud/status.py:41-42 | After the renumbering, each of the owner's statuses has 1 plus its last position in the list. |
| StatusOrdering.SameIdSameRow | api/app/crud/status.py:42 | In a consistent table, an id names one row. |
| StatusOrdering.ListingDistinct | api/app/crud/status.py:9-11 | A consistent owner's listing shows each status once. |
| StatusOrdering.StrictlyIncreasingOnto | api/app/crud/status.py:41-44 | A strictly increasing sequence in 1..n that takes every value in 1..n is exactly 1, 2, ..., n. |
| StatusOrdering.ListingFollowsList | api/app/crud/status.py:44 | When orders are list positions, the listing follows the list, numbered from 1. |
| StatusOrdering.ReorderNumbersByPosition | api/app/crud/status.py:39-44 | A duplicate-free list that passes the gate gives each of the owner's statuses its position in the list. |
| StatusOrdering.ReorderNumbersInListOrder | api/tests/test_status.py:107-117 | After a duplicate-free reorder past the gate, the listing shows the statuses in list order, numbered 1 to N. |
| StatusOrdering.LastIndexIsLastOccurrence | api/app/crud/status.py:41-42 | The position after which an id does not occur again is its last position. |
| StatusOrdering.RepeatedIdTakesLastPosition | api/app/routers/status.py:58-65 | A list that repeats an id passes the gate. The repeated status gets the order of its last position, so the orders are not 1..N. |
| StatusOrdering.RepeatedIdPassesGate | api/app/routers/status.py:58-60 | The set comparison does not notice a repeated id. |
| StatusList.Swap | web/src/components/status/StatusList.tsx:19-29 | Exchanges two positions and keeps every other position. |
| StatusList.SwapIsPermutation | web/src/components/status/StatusList.tsx:19-29 | A swap adds or loses no id. |
| StatusList.MoveUp | web/src/components/status/StatusList.tsx:19-23 | Row `index` and the row above it exchange places; the result is a rearrangement of the list. |
| StatusList.MoveDown | web/src/components/status/StatusList.tsx:25-29 | Row `index` and the row below it exchange places; the result is a rearrangement of the list. |
| StatusList.Click | web/src/components/status/StatusList.tsx:10-53 | A control exists iff the row exists and is not the first (up) or the last (down). An empty list offers none. Each click sends a rearrangement of the shown ids. |
| StatusList.MovesUndoEachOther | web/src/components/status/StatusList.tsx:19-29 | Moving a row down and then back up restores the order, and so does up then down. |
| StatusList.ListingIdsDistinct | web/src/components/status/StatusList.tsx:20 | The ids a consistent owner's list page shows are distinct. |
| StatusList.PermutationDistinct | web/src/components/status/StatusList.tsx:20-22 | Any rearrangement of the shown ids is duplicate-free. |
| StatusList.ShownIdsAreOwned | web/src/components/status/StatusList.tsx:20 | The shown ids are exactly the owner's status ids. |
| StatusList.PermutationPassesGate | api/app/routers/status.py:58-64 | Any rearrangement of the shown ids passes the reorder gate. |
| StatusList.ClickIsAccepted | web/src/components/status/StatusList.tsx:19-29 | Every list a click sends is accepted. The new listing shows the statuses in the clicked order, numbered 1 to N. |
| TaskCrud.NarrowIf | api/app/crud/task.py:21-26 | An optional filter keeps exactly the rows that satisfy it, each as often as before, and only when it is active. |
| TaskCrud.Narrow | api/app/crud/task.py:20-26 | Keeps exactly the owner's tasks that match the keyword under the given matcher and fall within the inclusive date bounds. |
| TaskCrud.OrderByDue | api/app/crud/task.py:19-27 | A rearrangement of the rows, in descending or ascending due date. |
| TaskCrud.GetTasks | api/app/crud/task.py:10-27 | Exactly the selected tasks under the given matcher, in descending due date iff the order is "desc" and ascending otherwise. |
| TaskCrud.SameMatchSameListing | api/app/crud/task.py:21-22 | Two matchers that agree on every title and content in the table give the same listing, in the same order. |
| TaskCrud.GetTask | api/app/crud/task.py:30-32 | Found iff a task with that id belongs to the owner. |
| TaskCrud.CreateTask | api/app/crud/task.py:35-41 | The new task holds the payload, the owner and the next id. It is appended and nothing else changes. |
| TaskCrud.UpdateTask | api/app/crud/task.py:44-51 | Every payload field is written. Id and owner are kept, and no other row changes. |
| TaskCrud.DeleteTask | api/app/crud/task.py:54-57 | Removes the row with that id and nothing else. |
| TaskRouter.SortOrderValue | api/app/routers/task.py:28-37 | The query value is "desc" exactly for descending order. |
| TaskRouter.OrderParam | api/app/routers/task.py:30-36 | Without an `order` parameter the listing is latest first; it is ascending exactly when `asc` is asked for. |
| TaskRouter.GetTaskOr404 | api/app/routers/task.py:16-25 | Ok iff the caller owns a task with that id. Otherwise 404 "Task not found". |
| TaskRouter.ListTasks | api/app/routers/task.py:28-37 | Exactly the caller's tasks whose title or content the keyword matches as an unescaped `LIKE` pattern, or all of them for no keyword. Each selected task appears exactly as often as in the table, so once per row. Latest due date first unless ascending is asked for. |
| TaskRouter.ListTasksIntended | api/app/routers/task.py:28-37 | The same listing with the keyword searched for as a literal substring: exactly the selected tasks, each as often as in the table, in the same due-date order. |
| TaskRouter.ListTasksLiteralKeyword | api/app/crud/task.py:21-22 | For a keyword without `%`, `_` or `\`, the endpoint as written and the intended one list the same tasks in the same order. |
| TaskRouter.UnderscoreKeywordSelectsAnyText | api/app/crud/task.py:21-22 | The keyword `_` lists every task of the caller with a non-empty title or content. The intended search lists only those containing an underscore. |
| TaskRouter.PercentKeywordListsAll | api/app/crud/task.py:21-22 | The keyword `%` lists every task of the caller. |
| TaskRouter.CreateTask | api/app/routers/task.py:48-58 | 422, then 404 unless the caller owns the named status, with nothing changed. Ok iff both pass. Then the task gets the next id, the caller as owner and the payload. It is appended, and no other table changes. |
| TaskRouter.UpdateTask | api/app/routers/task.py:61-72 | 404 for a task the caller does not own, then 422, then 404 "Status not found" when the caller does not own the new status. Ok iff the caller also owns the new status. On success the stored row takes the payload and keeps its id and owner. Every other row and every other table is unchanged, and nothing changes on failure. |
| TaskRouter.DeleteTask | api/app/routers/task.py:75-81 | Ok iff the caller owns the task, and then exactly the rows with that id are removed: every other row keeps its multiplicity, and the other tables are unchanged. Otherwise 404 and nothing changes. |
| TaskRouter.CreatedTaskIsFound | api/app/routers/task.py:40-58 | A created task can be fetched back unchanged. |
| TaskRouter.DeletedTaskIsGone | api/tests/test_task.py:166-172 | After a delete, fetching the task gets 404. |
| TaskRouter.ForeignTaskIsInvisible | api/app/routers/task.py:16-25 | Another user's task gets 404 on get, update and delete, and the store is unchanged. |
| TaskRouter.CreatePreservesValid | api/app/routers/task.py:55-58 | Creating keeps task ids unique and each task's status owned by the task's owner. |
| TaskRouter.UpdatePreservesValid | api/app/routers/task.py:69-72 | Updating keeps each task's status owned by the task's owner. |
| TaskRouter.DeletePreservesValid | api/app/routers/task.py:75-81 | Deleting keeps the store consistent. |
| Sorting.SortBy | api/app/crud/task.py:27 | The rows rearranged into ascending key order. |
| Sorting.Filter | api/app/crud/task.py:20-26 | Keeps exactly the rows satisfying the condition, each as often as before. |
| Sorting.FilterKeepsPairwise | api/app/crud/task.py:54-57 | Filtering keeps the relative order of the rows it keeps. |
| Sorting.FilterSamePredicate | api/app/crud/task.py:21-22 | Filters whose conditions agree on every row keep the same rows in the same order. |
| Sorting.FilterKeepsAll | api/app/crud/status.py:9-11 | A filter every row satisfies changes nothing. |
| Sorting.NoDuplicatesCount | api/app/routers/status.py:58-59 | In a duplicate-free list each element occurs exactly once. |
| Sorting.CountOneNoDuplicates | api/app/routers/status.py:58-59 | A list in which no element occurs twice is duplicate-free. |
| Text.Contains | api/app/crud/task.py:21-22 | True iff the keyword occurs in the text as a contiguous substring. |
| Text.LikeMatch | api/app/crud/task.py:21-22 | A `LIKE` pattern without `%`, `_` or `\` matches exactly the text equal to it. |
| Text.LikeContains | api/app/crud/task.py:21-22 | For a keyword without `%`, `_` or `\`, the `%kw%` filter accepts a text iff the keyword occurs in it. |
| Text.LikePatternLiteral | api/app/crud/task.py:21-22 | For a keyword without `%`, `_` or `\`, the pattern `%kw%` matches exactly the texts containing the keyword. |
| Text.UnderscoreKeywordMatchesWithoutUnderscore | api/app/crud/task.py:21-22 | The `LIKE` filter accepts the keyword `_` on a text that contains no underscore. |
| Text.UnderscoreKeywordMatchesNonEmpty | api/app/crud/task.py:21-22 | The `LIKE` filter with the keyword `_` accepts exactly the non-empty texts. |
| Text.PercentKeywordMatchesAll | api/app/crud/task.py:21-22 | The `LIKE` filter with the keyword `%` accepts every text. |
| Text.ContainsOneChar | api/app/crud/task.py:21-22 | A one-character keyword occurs in a text iff that character does. |
| Models.TasksValidSameKeys | api/app/models/task.py:14 | A status table with the same ids and owners serves every task's reference equally. |
| Models.FindUser | api/app/routers/auth.py:109 | The lookup by id yields a stored user with that id, or nothing exactly when no stored user has it. |

## Left out

- HTTP transport, JSON encoding and the database session are left out. Each endpoint is one atomic step on the `Db` value. Concurrent requests and the race on the maximum order at status creation are not modelled.
- JWT encoding and signing are left out, and so is bcrypt. A token is its decoded claims plus a valid-signature flag. A hash is an injective tag. `int(sub)` on a non-numeric subject is not modelled; the subject is an integer when present.
- Clock reads become the `now` parameter. The unit is seconds, with `exp <= now` counting as expired.
- E-mail sending is left out: the reset message is returned as a value, and `api/app/email.py` is not part of this model. E-mail syntax checking and normalisation become the `AuthSchemas.EmailValidator` parameter. Nothing is assumed about which addresses it accepts or how it rewrites them.
- Date parsing is left out: a due date is a day number.
- `Config`: `get_settings` caching and reading the environment are not modelled. `auth.py` reads `refresh_token_expire_days` and `cookie_secure`, which `config.py` does not declare; they are parameters of the model.
- `create_token`, `verify_token`, `get_current_user_id`, `update_password` and the `*_TOKEN_EXPIRES` constants are not part of the source. They are modelled as described above.
- `UserCrud.CreateUser`: the auto-increment value a failed insert uses up is not modelled; the next id is consumed only on success.
- `TaskCrud.GetTasks` and `StatusCrud.GetStatuses`: the order of rows with equal keys is not promised. The model breaks ties with a stable sort, and the contracts say nothing about ties.
- The React UI is left out except the reorder controls of `StatusList.tsx`. That covers rendering, routing, the client token store and the fetch client. `StatusList.Click` assumes the page shows the owner's current listing.
- The `created_at`/`updated_at` columns are not modelled, and neither are the response fields derived from them.
- Tokens.VerifyPasswordIffSame: the hash is injective in the model. bcrypt reads only the first 72 bytes of a password: older versions ignore the rest and newer ones refuse such a password. `UserCreate.password` has no upper bound, so two passwords that share their first 72 bytes are not told apart by the model as they are by bcrypt.
- AuthFlows.LoginAfterPasswordChange: "no other password logs in" rests on the injective hash. Under bcrypt it holds only for passwords that differ within their first 72 bytes.
- AuthFlows.ResetFlow: the same 72-byte caveat applies to "with no other password".
- AuthFlows.SignupThenLogin and AuthFlows.ResetFlow assume the validator never yields an empty address, and ResetFlow assumes the stored address is not empty. An e-mail validator accepts no empty address.
- TaskRouter.SortOrderValue: `SortOrder` is declared in `api/app/schemas/common.py`, which is not part of this model. The model assumes it is a string enumeration with the values `asc` and `desc`, so that `order == "desc"` in `crud/task.py:19` holds for the descending member.
- `AuthRouter.Logout` does not revoke anything: a copy of a refresh token held outside the browser stays valid until it expires. With no server-side state, no lemma can say more than that.

## Findings

| source | as written | input that shows it | evidently intended | confidence | as-written member | corrected member |
|---|---|---|---|---|---|---|
| api/app/crud/task.py:21-22 | `contains(keyword)` compiles to `LIKE '%' \|\| keyword \|\| '%'` without escaping, so `%` and `_` in a keyword act as wildcards. | Keyword `_` against a task titled `a` (no underscore): the filter selects it. | The keyword matches as a literal substring of the title or the content. | medium (not executed) | TaskRouter.UnderscoreKeywordSelectsAnyText | TaskRouter.ListTasksIntended |

`TaskCrud.GetTasks` takes the keyword matcher as a parameter. `TaskRouter.ListTasks` passes `Text.LikeContains`, as the code does. `TaskRouter.ListTasksIntended` passes `Text.Contains`, the literal search the feature evidently means. `TaskRouter.UnderscoreKeywordSelectsAnyText` and `TaskRouter.PercentKeywordListsAll` show where the two differ. `TaskRouter.ListTasksLiteralKeyword` proves they give the same listing for every keyword without `%`, `_` or `\`.

=== FILE: auth_crud.dfy ===
/** A second user storage module (api/app/crud/auth.py): the same lookup and
    insert, with the constraint failure reported as its own error. */
module AuthCrud {
  import opened Results
  import opened Models
  import opened AuthSchemas
  import UserCrud

  datatype DuplicateUserError = DuplicateUserError

  /** `get_user_by_email`. */
  function GetUserByEmail(db: Db, email: string): (r: Option<User>)
    ensures r.Some? ==> r.value in db.users && r.value.email == email
    ensures r.None? <==> forall u :: u in db.users ==> u.email != email
  {
    UserCrud.GetUserByEmail(db.users, email)
  }

  /** `create_user`: as in the user module, with `DuplicateUserError` in place
      of the driver error. */
  function CreateUser(db: Db, data: UserCreate): (res: Result<(Db, User), DuplicateUserError>)
    ensures res.Err? <==> UserCrud.CreateUser(db, data).Err?
    ensures res.Ok? ==> res.value == UserCrud.CreateUser(db, data).value
  {
    match UserCrud.CreateUser(db, data)
    case Err(_) => Err(DuplicateUserError)
    case Ok(v) => Ok(v)
  }

  /** Both storage modules refuse exactly the same signups. */
  lemma CreateUserModulesAgree(db: Db, data: UserCreate)
    ensures CreateUser(db, data).Err? <==>
      exists u :: u in db.users && (u.username == data.username || u.email == data.email)
  {
  }
}

=== FILE: auth_flows.dfy ===
/** What a browser sees when it strings the `/auth` endpoints together:
    signing up, logging in, calling `/auth/me`, refreshing, logging out and
    resetting a password; and the consistency of the user table across them. */
module AuthFlows {
  import opened Results
  import opened Models
  import opened Tokens
  import opened AuthSchemas
  import UserCrud
  import opened AuthRouter

  // ---- logging in --------------------------------------------------------

  /** On a consistent user table a login succeeds exactly when both form
      fields are filled in and some user has this e-mail address and a hash of
      this password. */
  lemma LoginIffCredentials(db: Db, email: string, password: string, now: int, life: Lifetimes, cookieSecure: bool)
    requires UsersValid(db)
    ensures Login(db, Some(email), Some(password), now, life, cookieSecure).result.Ok? <==>
      && email != "" && password != ""
      && exists u :: u in db.users && u.email == email && u.hashedPassword == HashPassword(password)
  {
    var found := UserCrud.GetUserByEmail(db.users, email);
    if found.Some? {
      UserCrud.EmailIdentifiesUser(db, found.value);
    }
  }

  /** With both form fields filled in, a wrong password for a known address
      and any password for an unknown address get the same answer, so a failed
      login does not tell which addresses are registered. */
  lemma FailedLoginsLookAlike(db: Db, u: User, password: string, wrong: string, unknown: string, any: string,
                              now: int, life: Lifetimes, cookieSecure: bool)
    requires UsersValid(db) && u in db.users && u.hashedPassword == HashPassword(password)
    requires wrong != password
    requires forall v :: v in db.users ==> v.email != unknown
    requires u.email != "" && wrong != "" && unknown != "" && any != ""
    ensures Login(db, Some(u.email), Some(wrong), now, life, cookieSecure)
         == Login(db, Some(unknown), Some(any), now, life, cookieSecure)
         == Reply(Err(Unauthorized(IncorrectCredentials)), NoCookieChange)
  {
    UserCrud.EmailIdentifiesUser(db, u);
  }

  /** A user who has just signed up can log in with the address as the
      validator stored it and the password given at signup, and the login
      shows the user the signup created. The validator never yields an empty
      address. */
  lemma SignupThenLogin(db: Db, raw: UserCreateIn, emailStr: EmailValidator, now: int, life: Lifetimes, cookieSecure: bool)
    requires Signup(db, raw, emailStr).1.Ok?
    requires emailStr(raw.email.value) != Some("")
    ensures var (db', r) := Signup(db, raw, emailStr);
      var login := Login(db', emailStr(raw.email.value), raw.password, now, life, cookieSecure);
      && login.result.Ok?
      && login.result.value.user == r.value
      && login.result.value.token == BearerToken(CreateToken(db.nextUserId, Access, life.access, now))
  {
    var (db', r) := Signup(db, raw, emailStr);
    var stored := emailStr(raw.email.value).value;
    var u := User(db.nextUserId, raw.username.value, stored, HashPassword(raw.password.value));
    assert db'.users == db.users + [u];
    assert u in db'.users;
    assert forall v :: v in db.users ==> v.email != stored;
    var found := UserCrud.GetUserByEmail(db'.users, stored);
    assert found.value == u;
  }

  /** Login looks the address up exactly as typed. So when the validator
      rewrote the address at signup (a domain in capitals, say) and no one
      holds the spelling as typed, logging in with the address exactly as
      typed at signup is refused. */
  lemma SignupThenLoginAsTyped(db: Db, raw: UserCreateIn, emailStr: EmailValidator,
                               now: int, life: Lifetimes, cookieSecure: bool)
    requires Signup(db, raw, emailStr).1.Ok?
    requires emailStr(raw.email.value) != Some(raw.email.value) && raw.email.value != ""
    requires forall v :: v in db.users ==> v.email != raw.email.value
    ensures Login(Signup(db, raw, emailStr).0, raw.email, raw.password, now, life, cookieSecure)
         == Reply(Err(Unauthorized(IncorrectCredentials)), NoCookieChange)
  {
    var db' := Signup(db, raw, emailStr).0;
    var u := User(db.nextUserId, raw.username.value, emailStr(raw.email.value).value, HashPassword(raw.password.value));
    assert db'.users == db.users + [u];
    assert forall v :: v in db'.users ==> v.email != raw.email.value;
  }

  /** The access token a login returns authenticates its user at `/auth/me`
      for exactly its lifetime. */
  lemma LoginThenMe(db: Db, email: string, password: string, now: int, later: int, life: Lifetimes, cookieSecure: bool)
    requires UsersValid(db)
    requires Login(db, Some(email), Some(password), now, life, cookieSecure).result.Ok?
    ensures var resp := Login(db, Some(email), Some(password), now, life, cookieSecure).result.value;
      GetMe(db, resp.token.accessToken, later)
        == if later < now + life.access then Ok(resp.user) else Err(Unauthorized(InvalidOrExpired))
  {
    var u := UserCrud.GetUserByEmail(db.users, email).value;
    UserCrud.IdIdentifiesUser(db, u);
  }

  /** `/auth/me` answers with the user `get_current_user` resolves. */
  lemma GetMeAgreesWithCurrentUser(db: Db, t: Token, now: int)
    ensures GetMe(db, t, now).Ok? <==> GetCurrentUser(db, t, now).Ok?
    ensures GetMe(db, t, now).Ok? ==> GetMe(db, t, now).value == ToUserResponse(GetCurrentUser(db, t, now).value)
  {
  }

  // ---- refreshing and logging out -----------------------------------------

  /** The cookie a login sets obtains access tokens for the same user until
      the refresh token expires. */
  lemma LoginThenRefresh(db: Db, email: string, password: string, now: int, later: int, life: Lifetimes,
                         cookieSecure: bool, jar: Jar)
    requires Login(db, Some(email), Some(password), now, life, cookieSecure).result.Ok?
    ensures var login := Login(db, Some(email), Some(password), now, life, cookieSecure);
      var r := RefreshTokens(CookieSent(ApplyCookie(jar, login.cookie)), later, life, cookieSecure);
      && (r.result.Ok? <==> later < now + life.refresh)
      && (r.result.Ok? ==> r.result.value.accessToken
                             == CreateToken(login.result.value.user.id, Access, life.access, later))
  {
  }

  /** A refresh rotates the cookie: the new one works as the old one did, for
      the same user, with its lifetime counted from the refresh. */
  lemma RefreshRotates(t: Token, now: int, later: int, life: Lifetimes, cookieSecure: bool, jar: Jar)
    requires RefreshTokens(Some(t), now, life, cookieSecure).result.Ok?
    ensures var r := RefreshTokens(Some(t), now, life, cookieSecure);
      var again := RefreshTokens(CookieSent(ApplyCookie(jar, r.cookie)), later, life, cookieSecure);
      && (again.result.Ok? <==> later < now + life.refresh)
      && (again.result.Ok? ==> again.result.value.accessToken.sub == t.sub)
  {
  }

  /** After logging out the browser holds no refresh cookie, so refreshing
      answers 401. */
  lemma LogoutThenRefreshFails(jar: Jar, now: int, life: Lifetimes, secure1: bool, secure2: bool)
    ensures RefreshTokens(CookieSent(ApplyCookie(jar, Logout(secure1))), now, life, secure2)
         == Reply(Err(Unauthorized(RefreshTokenMissing)), NoCookieChange)
  {
  }

  // ---- renaming ----------------------------------------------------------

  /** After a rename `/auth/me` shows the new name. */
  lemma UpdateMeThenMe(db: Db, t: Token, name: string, now: int)
    requires Valid(db) && UpdateMe(db, t, Some(name), now).1.Ok?
    ensures var (db', r) := UpdateMe(db, t, Some(name), now);
      GetMe(db', t, now) == r && r.value.username == name
  {
    var u := FindUser(db.users, t.sub.value).value;
    var u' := u.(username := name);
    var db' := UpdateMe(db, t, Some(name), now).0;
    UserCrud.UpdateUsernamePreservesValid(db, u, name);
    var k :| 0 <= k < |db.users| && db.users[k] == u;
    assert db'.users[k] == u';
    UserCrud.IdIdentifiesUser(db', u');
  }

  // ---- resetting a password ----------------------------------------------

  /** The answer to a reset request is the same whether or not the address is
      registered. */
  lemma ResetRequestRevealsNothing(db1: Db, db2: Db, email: Option<string>, emailStr: EmailValidator,
                                   now: int, life: Lifetimes)
    ensures RequestPasswordReset(db1, email, emailStr, now, life).0
         == RequestPasswordReset(db2, email, emailStr, now, life).0
  {
  }

  /** After a user's hash is replaced by that of `newPassword`, that password
      logs them in and no other does. */
  lemma LoginAfterPasswordChange(db: Db, u: User, newPassword: string, other: string,
                                 now: int, life: Lifetimes, cookieSecure: bool)
    requires Valid(db) && u in db.users && other != newPassword
    requires u.email != "" && newPassword != ""
    ensures var db' := db.(users := UserCrud.ReplaceUser(db.users, u.(hashedPassword := HashPassword(newPassword))));
      && Login(db', Some(u.email), Some(newPassword), now, life, cookieSecure).result.Ok?
      && Login(db', Some(u.email), Some(other), now, life, cookieSecure).result.Err?
  {
    var u' := u.(hashedPassword := HashPassword(newPassword));
    var db' := db.(users := UserCrud.ReplaceUser(db.users, u'));
    UserCrud.UpdatePasswordPreservesValid(db, u, newPassword);
    var k :| 0 <= k < |db.users| && db.users[k] == u;
    assert db'.users[k] == u';
    UserCrud.EmailIdentifiesUser(db', u');
  }

  /** A user who asks for a reset, typing an address that normalises to theirs,
      and confirms it with the mailed token before it expires can then log in
      with the new password and with no other. */
  lemma ResetFlow(db: Db, u: User, typed: string, newPassword: string, other: string, emailStr: EmailValidator,
                  now: int, later: int, life: Lifetimes, cookieSecure: bool)
    requires Valid(db) && u in db.users && u.email != "" && emailStr(typed) == Some(u.email)
    requires |newPassword| >= 8 && other != newPassword
    requires later < now + life.passwordReset
    ensures var mail := RequestPasswordReset(db, Some(typed), emailStr, now, life).1;
      && mail == Some(ResetMail(u.email, CreateToken(u.id, PasswordReset, life.passwordReset, now)))
      && var (db', r) := ConfirmPasswordReset(db, ResetConfirmIn(Some(mail.value.token), Some(newPassword)), later);
      && r == Ok(ResetSuccessful)
      && Login(db', Some(u.email), Some(newPassword), later, life, cookieSecure).result.Ok?
      && Login(db', Some(u.email), Some(other), later, life, cookieSecure).result.Err?
  {
    UserCrud.EmailIdentifiesUser(db, u);
    UserCrud.IdIdentifiesUser(db, u);
    LoginAfterPasswordChange(db, u, newPassword, other, later, life, cookieSecure);
  }

  /** Confirming does not spend the token: until it expires the same token
      confirms another new password. */
  lemma ResetTokenIsReusable(db: Db, t: Token, first: string, second: string, at1: int, at2: int)
    requires ConfirmPasswordReset(db, ResetConfirmIn(Some(t), Some(first)), at1).1.Ok?
    requires at2 < t.exp && |second| >= 8
    ensures var db' := ConfirmPasswordReset(db, ResetConfirmIn(Some(t), Some(first)), at1).0;
      ConfirmPasswordReset(db', ResetConfirmIn(Some(t), Some(second)), at2).1 == Ok(ResetSuccessful)
  {
    var u := FindUser(db.users, t.sub.value).value;
    var db' := ConfirmPasswordReset(db, ResetConfirmIn(Some(t), Some(first)), at1).0;
    var k :| 0 <= k < |db.users| && db.users[k] == u;
    assert db'.users[k].id == t.sub.value;
    assert db'.users[k] in db'.users;
  }

  // ---- the user table stays consistent ------------------------------------

  lemma SignupPreservesValid(db: Db, raw: UserCreateIn, emailStr: EmailValidator)
    requires Valid(db)
    ensures Valid(Signup(db, raw, emailStr).0)
  {
    if ValidateUserCreate(raw, emailStr).Ok? {
      UserCrud.CreatePreservesValid(db, ValidateUserCreate(raw, emailStr).value);
    }
  }

  lemma UpdateMePreservesValid(db: Db, t: Token, username: Option<string>, now: int)
    requires Valid(db)
    ensures Valid(UpdateMe(db, t, username, now).0)
  {
    if UpdateMe(db, t, username, now).1.Ok? {
      UserCrud.UpdateUsernamePreservesValid(db, FindUser(db.users, t.sub.value).value, username.value);
    }
  }

  lemma ConfirmPreservesValid(db: Db, raw: ResetConfirmIn, now: int)
    requires Valid(db)
    ensures Valid(ConfirmPasswordReset(db, raw, now).0)
  {
    if ConfirmPasswordReset(db, raw, now).1.Ok? {
      UserCrud.UpdatePasswordPreservesValid(db, FindUser(db.users, raw.token.value.sub.value).value, raw.newPassword.value);
    }
  }
}

=== FILE: auth_router.dfy ===
/** The `/auth` endpoints (api/app/routers/auth.py). The clock `now` and the
    lifetimes of the issued tokens are parameters, the browser is its cookie
    jar, and the reset e-mail is returned as a value instead of being queued
    for sending. Dependencies (the access-token check) run before the request
    body is validated. */
module AuthRouter {
  import opened Results
  import opened Models
  import opened Tokens
  import opened AuthSchemas
  import UserCrud

  const AlreadyRegistered := "Username or email already registered"
  const IncorrectCredentials := "Incorrect email or password"
  const RefreshTokenMissing := "Refresh token missing"
  const UsernameTaken := "Username already taken"
  const InvalidOrExpiredToken := "Invalid or expired token"
  const ResetSuccessful := "Password reset successful"

  /** How long, in seconds, each kind of token the router issues stays valid. */
  datatype Lifetimes = Lifetimes(access: int, refresh: int, passwordReset: int)

  /** A response: its outcome and what it does to the refresh cookie. */
  datatype Reply<T> = Reply(result: Result<T, Failure>, cookie: CookieOp)

  /** The password-reset message handed to the mailer. */
  datatype Mail = ResetMail(to: string, token: Token)

  /** The refresh cookie a browser sends along to the `/auth` routes. */
  function CookieSent(jar: Jar): (c: Option<Token>)
    ensures c.Some? <==> RefreshCookie in jar
    ensures c.Some? ==> c.value == jar[RefreshCookie]
  {
    if RefreshCookie in jar then Some(jar[RefreshCookie]) else None
  }

  /** Some user already holds this username or this e-mail address. */
  predicate Registered(db: Db, username: string, email: string) {
    exists u :: u in db.users && (u.username == username || u.email == email)
  }

  // ---- endpoints ---------------------------------------------------------

  /** `signup`: 422 for a malformed body, 409 when the username or the
      normalised e-mail address is already registered, otherwise the new user,
      stored with the normalised address. */
  function Signup(db: Db, raw: UserCreateIn, emailStr: EmailValidator): (res: (Db, Result<UserResponse, Failure>))
    ensures res.1.Err? ==> res.0 == db
    ensures ValidateUserCreate(raw, emailStr).Err? ==> res.1 == Err(Unprocessable)
    ensures ValidateUserCreate(raw, emailStr).Ok? ==>
      && (res.1.Err? <==> Registered(db, raw.username.value, emailStr(raw.email.value).value))
      && (res.1.Err? ==> res.1.error == Conflict(AlreadyRegistered))
    ensures res.1.Ok? ==>
      var u := User(db.nextUserId, raw.username.value, emailStr(raw.email.value).value,
                    HashPassword(raw.password.value));
      && res.1.value == ToUserResponse(u)
      && res.0 == db.(users := db.users + [u], nextUserId := db.nextUserId + 1)
  {
    match ValidateUserCreate(raw, emailStr)
    case Err(e) => (db, Err(e))
    case Ok(data) =>
      match UserCrud.CreateUser(db, data)
      case Err(_) => (db, Err(Conflict(AlreadyRegistered)))
      case Ok((db', u)) => (db', Ok(ToUserResponse(u)))
  }

  /** A form field FastAPI treats as not sent: absent, or sent empty. */
  predicate FormMissing(v: Option<string>) {
    v.None? || v.value == ""
  }

  /** `login`: the form's `username` field carries the e-mail address, which
      is looked up exactly as typed. A missing or empty field is a 422. An
      unknown address and a wrong password get the same 401; success returns
      an access token with the user and sets a refresh-token cookie. */
  function Login(db: Db, email: Option<string>, password: Option<string>, now: int, life: Lifetimes, cookieSecure: bool)
    : (r: Reply<LoginResponse>)
    ensures FormMissing(email) || FormMissing(password) ==> r == Reply(Err(Unprocessable), NoCookieChange)
    ensures r.result.Ok? <==>
      && !FormMissing(email) && !FormMissing(password)
      && UserCrud.GetUserByEmail(db.users, email.value).Some?
      && VerifyPassword(password.value, UserCrud.GetUserByEmail(db.users, email.value).value.hashedPassword)
    ensures !FormMissing(email) && !FormMissing(password) && r.result.Err? ==>
      r == Reply(Err(Unauthorized(IncorrectCredentials)), NoCookieChange)
    ensures r.result.Ok? ==>
      var u := UserCrud.GetUserByEmail(db.users, email.value).value;
      && u in db.users && u.email == email.value
      && r.result.value == LoginResponse(BearerToken(CreateToken(u.id, Access, life.access, now)), ToUserResponse(u))
      && r.cookie == SetRefreshCookie(CreateToken(u.id, Refresh, life.refresh, now), cookieSecure)
  {
    if FormMissing(email) || FormMissing(password) then Reply(Err(Unprocessable), NoCookieChange)
    else
      match UserCrud.GetUserByEmail(db.users, email.value)
      case None => Reply(Err(Unauthorized(IncorrectCredentials)), NoCookieChange)
      case Some(u) =>
        if !VerifyPassword(password.value, u.hashedPassword) then
          Reply(Err(Unauthorized(IncorrectCredentials)), NoCookieChange)
        else
          var access := CreateToken(u.id, Access, life.access, now);
          var refresh := CreateToken(u.id, Refresh, life.refresh, now);
          Reply(Ok(LoginResponse(BearerToken(access), ToUserResponse(u))), SetRefreshCookie(refresh, cookieSecure))
  }

  /** `refresh`: 401 without the cookie or with a refresh token that does not
      verify; otherwise a new access token, and the cookie is rotated to a new
      refresh token. The user is not looked up. */
  function RefreshTokens(cookie: Option<Token>, now: int, life: Lifetimes, cookieSecure: bool): (r: Reply<TokenResponse>)
    ensures cookie.None? ==> r == Reply(Err(Unauthorized(RefreshTokenMissing)), NoCookieChange)
    ensures r.result.Ok? <==>
      cookie.Some? && Live(cookie.value, now) && cookie.value.typ == Some(Refresh) && cookie.value.sub.Some?
    ensures r.result.Err? ==> r.result.error.Unauthorized? && r.cookie == NoCookieChange
    ensures r.result.Ok? ==>
      var uid := cookie.value.sub.value;
      && r.result.value == BearerToken(CreateToken(uid, Access, life.access, now))
      && r.cookie == SetRefreshCookie(CreateToken(uid, Refresh, life.refresh, now), cookieSecure)
  {
    match cookie
    case None => Reply(Err(Unauthorized(RefreshTokenMissing)), NoCookieChange)
    case Some(t) =>
      match Verify(t, Refresh, now)
      case Err(e) => Reply(Err(e), NoCookieChange)
      case Ok(uid) =>
        var access := CreateToken(uid, Access, life.access, now);
        var refresh := CreateToken(uid, Refresh, life.refresh, now);
        Reply(Ok(BearerToken(access)), SetRefreshCookie(refresh, cookieSecure))
  }

  /** `logout`: always answers 204 and deletes the refresh cookie, whether or
      not the browser had one. */
  function Logout(cookieSecure: bool): (op: CookieOp)
    ensures forall jar: Jar :: RefreshCookie !in ApplyCookie(jar, op)
    ensures forall jar: Jar, id :: id != RefreshCookie ==> (id in ApplyCookie(jar, op) <==> id in jar)
  {
    ClearRefreshCookie(cookieSecure)
  }

  /** `get_me`: the user a live access token names; 401 when the token does
      not verify or the user no longer exists. */
  function GetMe(db: Db, t: Token, now: int): (r: Result<UserResponse, Failure>)
    ensures GetCurrentUserId(t, now).Err? ==> r == Err(GetCurrentUserId(t, now).error)
    ensures r.Ok? <==> GetCurrentUserId(t, now).Ok? && FindUser(db.users, t.sub.value).Some?
    ensures GetCurrentUserId(t, now).Ok? && r.Err? ==> r.error == Unauthorized(InvalidToken)
    ensures r.Ok? ==> exists u :: u in db.users && Some(u.id) == t.sub && r.value == ToUserResponse(u)
  {
    match GetCurrentUserId(t, now)
    case Err(e) => Err(e)
    case Ok(uid) =>
      match FindUser(db.users, uid)
      case None => Err(Unauthorized(InvalidToken))
      case Some(u) => Ok(ToUserResponse(u))
  }

  /** `update_me`: 401 for a bad token, 422 for a malformed body, 401 when the
      user no longer exists, 409 when another user has the name, otherwise the
      user renamed. */
  function UpdateMe(db: Db, t: Token, username: Option<string>, now: int): (res: (Db, Result<UserResponse, Failure>))
    ensures res.1.Err? ==> res.0 == db
    ensures GetCurrentUserId(t, now).Err? ==> res.1 == Err(GetCurrentUserId(t, now).error)
    ensures GetCurrentUserId(t, now).Ok? && ValidateUsernameUpdate(username).Err? ==> res.1 == Err(Unprocessable)
    ensures res.1.Ok? <==>
      && GetCurrentUserId(t, now).Ok? && ValidateUsernameUpdate(username).Ok?
      && FindUser(db.users, t.sub.value).Some?
      && forall v :: v in db.users && v.id != t.sub.value ==> v.username != username.value
    ensures (GetCurrentUserId(t, now).Ok? && ValidateUsernameUpdate(username).Ok?
      && FindUser(db.users, t.sub.value).None?) ==> res.1 == Err(Unauthorized(InvalidToken))
    ensures (GetCurrentUserId(t, now).Ok? && ValidateUsernameUpdate(username).Ok?
      && FindUser(db.users, t.sub.value).Some? && res.1.Err?) ==> res.1.error == Conflict(UsernameTaken)
    ensures res.1.Ok? ==>
      var u := FindUser(db.users, t.sub.value).value;
      && res.1.value == UserResponse(u.id, username.value, u.email)
      && res.0 == db.(users := UserCrud.ReplaceUser(db.users, u.(username := username.value)))
  {
    match GetCurrentUserId(t, now)
    case Err(e) => (db, Err(e))
    case Ok(uid) =>
      match ValidateUsernameUpdate(username)
      case Err(e) => (db, Err(e))
      case Ok(name) =>
        match FindUser(db.users, uid)
        case None => (db, Err(Unauthorized(InvalidToken)))
        case Some(u) =>
          match UserCrud.UpdateUsername(db, u, name)
          case Err(_) => (db, Err(Conflict(UsernameTaken)))
          case Ok((db', u')) => (db', Ok(ToUserResponse(u')))
  }

  /** `request_password_reset`: 422 for a malformed body, otherwise 202 in
      every case; a reset token is mailed only when the normalised address
      belongs to a user. */
  function RequestPasswordReset(db: Db, email: Option<string>, emailStr: EmailValidator, now: int, life: Lifetimes)
    : (res: (Result<(), Failure>, Option<Mail>))
    ensures res.0.Ok? <==> ValidateResetRequest(email, emailStr).Ok?
    ensures res.0.Err? ==> res.0.error == Unprocessable
    ensures res.1.Some? <==> res.0.Ok? && exists u :: u in db.users && Some(u.email) == emailStr(email.value)
    ensures res.1.Some? ==>
      var u := UserCrud.GetUserByEmail(db.users, emailStr(email.value).value).value;
      res.1.value == ResetMail(u.email, CreateToken(u.id, PasswordReset, life.passwordReset, now))
  {
    match ValidateResetRequest(email, emailStr)
    case Err(_) => (Err(Unprocessable), None)
    case Ok(e) =>
      match UserCrud.GetUserByEmail(db.users, e)
      case None => (Ok(()), None)
      case Some(u) => (Ok(()), Some(ResetMail(u.email, CreateToken(u.id, PasswordReset, life.passwordReset, now))))
  }

  /** `confirm_password_reset`: 422 for a malformed body, 401 for a token that
      does not verify as a password-reset token, 400 when its user no longer
      exists, otherwise the user's password is replaced. */
  function ConfirmPasswordReset(db: Db, raw: ResetConfirmIn, now: int): (res: (Db, Result<string, Failure>))
    ensures res.1.Err? ==> res.0 == db
    ensures ValidateResetConfirm(raw).Err? ==> res.1 == Err(Unprocessable)
    ensures ValidateResetConfirm(raw).Ok? && Verify(raw.token.value, PasswordReset, now).Err? ==>
      res.1 == Err(Verify(raw.token.value, PasswordReset, now).error)
    ensures res.1.Ok? <==>
      && ValidateResetConfirm(raw).Ok?
      && Verify(raw.token.value, PasswordReset, now).Ok?
      && FindUser(db.users, raw.token.value.sub.value).Some?
    ensures ValidateResetConfirm(raw).Ok? && Verify(raw.token.value, PasswordReset, now).Ok? && res.1.Err? ==>
      res.1.error == BadRequest(InvalidOrExpiredToken)
    ensures res.1.Ok? ==>
      var u := FindUser(db.users, raw.token.value.sub.value).value;
      && res.1.value == ResetSuccessful
      && res.0 == db.(users := UserCrud.ReplaceUser(db.users, u.(hashedPassword := HashPassword(raw.newPassword.value))))
  {
    match ValidateResetConfirm(raw)
    case Err(e) => (db, Err(e))
    case Ok(data) =>
      match Verify(data.token, PasswordReset, now)
      case Err(e) => (db, Err(e))
      case Ok(uid) =>
        match FindUser(db.users, uid)
        case None => (db, Err(BadRequest(InvalidOrExpiredToken)))
        case Some(u) =>
          var (db', _) := UserCrud.UpdatePassword(db, u, data.newPassword);
          (db', Ok(ResetSuccessful))
  }
}

=== FILE: config.dfy ===
/** Process-wide settings read once at start-up (api/app/config.py) and the
    parsing of the comma-separated CORS origin list. */
module Config {
  import opened Results

  /** Lifetime of an access token, in minutes, when the environment does not
      set one. */
  const DefaultAccessTokenExpireMinutes := 30

  datatype Settings = Settings(
    databaseUrl: string,
    corsOrigins: string,
    secretKey: string,
    accessTokenExpireMinutes: int)

  /** Builds the settings from the values found in the environment: the
      database URL, the origin list and the secret key are required, the
      access-token lifetime falls back to its default. */
  function LoadSettings(
    databaseUrl: Option<string>,
    corsOrigins: Option<string>,
    secretKey: Option<string>,
    accessTokenExpireMinutes: Option<int>): (r: Option<Settings>)
    ensures r.Some? <==> databaseUrl.Some? && corsOrigins.Some? && secretKey.Some?
    ensures r.Some? ==>
      && r.value.databaseUrl == databaseUrl.value
      && r.value.corsOrigins == corsOrigins.value
      && r.value.secretKey == secretKey.value
    ensures r.Some? && accessTokenExpireMinutes.None? ==>
      r.value.accessTokenExpireMinutes == 30
    ensures r.Some? && accessTokenExpireMinutes.Some? ==>
      r.value.accessTokenExpireMinutes == accessTokenExpireMinutes.value
  {
    if databaseUrl.None? || corsOrigins.None? || secretKey.None? then None
    else
      var minutes := match accessTokenExpireMinutes
        case Some(m) => m
        case None => DefaultAccessTokenExpireMinutes;
      Some(Settings(databaseUrl.value, corsOrigins.value, secretKey.value, minutes))
  }

  /** The characters Python's `str.strip()` removes: those for which
      `str.isspace()` holds. */
  predicate IsSpace(c: char) {
    var n := c as int;
    || (0x09 <= n <= 0x0D) || (0x1C <= n <= 0x20) || n == 0x85 || n == 0xA0
    || n == 0x1680 || (0x2000 <= n <= 0x200A) || n == 0x2028 || n == 0x2029
    || n == 0x202F || n == 0x205F || n == 0x3000
  }

  /** Every character of `s` is whitespace. */
  predicate AllSpace(s: string) {
    forall k :: 0 <= k < |s| ==> IsSpace(s[k])
  }

  /** `s` neither starts nor ends with whitespace. */
  predicate IsStripped(s: string) {
    |s| == 0 || (!IsSpace(s[0]) && !IsSpace(s[|s| - 1]))
  }

  function TrimLeft(s: string): (r: string)
    ensures |r| <= |s| && r == s[|s| - |r|..]
    ensures AllSpace(s[..|s| - |r|])
    ensures |r| > 0 ==> !IsSpace(r[0])
  {
    if |s| > 0 && IsSpace(s[0]) then TrimLeft(s[1..]) else s
  }

  function TrimRight(s: string): (r: string)
    ensures |r| <= |s| && r == s[..|r|]
    ensures AllSpace(s[|r|..])
    ensures |r| > 0 ==> !IsSpace(r[|r| - 1])
  {
    if |s| > 0 && IsSpace(s[|s| - 1]) then TrimRight(s[..|s| - 1]) else s
  }

  /** `r` sits in `s` at offset `i` with only whitespace before and after it. */
  predicate PaddedAt(s: string, r: string, i: int) {
    && 0 <= i && i + |r| <= |s| && s[i..i + |r|] == r
    && AllSpace(s[..i]) && AllSpace(s[i + |r|..])
  }

  /** Python's `str.strip()`: `s` without its leading and trailing whitespace. */
  function Strip(s: string): (r: string)
    ensures IsStripped(r)
    ensures exists i :: PaddedAt(s, r, i)
  {
    TrimBothStripped(s);
    TrimBothPadded(s);
    TrimRight(TrimLeft(s))
  }

  /** Trimming both ends leaves no whitespace at either end. */
  lemma TrimBothStripped(s: string)
    ensures IsStripped(TrimRight(TrimLeft(s)))
  {
    var t := TrimLeft(s);
    var r := TrimRight(t);
    if |r| > 0 {
      assert r[0] == t[0];
    }
  }

  /** A whitespace prefix of `s` cut off, then a whitespace suffix of the
      remainder, leave a piece padded by whitespace in `s`. */
  lemma PaddedFromParts(s: string, t: string, r: string)
    requires |t| <= |s| && t == s[|s| - |t|..] && AllSpace(s[..|s| - |t|])
    requires |r| <= |t| && r == t[..|r|] && AllSpace(t[|r|..])
    ensures PaddedAt(s, r, |s| - |t|)
  {
    var i := |s| - |t|;
    assert s[i..i + |r|] == r;
    assert s[i + |r|..] == t[|r|..];
  }

  /** What trimming both ends leaves sits in `s` after the whitespace trimmed
      from the front, with only whitespace after it. */
  lemma TrimBothPadded(s: string)
    ensures PaddedAt(s, TrimRight(TrimLeft(s)), |s| - |TrimLeft(s)|)
  {
    PaddedFromParts(s, TrimLeft(s), TrimRight(TrimLeft(s)));
  }

  lemma {:induction false} TrimLeftPadded(lead: string, x: string)
    requires AllSpace(lead)
    ensures TrimLeft(lead + x) == TrimLeft(x)
    decreases |lead|
  {
    if |lead| > 0 {
      assert (lead + x)[1..] == lead[1..] + x;
      TrimLeftPadded(lead[1..], x);
    } else {
      assert lead + x == x;
    }
  }

  lemma {:induction false} TrimRightPadded(x: string, trail: string)
    requires AllSpace(trail)
    ensures TrimRight(x + trail) == TrimRight(x)
    decreases |trail|
  {
    if |trail| > 0 {
      assert (x + trail)[..|x + trail| - 1] == x + trail[..|trail| - 1];
      TrimRightPadded(x, trail[..|trail| - 1]);
    } else {
      assert x + trail == x;
    }
  }

  /** Surrounding `s` with whitespace and stripping it gives `s` back, when
      `s` has no whitespace at either end. */
  lemma StripPadded(lead: string, s: string, trail: string)
    requires AllSpace(lead) && AllSpace(trail) && IsStripped(s)
    ensures Strip(lead + s + trail) == s
  {
    assert lead + s + trail == lead + (s + trail);
    TrimLeftPadded(lead, s + trail);
    if |s| == 0 {
      assert s + trail == trail;
      TrimLeftPadded(trail, "");
      assert trail + "" == trail;
    } else {
      assert TrimLeft(s + trail) == s + trail;
      TrimRightPadded(s, trail);
    }
  }

  /** Index of the first occurrence of `c` in `s`. */
  function IndexOf(s: string, c: char): (i: nat)
    requires c in s
    ensures i < |s| && s[i] == c && c !in s[..i]
  {
    if s[0] == c then 0
    else
      var i := IndexOf(s[1..], c);
      assert s[..i + 1] == [s[0]] + s[1..][..i];
      i + 1
  }

  /** Number of occurrences of `c` in `s`. */
  function Count(s: string, c: char): nat {
    if |s| == 0 then 0 else (if s[0] == c then 1 else 0) + Count(s[1..], c)
  }

  lemma {:induction false} CountAppend(a: string, b: string, c: char)
    ensures Count(a + b, c) == Count(a, c) + Count(b, c)
    decreases |a|
  {
    if |a| > 0 {
      assert (a + b)[1..] == a[1..] + b;
      CountAppend(a[1..], b, c);
    } else {
      assert a + b == b;
    }
  }

  lemma {:induction false} CountAbsent(s: string, c: char)
    requires c !in s
    ensures Count(s, c) == 0
    decreases |s|
  {
    if |s| > 0 {
      assert c !in s[1..];
      CountAbsent(s[1..], c);
    }
  }

  /** Python's `sep.join(parts)`. */
  function Join(parts: seq<string>, sep: char): string {
    if |parts| == 0 then ""
    else if |parts| == 1 then parts[0]
    else parts[0] + [sep] + Join(parts[1..], sep)
  }

  /** Python's `s.split(sep)` for a one-character separator: the maximal
      separator-free segments of `s`, always at least one. */
  function Split(s: string, sep: char): (r: seq<string>)
    ensures |r| >= 1
    ensures forall k :: 0 <= k < |r| ==> sep !in r[k]
    ensures Join(r, sep) == s
    decreases |s|
  {
    if sep !in s then [s]
    else
      var i := IndexOf(s, sep);
      var rest := Split(s[i + 1..], sep);
      var r := [s[..i]] + rest;
      assert r[1..] == rest;
      assert s == s[..i] + [sep] + s[i + 1..];
      r
  }

  /** Splitting has one segment more than the string has separators. */
  lemma {:induction false} SplitLength(s: string, sep: char)
    ensures |Split(s, sep)| == Count(s, sep) + 1
    decreases |s|
  {
    if sep !in s {
      CountAbsent(s, sep);
    } else {
      var i := IndexOf(s, sep);
      SplitLength(s[i + 1..], sep);
      assert s == s[..i] + ([sep] + s[i + 1..]);
      CountAppend(s[..i], [sep] + s[i + 1..], sep);
      CountAppend([sep], s[i + 1..], sep);
      CountAbsent(s[..i], sep);
      assert Count([sep], sep) == 1 by {
        assert [sep][1..] == [];
      }
      assert Count(s, sep) == Count(s[i + 1..], sep) + 1;
    }
  }

  /** Splitting at the separator that follows a separator-free prefix
      gives that prefix, then the segments of what follows. */
  lemma SplitAtFirst(p: string, rest: string, sep: char)
    requires sep !in p
    ensures Split(p + [sep] + rest, sep) == [p] + Split(rest, sep)
  {
    var s := p + [sep] + rest;
    assert s[|p|] == sep && sep in s;
    var i := IndexOf(s, sep);
    assert i == |p| by {
      assert forall j :: 0 <= j < |p| ==> s[j] == p[j];
    }
    assert s[..i] == p;
    assert s[i + 1..] == rest;
  }

  /** Joining separator-free segments and splitting the result again gives
      back exactly those segments, in order. */
  lemma {:induction false} SplitJoin(parts: seq<string>, sep: char)
    requires |parts| >= 1
    requires forall k :: 0 <= k < |parts| ==> sep !in parts[k]
    ensures Split(Join(parts, sep), sep) == parts
    decreases |parts|
  {
    if |parts| > 1 {
      var s := Join(parts, sep);
      var p := parts[0];
      var rest := Join(parts[1..], sep);
      assert s == p + [sep] + rest;
      SplitAtFirst(p, rest, sep);
      SplitJoin(parts[1..], sep);
      assert parts == [p] + parts[1..];
    }
  }

  /** `Settings.cors_origins_list`: the origin string split at every comma, each
      segment stripped of surrounding whitespace. */
  function CorsOriginsList(s: Settings): (r: seq<string>)
    ensures |r| == Count(s.corsOrigins, ',') + 1
    ensures forall k :: 0 <= k < |r| ==> ',' !in r[k] && IsStripped(r[k])
  {
    var segments := Split(s.corsOrigins, ',');
    SplitLength(s.corsOrigins, ',');
    seq(|segments|, k requires 0 <= k < |segments| => Strip(segments[k]))
  }

  /** Origins written one per comma-separated segment come out one entry per
      segment, in the order written, each with the whitespace around it
      removed. */
  lemma CorsOriginsInOrder(s: Settings, lead: seq<string>, origins: seq<string>, trail: seq<string>)
    requires |origins| >= 1 && |lead| == |origins| && |trail| == |origins|
    requires forall k :: 0 <= k < |origins| ==>
      && AllSpace(lead[k]) && AllSpace(trail[k]) && IsStripped(origins[k])
      && ',' !in lead[k] + origins[k] + trail[k]
    requires s.corsOrigins ==
      Join(seq(|origins|, k requires 0 <= k < |origins| => lead[k] + origins[k] + trail[k]), ',')
    ensures CorsOriginsList(s) == origins
  {
    var segments := seq(|origins|, k requires 0 <= k < |origins| => lead[k] + origins[k] + trail[k]);
    SplitJoin(segments, ',');
    forall k | 0 <= k < |origins| ensures Strip(segments[k]) == origins[k] {
      StripPadded(lead[k], origins[k], trail[k]);
    }
  }
}

=== FILE: models.dfy ===
/** The persisted entities (the files under api/app/models) and the database that holds
    them. Each table is a sequence of rows in insertion order; ids come from
    an auto-increment counter per table. */
module Models {
  import opened Results

  /** A stored password hash. Hashing is modelled as an injective tag on the
      password: equal passwords give equal hashes and different passwords
      different ones. */
  datatype PasswordHash = Digest(preimage: string)

  datatype User = User(id: int, username: string, email: string, hashedPassword: PasswordHash)

  datatype Status = Status(id: int, name: string, color: string, order: int, userId: int)

  /** A task; `dueDate` is a calendar date counted in days. */
  datatype Task = Task(
    id: int, title: string, content: string, dueDate: int, statusId: int, userId: int)

  datatype Db = Db(
    users: seq<User>,
    statuses: seq<Status>,
    tasks: seq<Task>,
    nextUserId: int,
    nextStatusId: int,
    nextTaskId: int)

  /** The database before any row is inserted. */
  const EmptyDb := Db([], [], [], 1, 1, 1)

  /** Primary keys are positive, below the next auto-increment value, and
      distinct; `username` and `email` are unique columns. */
  predicate UsersValid(db: Db) {
    && db.nextUserId >= 1
    && (forall i :: 0 <= i < |db.users| ==> 1 <= db.users[i].id < db.nextUserId)
    && (forall i, j :: 0 <= i < j < |db.users| ==>
          && db.users[i].id != db.users[j].id
          && db.users[i].username != db.users[j].username
          && db.users[i].email != db.users[j].email)
  }

  /** One status row on its own: a key below the next id, a positive order. */
  predicate StatusRowOk(s: Status, nextId: int) {
    1 <= s.id < nextId && s.order >= 1
  }

  /** Two status rows may coexist: different keys, and different orders when
      they belong to the same owner. */
  predicate StatusesApart(a: Status, b: Status) {
    a.id != b.id && (a.userId == b.userId ==> a.order != b.order)
  }

  /** Status ids are keys; every order is positive, and no two statuses of the
      same owner share an order. */
  predicate StatusesValid(db: Db) {
    && db.nextStatusId >= 1
    && (forall i :: 0 <= i < |db.statuses| ==> StatusRowOk(db.statuses[i], db.nextStatusId))
    && (forall i, j :: 0 <= i < j < |db.statuses| ==> StatusesApart(db.statuses[i], db.statuses[j]))
  }

  /** `owner` has a status with id `statusId`. */
  predicate OwnsStatus(statuses: seq<Status>, owner: int, statusId: int) {
    exists i :: 0 <= i < |statuses| && statuses[i].id == statusId && statuses[i].userId == owner
  }

  /** Task ids are keys, and every task refers to a status of its own owner. */
  predicate TasksValid(db: Db) {
    && db.nextTaskId >= 1
    && (forall i :: 0 <= i < |db.tasks| ==> 1 <= db.tasks[i].id < db.nextTaskId)
    && (forall i, j :: 0 <= i < j < |db.tasks| ==> db.tasks[i].id != db.tasks[j].id)
    && (forall i :: 0 <= i < |db.tasks| ==>
          OwnsStatus(db.statuses, db.tasks[i].userId, db.tasks[i].statusId))
  }

  /** The integrity the database and the routers maintain together. */
  predicate Valid(db: Db) {
    UsersValid(db) && StatusesValid(db) && TasksValid(db)
  }

  /** The user with primary key `id`, if any. */
  function FindUser(users: seq<User>, id: int): (r: Option<User>)
    ensures r.Some? ==> r.value in users && r.value.id == id
    ensures r.None? ==> forall u :: u in users ==> u.id != id
  {
    if |users| == 0 then None
    else if users[0].id == id then Some(users[0])
    else FindUser(users[1..], id)
  }

  /** Two status tables whose rows, position by position, have the same id
      and owner. */
  predicate SameStatusKeys(a: seq<Status>, b: seq<Status>) {
    |a| == |b| && forall i :: 0 <= i < |a| ==> a[i].id == b[i].id && a[i].userId == b[i].userId
  }

  /** Task references only look at status ids and owners, so a table with the
      same keys serves them equally. */
  lemma TasksValidSameKeys(db: Db, statuses: seq<Status>)
    requires TasksValid(db) && SameStatusKeys(db.statuses, statuses)
    ensures TasksValid(db.(statuses := statuses))
  {
    forall i | 0 <= i < |db.tasks|
      ensures OwnsStatus(statuses, db.tasks[i].userId, db.tasks[i].statusId)
    {
      var k :| 0 <= k < |db.statuses| && db.statuses[k].id == db.tasks[i].statusId
        && db.statuses[k].userId == db.tasks[i].userId;
      assert statuses[k].id == db.statuses[k].id;
    }
  }

  lemma EmptyDbValid()
    ensures Valid(EmptyDb)
  {
  }
}

=== FILE: results.dfy ===
/** Success/failure carriers shared by every layer of the model, and the HTTP
    error responses the routers raise. */
module Results {

  datatype Option<+T> = None | Some(value: T)

  datatype Result<+T, +E> = Ok(value: T) | Err(error: E)

  /** An error response as the transport layer sends it: the routers raise these
      through `HTTPException`, and FastAPI answers 422 on its own when a request
      body fails schema validation. */
  datatype Failure =
    | Unauthorized(detail: string)
    | NotFound(detail: string)
    | Conflict(detail: string)
    | BadRequest(detail: string)
    | Unprocessable
  {
    /** The HTTP status code sent for this failure. */
    function Code(): int {
      match this
      case Unauthorized(_) => 401
      case NotFound(_) => 404
      case Conflict(_) => 409
      case BadRequest(_) => 400
      case Unprocessable => 422
    }
  }
}

=== FILE: schemas.dfy ===
/** Request and response shapes of the auth endpoints (api/app/schemas/auth.py).
    A raw request field is `None` when the body lacks it; validation either
    yields the typed payload or the 422 FastAPI answers with. Whether a string
    is an e-mail address, and how it is normalised, is decided by a library
    the source calls, so it is a parameter here. */
module AuthSchemas {
  import opened Results
  import opened Models
  import opened Tokens

  /** `min_length`/`max_length` of a pydantic string field, counted in
      characters. */
  predicate LengthIn(s: string, lo: int, hi: int) {
    lo <= |s| <= hi
  }

  /** The e-mail validator behind `EmailStr`: the normalised address it
      stores, or `None` when it rejects the string. */
  type EmailValidator = string -> Option<string>

  datatype UserCreateIn = UserCreateIn(username: Option<string>, email: Option<string>, password: Option<string>)
  datatype UserCreate = UserCreate(username: string, email: string, password: string)

  /** `UserCreate`: a username of 3 to 150 characters, an e-mail address and a
      password of at least 8 characters, all required. The payload carries the
      address in the validator's normal form. */
  function ValidateUserCreate(raw: UserCreateIn, emailStr: EmailValidator): (r: Result<UserCreate, Failure>)
    ensures r.Ok? <==>
      && raw.username.Some? && 3 <= |raw.username.value| <= 150
      && raw.email.Some? && emailStr(raw.email.value).Some?
      && raw.password.Some? && |raw.password.value| >= 8
    ensures r.Ok? ==>
      r.value == UserCreate(raw.username.value, emailStr(raw.email.value).value, raw.password.value)
    ensures r.Err? ==> r.error == Unprocessable
  {
    match (raw.username, raw.email, raw.password)
    case (Some(u), Some(e), Some(p)) =>
      if LengthIn(u, 3, 150) && emailStr(e).Some? && |p| >= 8 then Ok(UserCreate(u, emailStr(e).value, p))
      else Err(Unprocessable)
    case _ => Err(Unprocessable)
  }

  /** `UsernameUpdate`: the same 3 to 150 character bound as at signup. */
  function ValidateUsernameUpdate(username: Option<string>): (r: Result<string, Failure>)
    ensures r.Ok? <==> username.Some? && 3 <= |username.value| <= 150
    ensures r.Ok? ==> r.value == username.value
    ensures r.Err? ==> r.error == Unprocessable
  {
    match username
    case Some(u) => if LengthIn(u, 3, 150) then Ok(u) else Err(Unprocessable)
    case None => Err(Unprocessable)
  }

  /** A username accepted at signup is accepted as an update, and the other
      way round. */
  lemma UsernameBoundsAgree(raw: UserCreateIn, emailStr: EmailValidator)
    requires raw.email.Some? && emailStr(raw.email.value).Some?
    requires raw.password.Some? && |raw.password.value| >= 8
    ensures ValidateUserCreate(raw, emailStr).Ok? <==> ValidateUsernameUpdate(raw.username).Ok?
  {
  }

  /** `PasswordResetRequest`: a required e-mail address, in normal form. */
  function ValidateResetRequest(email: Option<string>, emailStr: EmailValidator): (r: Result<string, Failure>)
    ensures r.Ok? <==> email.Some? && emailStr(email.value).Some?
    ensures r.Ok? ==> Some(r.value) == emailStr(email.value)
    ensures r.Err? ==> r.error == Unprocessable
  {
    match email
    case Some(e) => if emailStr(e).Some? then Ok(emailStr(e).value) else Err(Unprocessable)
    case None => Err(Unprocessable)
  }

  datatype ResetConfirmIn = ResetConfirmIn(token: Option<Token>, newPassword: Option<string>)
  datatype ResetConfirm = ResetConfirm(token: Token, newPassword: string)

  /** `PasswordResetConfirm`: a token and a new password of at least 8
      characters, both required. */
  function ValidateResetConfirm(raw: ResetConfirmIn): (r: Result<ResetConfirm, Failure>)
    ensures r.Ok? <==> raw.token.Some? && raw.newPassword.Some? && |raw.newPassword.value| >= 8
    ensures r.Ok? ==> r.value == ResetConfirm(raw.token.value, raw.newPassword.value)
    ensures r.Err? ==> r.error == Unprocessable
  {
    match (raw.token, raw.newPassword)
    case (Some(t), Some(p)) => if |p| >= 8 then Ok(ResetConfirm(t, p)) else Err(Unprocessable)
    case _ => Err(Unprocessable)
  }

  /** `UserResponse`: what the API shows of a user. It has no password field. */
  datatype UserResponse = UserResponse(id: int, username: string, email: string)

  function ToUserResponse(u: User): (r: UserResponse)
    ensures r.id == u.id && r.username == u.username && r.email == u.email
  {
    UserResponse(u.id, u.username, u.email)
  }

  /** Two users that differ only in their password hash look the same through
      the API: a response reveals nothing about the stored hash. */
  lemma ResponseHidesPassword(u: User, h: PasswordHash)
    ensures ToUserResponse(u.(hashedPassword := h)) == ToUserResponse(u)
  {
  }

  /** The response determines exactly the id, username and email. */
  lemma ResponseDeterminesIdentity(u: User, v: User)
    ensures ToUserResponse(u) == ToUserResponse(v) <==>
      u.id == v.id && u.username == v.username && u.email == v.email
  {
  }

  /** `Token`: an access token and its type, `"bearer"` unless stated. */
  datatype TokenResponse = TokenResponse(accessToken: Token, tokenType: string)

  const DefaultTokenType := "bearer"

  function BearerToken(access: Token): (r: TokenResponse)
    ensures r.accessToken == access && r.tokenType == "bearer"
  {
    TokenResponse(access, DefaultTokenType)
  }

  datatype LoginResponse = LoginResponse(token: TokenResponse, user: UserResponse)
}

/** Request shapes of the status endpoints (api/app/schemas/status.py).
    `StatusCreate` and `StatusUpdate` both inherit `StatusBase` unchanged, so
    one validator serves both and they accept exactly the same bodies; neither
    has an `order` field. */
module StatusSchemas {
  import opened Results

  datatype StatusIn = StatusIn(name: Option<string>, color: Option<string>)
  datatype StatusPayload = StatusPayload(name: string, color: string)

  /** `StatusBase`: a name of 1 to 50 characters and a color of at most 7,
      both required. */
  function ValidateStatus(raw: StatusIn): (r: Result<StatusPayload, Failure>)
    ensures r.Ok? <==>
      raw.name.Some? && 1 <= |raw.name.value| <= 50 && raw.color.Some? && |raw.color.value| <= 7
    ensures r.Ok? ==> r.value == StatusPayload(raw.name.value, raw.color.value)
    ensures r.Err? ==> r.error == Unprocessable
  {
    match (raw.name, raw.color)
    case (Some(n), Some(c)) =>
      if 1 <= |n| <= 50 && |c| <= 7 then Ok(StatusPayload(n, c)) else Err(Unprocessable)
    case _ => Err(Unprocessable)
  }

  /** `StatusReorder`: a required, non-empty list of status ids. */
  function ValidateReorder(order: Option<seq<int>>): (r: Result<seq<int>, Failure>)
    ensures r.Ok? <==> order.Some? && |order.value| >= 1
    ensures r.Ok? ==> r.value == order.value
    ensures r.Err? ==> r.error == Unprocessable
  {
    match order
    case Some(ids) => if |ids| >= 1 then Ok(ids) else Err(Unprocessable)
    case None => Err(Unprocessable)
  }
}

/** Request shapes of the task endpoints (api/app/schemas/task.py). Both
    `TaskCreate` and `TaskUpdate` inherit `TaskBase` unchanged, so one
    validator serves both. The body also carries the status the task belongs
    to, which the routers read as `status_id`. */
module TaskSchemas {
  import opened Results

  datatype TaskIn = TaskIn(
    title: Option<string>, content: Option<string>, dueDate: Option<int>, statusId: Option<int>)
  datatype TaskPayload = TaskPayload(title: string, content: string, dueDate: int, statusId: int)

  /** `TaskBase`: a title of 1 to 255 characters; content, due date and status
      required, content of any length. */
  function ValidateTask(raw: TaskIn): (r: Result<TaskPayload, Failure>)
    ensures r.Ok? <==>
      && raw.title.Some? && 1 <= |raw.title.value| <= 255
      && raw.content.Some? && raw.dueDate.Some? && raw.statusId.Some?
    ensures r.Ok? ==>
      r.value == TaskPayload(raw.title.value, raw.content.value, raw.dueDate.value, raw.statusId.value)
    ensures r.Err? ==> r.error == Unprocessable
  {
    match (raw.title, raw.content, raw.dueDate, raw.statusId)
    case (Some(t), Some(c), Some(d), Some(s)) =>
      if 1 <= |t| <= 255 then Ok(TaskPayload(t, c, d, s)) else Err(Unprocessable)
    case _ => Err(Unprocessable)
  }

  /** A body with no fields at all is refused. */
  lemma EmptyBodyRefused()
    ensures ValidateTask(TaskIn(None, None, None, None)) == Err(Unprocessable)
  {
  }
}

=== FILE: sorting.dfy ===
/** Ordering of query results by an integer column, the way an SQL `ORDER BY`
    returns rows: sorted on the key, every row exactly once, ties in no
    promised order. The model resolves ties with a stable insertion sort. */
module Sorting {

  /** `s` is in ascending order of `key`. */
  predicate SortedBy<T>(s: seq<T>, key: T -> int) {
    forall i, j :: 0 <= i < j < |s| ==> key(s[i]) <= key(s[j])
  }

  /** Inserts `x` into the sorted sequence `s`, before the first element whose
      key is not smaller. */
  function Insert<T>(x: T, s: seq<T>, key: T -> int): (r: seq<T>)
    requires SortedBy(s, key)
    ensures SortedBy(r, key)
    ensures multiset(r) == multiset(s) + multiset{x}
    ensures |r| == |s| + 1
    ensures forall k :: 0 <= k < |r| ==> r[k] == x || r[k] in s
  {
    if |s| == 0 then [x]
    else if key(x) <= key(s[0]) then
      SortedCons(x, s, key);
      [x] + s
    else
      var rest := Insert(x, s[1..], key);
      assert s == [s[0]] + s[1..];
      HeadBelowInserted(x, s, rest, key);
      SortedCons(s[0], rest, key);
      [s[0]] + rest
  }

  /** A row whose key is at most every key of a sorted sequence can go in
      front of it. */
  lemma SortedCons<T>(y: T, r: seq<T>, key: T -> int)
    requires SortedBy(r, key)
    requires forall k :: 0 <= k < |r| ==> key(y) <= key(r[k])
    ensures SortedBy([y] + r, key)
  {
    var c := [y] + r;
    forall i, j | 0 <= i < j < |c| ensures key(c[i]) <= key(c[j]) {
      if i == 0 {
        assert c[j] == r[j - 1];
      } else {
        assert c[i] == r[i - 1] && c[j] == r[j - 1];
      }
    }
  }

  /** When `x` goes after the head of sorted `s`, the head's key bounds every
      row of the rest with `x` inserted. */
  lemma HeadBelowInserted<T>(x: T, s: seq<T>, rest: seq<T>, key: T -> int)
    requires |s| > 0 && SortedBy(s, key) && key(s[0]) < key(x)
    requires forall k :: 0 <= k < |rest| ==> rest[k] == x || rest[k] in s[1..]
    ensures forall k :: 0 <= k < |rest| ==> key(s[0]) <= key(rest[k])
  {
    forall k | 0 <= k < |rest| ensures key(s[0]) <= key(rest[k]) {
      if rest[k] != x {
        var m :| 0 <= m < |s[1..]| && s[1..][m] == rest[k];
        assert s[m + 1] == rest[k];
      }
    }
  }

  /** The rows of `s` rearranged into ascending order of `key`. */
  function SortBy<T>(s: seq<T>, key: T -> int): (r: seq<T>)
    ensures SortedBy(r, key)
    ensures multiset(r) == multiset(s)
    ensures |r| == |s|
  {
    if |s| == 0 then []
    else
      assert s == [s[0]] + s[1..];
      Insert(s[0], SortBy(s[1..], key), key)
  }

  /** Keeps the rows of `s` that satisfy `p`, in their original order; each kept
      row occurs as often as it did in `s`. */
  function Filter<T(!new)>(s: seq<T>, p: T -> bool): (r: seq<T>)
    ensures forall x :: x in r <==> x in s && p(x)
    ensures forall x :: multiset(r)[x] == if p(x) then multiset(s)[x] else 0
    ensures |r| <= |s|
  {
    if |s| == 0 then []
    else
      assert s == [s[0]] + s[1..];
      if p(s[0]) then [s[0]] + Filter(s[1..], p) else Filter(s[1..], p)
  }

  /** Filters whose conditions agree on every element keep the same elements,
      in the same order. */
  lemma {:induction false} FilterSamePredicate<T(!new)>(s: seq<T>, p: T -> bool, q: T -> bool)
    requires forall i :: 0 <= i < |s| ==> p(s[i]) == q(s[i])
    ensures Filter(s, p) == Filter(s, q)
    decreases |s|
  {
    if |s| > 0 {
      assert forall i :: 0 <= i < |s[1..]| ==> s[1..][i] == s[i + 1];
      FilterSamePredicate(s[1..], p, q);
    }
  }

  /** `rel` holds between every row of `s` and every later row. */
  predicate Pairwise<T>(s: seq<T>, rel: (T, T) -> bool) {
    forall i, j :: 0 <= i < j < |s| ==> rel(s[i], s[j])
  }

  /** Dropping the first row keeps a pairwise relation. */
  lemma PairwiseTail<T>(s: seq<T>, rel: (T, T) -> bool)
    requires |s| > 0 && Pairwise(s, rel)
    ensures Pairwise(s[1..], rel)
  {
    var tail := s[1..];
    forall i, j | 0 <= i < j < |tail| ensures rel(tail[i], tail[j]) {
      assert tail[i] == s[i + 1] && tail[j] == s[j + 1];
    }
  }

  /** The first row of `s` is related to every later row that survives a
      filter of the rest. */
  lemma HeadRelatesToKept<T(!new)>(s: seq<T>, p: T -> bool, rel: (T, T) -> bool, x: T)
    requires |s| > 0 && Pairwise(s, rel)
    requires x in Filter(s[1..], p)
    ensures rel(s[0], x)
  {
    var tail := s[1..];
    assert x in tail;
    var k :| 0 <= k < |tail| && tail[k] == x;
    assert s[k + 1] == x;
  }

  /** Prepending a row related to every row of a pairwise-related sequence
      keeps it pairwise related. */
  lemma PairwiseCons<T>(x: T, r: seq<T>, rel: (T, T) -> bool)
    requires Pairwise(r, rel)
    requires forall k :: 0 <= k < |r| ==> rel(x, r[k])
    ensures Pairwise([x] + r, rel)
  {
    var c := [x] + r;
    forall i, j | 0 <= i < j < |c| ensures rel(c[i], c[j]) {
      if i == 0 {
        assert c[j] == r[j - 1];
      } else {
        assert c[i] == r[i - 1] && c[j] == r[j - 1];
      }
    }
  }

  lemma {:induction false} FilterPairwise<T(!new)>(s: seq<T>, p: T -> bool, rel: (T, T) -> bool)
    requires Pairwise(s, rel)
    ensures Pairwise(Filter(s, p), rel)
  {
    if |s| > 0 {
      PairwiseTail(s, rel);
      FilterPairwise(s[1..], p, rel);
      var rt := Filter(s[1..], p);
      if p(s[0]) {
        forall k | 0 <= k < |rt| ensures rel(s[0], rt[k]) {
          HeadRelatesToKept(s, p, rel, rt[k]);
        }
        PairwiseCons(s[0], rt, rel);
        assert Filter(s, p) == [s[0]] + rt;
      } else {
        assert Filter(s, p) == rt;
      }
    }
  }

  /** Filtering keeps the relative order of the rows it keeps, so a relation
      that holds between every earlier and later row of `s` still holds in the
      result. */
  lemma FilterKeepsPairwise<T(!new)>(s: seq<T>, p: T -> bool, rel: (T, T) -> bool)
    requires forall i, j :: 0 <= i < j < |s| ==> rel(s[i], s[j])
    ensures forall i, j :: 0 <= i < j < |Filter(s, p)| ==> rel(Filter(s, p)[i], Filter(s, p)[j])
  {
    FilterPairwise(s, p, rel);
  }

  /** Filtering by a condition every row meets keeps the sequence as it is. */
  lemma {:induction false} FilterKeepsAll<T(!new)>(s: seq<T>, p: T -> bool)
    requires forall i :: 0 <= i < |s| ==> p(s[i])
    ensures Filter(s, p) == s
  {
    if |s| > 0 {
      var tail := s[1..];
      assert forall i :: 0 <= i < |tail| ==> p(tail[i]) by {
        forall i | 0 <= i < |tail| ensures p(tail[i]) {
          assert tail[i] == s[i + 1];
        }
      }
      FilterKeepsAll(tail, p);
      assert [s[0]] + tail == s;
    }
  }

  /** A sequence in which no element occurs twice. */
  predicate NoDuplicates<T(==)>(s: seq<T>) {
    forall i, j :: 0 <= i < j < |s| ==> s[i] != s[j]
  }

  /** A duplicate-free sequence holds each of its elements exactly once. */
  lemma {:induction false} NoDuplicatesCount<T>(s: seq<T>, x: T)
    requires NoDuplicates(s)
    ensures multiset(s)[x] == if x in s then 1 else 0
  {
    if |s| > 0 {
      assert s == [s[0]] + s[1..];
      assert NoDuplicates(s[1..]) by {
        forall i, j | 0 <= i < j < |s[1..]| ensures s[1..][i] != s[1..][j] {
          assert s[1..][i] == s[i + 1] && s[1..][j] == s[j + 1];
        }
      }
      NoDuplicatesCount(s[1..], x);
      if x == s[0] {
        assert x !in s[1..] by {
          forall k | 0 <= k < |s[1..]| ensures s[1..][k] != x {
            assert s[1..][k] == s[k + 1];
          }
        }
      }
    }
  }

  /** A sequence whose multiset holds every element at most once is
      duplicate-free. */
  lemma {:induction false} CountOneNoDuplicates<T>(s: seq<T>)
    requires forall x :: multiset(s)[x] <= 1
    ensures NoDuplicates(s)
  {
    forall i, j | 0 <= i < j < |s| ensures s[i] != s[j] {
      assert s == s[..i] + [s[i]] + s[i + 1..j] + [s[j]] + s[j + 1..];
      assert multiset(s)[s[i]] >= 1 + (if s[j] == s[i] then 1 else 0);
    }
  }
}

=== FILE: status_crud.dfy ===
/** Storage operations on statuses (api/app/crud/status.py), scoped to the
    owning user as the routers call them. */
module StatusCrud {
  import opened Results
  import opened Models
  import opened Sorting
  import opened StatusSchemas

  function OrderKey(s: Status): int {
    s.order
  }

  /** The statuses of `owner`, in table order. */
  function OwnedStatuses(statuses: seq<Status>, owner: int): (r: seq<Status>)
    ensures forall s :: s in r <==> s in statuses && s.userId == owner
    ensures forall s :: multiset(r)[s] == if s.userId == owner then multiset(statuses)[s] else 0
  {
    Filter(statuses, (s: Status) => s.userId == owner)
  }

  /** When every status belongs to `owner`, scoping to the owner selects the
      whole table: for a single user the owner-scoped operations act on all
      rows, as the unscoped storage functions do. */
  lemma SingleOwnerScopeIsWholeTable(statuses: seq<Status>, owner: int)
    requires forall i :: 0 <= i < |statuses| ==> statuses[i].userId == owner
    ensures OwnedStatuses(statuses, owner) == statuses
  {
    FilterKeepsAll(statuses, (s: Status) => s.userId == owner);
  }

  /** `get_statuses`: the owner's statuses in ascending `order`. */
  function GetStatuses(db: Db, owner: int): (r: seq<Status>)
    ensures forall i, j :: 0 <= i < j < |r| ==> r[i].order <= r[j].order
    ensures forall s :: multiset(r)[s] == if s.userId == owner then multiset(db.statuses)[s] else 0
    ensures forall s :: s in r <==> s in db.statuses && s.userId == owner
  {
    var r := SortBy(OwnedStatuses(db.statuses, owner), OrderKey);
    assert forall i, j :: 0 <= i < j < |r| ==> OrderKey(r[i]) <= OrderKey(r[j]);
    assert forall s :: s in r <==> s in multiset(r);
    r
  }

  /** The first status in `statuses` with this id and owner. */
  function FindStatus(statuses: seq<Status>, id: int, owner: int): (r: Option<Status>)
    ensures r.Some? <==> OwnsStatus(statuses, owner, id)
    ensures r.Some? ==> r.value in statuses && r.value.id == id && r.value.userId == owner
  {
    if |statuses| == 0 then None
    else if statuses[0].id == id && statuses[0].userId == owner then Some(statuses[0])
    else
      var r := FindStatus(statuses[1..], id, owner);
      assert OwnsStatus(statuses, owner, id) ==> OwnsStatus(statuses[1..], owner, id) by {
        if OwnsStatus(statuses, owner, id) {
          var i :| 0 <= i < |statuses| && statuses[i].id == id && statuses[i].userId == owner;
          assert i != 0;
          assert statuses[1..][i - 1] == statuses[i];
        }
      }
      assert OwnsStatus(statuses[1..], owner, id) ==> OwnsStatus(statuses, owner, id) by {
        if OwnsStatus(statuses[1..], owner, id) {
          var i :| 0 <= i < |statuses[1..]| && statuses[1..][i].id == id && statuses[1..][i].userId == owner;
          assert statuses[i + 1] == statuses[1..][i];
        }
      }
      r
  }

  /** `get_status`: the status with this id, if `owner` owns it. */
  function GetStatus(db: Db, id: int, owner: int): (r: Option<Status>)
    ensures r.Some? <==> OwnsStatus(db.statuses, owner, id)
    ensures r.Some? ==> r.value in db.statuses && r.value.id == id && r.value.userId == owner
  {
    FindStatus(db.statuses, id, owner)
  }

  /** The largest `order` among the owner's statuses, `None` when there are
      none. */
  function MaxOrder(statuses: seq<Status>, owner: int): (r: Option<int>)
    ensures r.None? <==> forall s :: s in statuses ==> s.userId != owner
    ensures r.Some? ==> forall s :: s in statuses && s.userId == owner ==> s.order <= r.value
    ensures r.Some? ==> exists s :: s in statuses && s.userId == owner && s.order == r.value
  {
    if |statuses| == 0 then None
    else
      var rest := MaxOrder(statuses[1..], owner);
      var s := statuses[0];
      assert statuses == [s] + statuses[1..];
      if s.userId != owner then rest
      else match rest
        case None => Some(s.order)
        case Some(m) => if s.order >= m then Some(s.order) else Some(m)
  }

  /** `create_status`: a new status of `owner` placed after all of the owner's
      existing ones, with the next free id. The caller cannot choose the
      order. */
  function CreateStatus(db: Db, data: StatusPayload, owner: int): (res: (Db, Status))
    ensures var s := res.1;
      && s.id == db.nextStatusId && s.name == data.name && s.color == data.color && s.userId == owner
    ensures forall t :: t in db.statuses && t.userId == owner ==> t.order < res.1.order
    ensures (forall t :: t in db.statuses ==> t.userId != owner) ==> res.1.order == 1
    ensures (exists t :: t in db.statuses && t.userId == owner) ==>
      exists t :: t in db.statuses && t.userId == owner && t.order + 1 == res.1.order
    ensures res.0 == db.(statuses := db.statuses + [res.1], nextStatusId := db.nextStatusId + 1)
  {
    var maxOrder := match MaxOrder(db.statuses, owner)
      case None => 0
      case Some(m) => m;
    var s := Status(db.nextStatusId, data.name, data.color, maxOrder + 1, owner);
    (db.(statuses := db.statuses + [s], nextStatusId := db.nextStatusId + 1), s)
  }

  /** `update_status`: the stored status gets the new name and color and keeps
      its id, order and owner; every other row stays as it was. */
  function UpdateStatus(db: Db, status: Status, data: StatusPayload): (res: (Db, Status))
    requires status in db.statuses
    ensures res.1 == status.(name := data.name, color := data.color)
    ensures |res.0.statuses| == |db.statuses|
    ensures forall i :: 0 <= i < |db.statuses| ==>
      res.0.statuses[i] == if db.statuses[i].id == status.id then res.1 else db.statuses[i]
    ensures res.0 == db.(statuses := res.0.statuses)
  {
    var updated := status.(name := data.name, color := data.color);
    var ss := seq(|db.statuses|, i requires 0 <= i < |db.statuses| =>
      if db.statuses[i].id == status.id then updated else db.statuses[i]);
    (db.(statuses := ss), updated)
  }

  /** One `UPDATE statuses SET order = n WHERE id = ? AND user_id = ?`. */
  function SetOrder(statuses: seq<Status>, id: int, owner: int, n: int): (r: seq<Status>)
    ensures |r| == |statuses|
    ensures forall i :: 0 <= i < |r| ==>
      r[i] == if statuses[i].id == id && statuses[i].userId == owner then statuses[i].(order := n)
              else statuses[i]
  {
    seq(|statuses|, i requires 0 <= i < |statuses| =>
      if statuses[i].id == id && statuses[i].userId == owner then statuses[i].(order := n)
      else statuses[i])
  }

  /** The renumbering loop: the k-th id of the list, counting from `first`,
      gets order k, one update after another. */
  function ApplyOrders(statuses: seq<Status>, ids: seq<int>, owner: int, first: int): (r: seq<Status>)
    ensures |r| == |statuses|
    ensures forall i :: 0 <= i < |r| ==>
      r[i] == statuses[i].(order := r[i].order)
    ensures forall i :: 0 <= i < |r| && (statuses[i].userId != owner || statuses[i].id !in ids) ==>
      r[i] == statuses[i]
    decreases |ids|
  {
    if |ids| == 0 then statuses
    else ApplyOrders(SetOrder(statuses, ids[0], owner, first), ids[1..], owner, first + 1)
  }

  /** The position of the last occurrence of `x` in `ids`. */
  function LastIndex(ids: seq<int>, x: int): (k: nat)
    requires x in ids
    ensures k < |ids| && ids[k] == x
    ensures forall j :: k < j < |ids| ==> ids[j] != x
  {
    if x in ids[1..] then
      var k := LastIndex(ids[1..], x);
      assert forall j :: k + 1 < j < |ids| ==> ids[j] == ids[1..][j - 1];
      1 + k
    else
      assert forall j :: 0 < j < |ids| ==> ids[j] == ids[1..][j - 1];
      0
  }

  /** After the loop every status of the owner that the list names carries the
      number of the list position where it was named LAST; all other rows are
      untouched. */
  lemma {:induction false} ApplyOrdersLastWriteWins(statuses: seq<Status>, ids: seq<int>, owner: int, first: int)
    ensures forall i :: 0 <= i < |statuses| ==>
      ApplyOrders(statuses, ids, owner, first)[i] ==
        if statuses[i].userId == owner && statuses[i].id in ids
        then statuses[i].(order := first + LastIndex(ids, statuses[i].id))
        else statuses[i]
    decreases |ids|
  {
    if |ids| > 0 {
      var next := SetOrder(statuses, ids[0], owner, first);
      ApplyOrdersLastWriteWins(next, ids[1..], owner, first + 1);
      forall i | 0 <= i < |statuses|
        ensures ApplyOrders(statuses, ids, owner, first)[i] ==
          if statuses[i].userId == owner && statuses[i].id in ids
          then statuses[i].(order := first + LastIndex(ids, statuses[i].id))
          else statuses[i]
      {
        var s := statuses[i];
        assert next[i].id == s.id && next[i].userId == s.userId;
        if s.userId == owner && s.id in ids[1..] {
          assert s.id in ids;
          assert LastIndex(ids, s.id) == 1 + LastIndex(ids[1..], s.id);
        } else if s.userId == owner && s.id == ids[0] {
          assert LastIndex(ids, s.id) == 0;
        }
      }
    }
  }

  /** `after` is `before` with every status of `owner` that `ids` names
      renumbered to one past its last position in `ids`. */
  predicate Renumbered(before: seq<Status>, after: seq<Status>, ids: seq<int>, owner: int) {
    && |after| == |before|
    && forall i :: 0 <= i < |before| ==>
         after[i] ==
           if before[i].userId == owner && before[i].id in ids
           then before[i].(order := 1 + LastIndex(ids, before[i].id))
           else before[i]
  }

  /** `reorder_statuses`: renumbers the listed statuses of `owner` and returns
      the owner's statuses in their new order. A status named more than once
      ends with the number of its last position. */
  function ReorderStatuses(db: Db, ids: seq<int>, owner: int): (res: (Db, seq<Status>))
    ensures Renumbered(db.statuses, res.0.statuses, ids, owner)
    ensures res.0 == db.(statuses := res.0.statuses)
    ensures res.1 == GetStatuses(res.0, owner)
  {
    ApplyOrdersLastWriteWins(db.statuses, ids, owner, 1);
    var db' := db.(statuses := ApplyOrders(db.statuses, ids, owner, 1));
    (db', GetStatuses(db', owner))
  }

  /** `has_tasks_with_status`: some task, of any owner, refers to the status. */
  function HasTasksWithStatus(db: Db, statusId: int): (r: bool)
    ensures r <==> exists t :: t in db.tasks && t.statusId == statusId
  {
    exists i :: 0 <= i < |db.tasks| && db.tasks[i].statusId == statusId
  }

  /** `delete_status`: removes the row with the status's id and nothing else. */
  function DeleteStatus(db: Db, status: Status): (r: Db)
    ensures forall s :: s in r.statuses <==> s in db.statuses && s.id != status.id
    ensures forall s :: multiset(r.statuses)[s] == if s.id != status.id then multiset(db.statuses)[s] else 0
    ensures r == db.(statuses := r.statuses)
  {
    db.(statuses := Filter(db.statuses, (s: Status) => s.id != status.id))
  }
}

=== FILE: status_list.dfy ===
/** The reorder controls of the status list page
    (web/src/components/status/StatusList.tsx). Each row of the listing offers
    to move its status one place up or down; a click swaps two neighbouring
    ids of the displayed order and sends the whole id list to
    `PUT /statuses/reorder`. */
module StatusList {
  import opened Results
  import opened Models
  import opened Sorting
  import StatusCrud
  import StatusRouter
  import StatusOrdering

  datatype Move = Up | Down

  /** The ids of the displayed statuses, in display order. */
  function Ids(statuses: seq<Status>): (ids: seq<int>)
    ensures |ids| == |statuses|
    ensures forall i :: 0 <= i < |ids| ==> ids[i] == statuses[i].id
  {
    seq(|statuses|, i requires 0 <= i < |statuses| => statuses[i].id)
  }

  /** Exchanges the entries at positions `i` and `j`. */
  function Swap(ids: seq<int>, i: int, j: int): (r: seq<int>)
    requires 0 <= i < |ids| && 0 <= j < |ids|
    ensures |r| == |ids|
    ensures r[i] == ids[j] && r[j] == ids[i]
    ensures forall k :: 0 <= k < |ids| && k != i && k != j ==> r[k] == ids[k]
  {
    seq(|ids|, k requires 0 <= k < |ids| => if k == i then ids[j] else if k == j then ids[i] else ids[k])
  }

  /** A swap rearranges the entries without adding or losing any. */
  lemma SwapIsPermutation(ids: seq<int>, i: int, j: int)
    requires 0 <= i < j < |ids|
    ensures multiset(Swap(ids, i, j)) == multiset(ids)
  {
    var r := Swap(ids, i, j);
    assert ids == ids[..i] + [ids[i]] + ids[i + 1..j] + [ids[j]] + ids[j + 1..];
    assert r == ids[..i] + [ids[j]] + ids[i + 1..j] + [ids[i]] + ids[j + 1..];
  }

  /** `handleMoveUp(index)`: the ids with row `index` and the row above it
      exchanged. */
  function MoveUp(ids: seq<int>, index: int): (r: seq<int>)
    requires 0 < index < |ids|
    ensures |r| == |ids| && multiset(r) == multiset(ids)
    ensures r[index - 1] == ids[index] && r[index] == ids[index - 1]
    ensures forall k :: 0 <= k < |ids| && k != index - 1 && k != index ==> r[k] == ids[k]
  {
    SwapIsPermutation(ids, index - 1, index);
    Swap(ids, index - 1, index)
  }

  /** `handleMoveDown(index)`: the ids with row `index` and the row below it
      exchanged. */
  function MoveDown(ids: seq<int>, index: int): (r: seq<int>)
    requires 0 <= index < |ids| - 1
    ensures |r| == |ids| && multiset(r) == multiset(ids)
    ensures r[index] == ids[index + 1] && r[index + 1] == ids[index]
    ensures forall k :: 0 <= k < |ids| && k != index && k != index + 1 ==> r[k] == ids[k]
  {
    SwapIsPermutation(ids, index, index + 1);
    Swap(ids, index, index + 1)
  }

  /** Clicking the `move` control of row `index`: the id list sent for
      reordering, or nothing when the page shows no such control. An empty
      list shows no rows at all; the first row has no "up" control and the
      last no "down" control. */
  function Click(statuses: seq<Status>, index: int, move: Move): (r: Option<seq<int>>)
    ensures |statuses| == 0 ==> r.None?
    ensures r.Some? <==>
      && 0 <= index < |statuses|
      && (move == Up ==> index > 0)
      && (move == Down ==> index < |statuses| - 1)
    ensures r.Some? ==> multiset(r.value) == multiset(Ids(statuses)) && |r.value| == |statuses|
    ensures r.Some? && move == Up ==> r.value == MoveUp(Ids(statuses), index)
    ensures r.Some? && move == Down ==> r.value == MoveDown(Ids(statuses), index)
  {
    if |statuses| == 0 || index < 0 || index >= |statuses| then None
    else match move
      case Up => if index > 0 then Some(MoveUp(Ids(statuses), index)) else None
      case Down => if index < |statuses| - 1 then Some(MoveDown(Ids(statuses), index)) else None
  }

  // ---- properties --------------------------------------------------------

  /** Moving a row down and then moving it back up restores the order, and so
      does the other way round. */
  lemma MovesUndoEachOther(ids: seq<int>, index: int)
    requires 0 <= index < |ids| - 1
    ensures MoveUp(MoveDown(ids, index), index + 1) == ids
    ensures MoveDown(MoveUp(ids, index + 1), index) == ids
  {
  }

  /** The displayed ids of a consistent owner's listing are distinct. */
  lemma ListingIdsDistinct(db: Db, owner: int)
    requires StatusesValid(db)
    ensures NoDuplicates(Ids(StatusCrud.GetStatuses(db, owner)))
  {
    var listing := StatusCrud.GetStatuses(db, owner);
    var ids := Ids(listing);
    StatusOrdering.ListingDistinct(db, owner);
    forall i, j | 0 <= i < j < |ids| ensures ids[i] != ids[j] {
      if ids[i] == ids[j] {
        StatusOrdering.SameIdSameRow(db, listing[i], listing[j]);
      }
    }
  }

  /** A rearrangement of the displayed ids names each status once. */
  lemma PermutationDistinct(db: Db, owner: int, ids: seq<int>)
    requires StatusesValid(db)
    requires multiset(ids) == multiset(Ids(StatusCrud.GetStatuses(db, owner)))
    ensures NoDuplicates(ids)
  {
    var shown := Ids(StatusCrud.GetStatuses(db, owner));
    ListingIdsDistinct(db, owner);
    forall x ensures multiset(ids)[x] <= 1 {
      NoDuplicatesCount(shown, x);
    }
    CountOneNoDuplicates(ids);
  }

  /** The displayed ids are exactly the owner's status ids. */
  lemma ShownIdsAreOwned(db: Db, owner: int, x: int)
    ensures x in Ids(StatusCrud.GetStatuses(db, owner)) <==> x in StatusRouter.OwnedIds(db, owner)
  {
    var listing := StatusCrud.GetStatuses(db, owner);
    var shown := Ids(listing);
    if x in shown {
      var k :| 0 <= k < |shown| && shown[k] == x;
      assert listing[k] in listing;
    }
    if x in StatusRouter.OwnedIds(db, owner) {
      var s :| s in db.statuses && s.userId == owner && s.id == x;
      assert s in listing;
      var k :| 0 <= k < |listing| && listing[k] == s;
      assert shown[k] == x;
    }
  }

  /** A rearrangement of the displayed ids passes the reorder endpoint's set
      comparison. */
  lemma PermutationPassesGate(db: Db, owner: int, ids: seq<int>)
    requires multiset(ids) == multiset(Ids(StatusCrud.GetStatuses(db, owner)))
    ensures StatusRouter.ReorderGate(db, ids, owner)
  {
    var shown := Ids(StatusCrud.GetStatuses(db, owner));
    forall x ensures x in ids <==> x in StatusRouter.OwnedIds(db, owner) {
      assert x in ids <==> x in multiset(ids);
      assert x in shown <==> x in multiset(shown);
      ShownIdsAreOwned(db, owner, x);
    }
    StatusRouter.ReorderGateIsSetEquality(db, ids, owner);
  }

  /** Every list a click sends, from the owner's current listing, is accepted
      by the reorder endpoint, and afterwards the listing shows the statuses in
      the clicked order numbered 1, 2, ... */
  lemma ClickIsAccepted(db: Db, owner: int, index: int, move: Move)
    requires Valid(db)
    requires Click(StatusCrud.GetStatuses(db, owner), index, move).Some?
    ensures var ids := Click(StatusCrud.GetStatuses(db, owner), index, move).value;
      var (db', r) := StatusRouter.ReorderStatuses(db, Some(ids), owner);
      && r.Ok?
      && |r.value| == |ids|
      && forall k :: 0 <= k < |ids| ==> r.value[k].id == ids[k] && r.value[k].order == k + 1
  {
    var ids := Click(StatusCrud.GetStatuses(db, owner), index, move).value;
    PermutationDistinct(db, owner, ids);
    PermutationPassesGate(db, owner, ids);
    StatusOrdering.ReorderNumbersInListOrder(db, ids, owner);
  }
}

=== FILE: status_ordering.dfy ===
/** What the reorder endpoint guarantees about the numbering of a user's
    statuses (api/app/routers/status.py together with api/app/crud/status.py). */
module StatusOrdering {
  import opened Results
  import opened Models
  import opened Sorting
  import StatusCrud
  import StatusRouter

  /** Reordering keeps the store consistent, whatever the request: a refused
      request changes nothing, and an accepted one names every status of the
      owner, so the new orders of two statuses of the owner come from two
      different list positions. Statuses named twice keep this too. */
  lemma ReorderPreservesValid(db: Db, raw: Option<seq<int>>, owner: int)
    requires Valid(db)
    ensures Valid(StatusRouter.ReorderStatuses(db, raw, owner).0)
  {
    var res := StatusRouter.ReorderStatuses(db, raw, owner);
    if res.1.Ok? {
      var ids := raw.value;
      StatusRouter.ReorderGateIsSetEquality(db, ids, owner);
      GatedReorderValid(db, ids, owner);
    }
  }

  /** The set comparison means every status of the owner is named in the
      list, and every listed id is one of the owner's statuses. */
  lemma GateNamesOwnedRows(db: Db, ids: seq<int>, owner: int)
    requires StatusRouter.ReorderGate(db, ids, owner)
    ensures forall i :: 0 <= i < |db.statuses| && db.statuses[i].userId == owner ==> db.statuses[i].id in ids
    ensures forall x :: x in ids ==> OwnsStatus(db.statuses, owner, x)
  {
    StatusRouter.ReorderGateIsSetEquality(db, ids, owner);
    forall i | 0 <= i < |db.statuses| && db.statuses[i].userId == owner
      ensures db.statuses[i].id in ids
    {
      assert db.statuses[i] in db.statuses;
    }
    forall x | x in ids ensures OwnsStatus(db.statuses, owner, x) {
      assert x in StatusRouter.OwnedIds(db, owner);
      var s :| s in db.statuses && s.userId == owner && s.id == x;
      var p :| 0 <= p < |db.statuses| && db.statuses[p] == s;
    }
  }

  /** Renumbering the owner's statuses by positions of a list that names all
      of them keeps the status conditions. */
  lemma RenumberedValid(db: Db, after: seq<Status>, ids: seq<int>, owner: int)
    requires StatusesValid(db)
    requires StatusCrud.Renumbered(db.statuses, after, ids, owner)
    requires forall i :: 0 <= i < |db.statuses| && db.statuses[i].userId == owner ==> db.statuses[i].id in ids
    ensures StatusesValid(db.(statuses := after))
    ensures SameStatusKeys(db.statuses, after)
  {
    forall i | 0 <= i < |after| ensures StatusRowOk(after[i], db.nextStatusId) {
      assert StatusRowOk(db.statuses[i], db.nextStatusId);
    }
    forall i, j | 0 <= i < j < |after| ensures StatusesApart(after[i], after[j]) {
      assert StatusesApart(db.statuses[i], db.statuses[j]);
    }
  }

  /** Renumbering, by a list that passes the gate, keeps the whole store
      consistent. */
  lemma RenumberedStoreValid(db: Db, after: seq<Status>, ids: seq<int>, owner: int)
    requires Valid(db)
    requires StatusRouter.ReorderGate(db, ids, owner)
    requires StatusCrud.Renumbered(db.statuses, after, ids, owner)
    ensures Valid(db.(statuses := after))
  {
    GateNamesOwnedRows(db, ids, owner);
    RenumberedValid(db, after, ids, owner);
    TasksValidSameKeys(db, after);
  }

  lemma GatedReorderValid(db: Db, ids: seq<int>, owner: int)
    requires Valid(db)
    requires StatusRouter.ReorderGate(db, ids, owner)
    ensures Valid(StatusCrud.ReorderStatuses(db, ids, owner).0)
  {
    var after := StatusCrud.ReorderStatuses(db, ids, owner).0.statuses;
    RenumberedStoreValid(db, after, ids, owner);
  }

  /** In a list without repeats each position is the last one for its id. */
  lemma LastIndexOfDistinct(ids: seq<int>)
    requires NoDuplicates(ids)
    ensures forall k :: 0 <= k < |ids| ==> StatusCrud.LastIndex(ids, ids[k]) == k
  {
    forall k | 0 <= k < |ids| ensures StatusCrud.LastIndex(ids, ids[k]) == k {
      var l := StatusCrud.LastIndex(ids, ids[k]);
      assert ids[l] == ids[k];
    }
  }

  /** Each status of the owner in the renumbered table carries the number of
      the last list position that names it. */
  lemma RenumberedOwnedRow(before: seq<Status>, after: seq<Status>, ids: seq<int>, owner: int, x: Status)
    requires StatusCrud.Renumbered(before, after, ids, owner)
    requires forall i :: 0 <= i < |before| && before[i].userId == owner ==> before[i].id in ids
    requires x in after && x.userId == owner
    ensures x.id in ids && x.order == 1 + StatusCrud.LastIndex(ids, x.id)
  {
    var p :| 0 <= p < |after| && after[p] == x;
    assert before[p].userId == owner;
  }

  /** In a consistent table two rows with the same id are the same row. */
  lemma SameIdSameRow(db: Db, x: Status, y: Status)
    requires StatusesValid(db)
    requires x in db.statuses && y in db.statuses && x.id == y.id
    ensures x == y
  {
    var p :| 0 <= p < |db.statuses| && db.statuses[p] == x;
    var q :| 0 <= q < |db.statuses| && db.statuses[q] == y;
  }

  /** The listing of a consistent table shows each status once. */
  lemma ListingDistinct(db: Db, owner: int)
    requires StatusesValid(db)
    ensures NoDuplicates(StatusCrud.GetStatuses(db, owner))
  {
    var r := StatusCrud.GetStatuses(db, owner);
    forall i, j | 0 <= i < j < |db.statuses| ensures db.statuses[i] != db.statuses[j] {
      assert StatusesApart(db.statuses[i], db.statuses[j]);
    }
    forall x ensures multiset(r)[x] <= 1 {
      NoDuplicatesCount(db.statuses, x);
    }
    CountOneNoDuplicates(r);
  }

  /** A strictly increasing sequence of numbers from 1 to `n` that takes every
      one of those values is exactly 1, 2, ..., n. */
  lemma {:induction false} StrictlyIncreasingOnto(a: seq<int>, n: int)
    requires n >= 0
    requires forall i, j :: 0 <= i < j < |a| ==> a[i] < a[j]
    requires forall i :: 0 <= i < |a| ==> 1 <= a[i] <= n
    requires forall v :: 1 <= v <= n ==> v in a
    ensures |a| == n
    ensures forall i :: 0 <= i < |a| ==> a[i] == i + 1
  {
    if |a| > 0 {
      IncreasingFromOne(a, n, |a| - 1);
      assert a[|a| - 1] == |a|;
    }
    if n >= 1 {
      assert n in a;
      var j :| 0 <= j < |a| && a[j] == n;
      if |a| > 0 {
        IncreasingFromOne(a, n, |a| - 1);
      }
    }
  }

  lemma {:induction false} IncreasingFromOne(a: seq<int>, n: int, i: int)
    requires 0 <= i < |a|
    requires forall i, j :: 0 <= i < j < |a| ==> a[i] < a[j]
    requires forall i :: 0 <= i < |a| ==> 1 <= a[i] <= n
    requires forall v :: 1 <= v <= n ==> v in a
    ensures forall m :: 0 <= m <= i ==> a[m] == m + 1
    decreases i
  {
    if i > 0 {
      IncreasingFromOne(a, n, i - 1);
      assert a[i - 1] == i && a[i - 1] < a[i];
    }
    assert i + 1 <= a[i] <= n;
    assert i + 1 in a;
    var j :| 0 <= j < |a| && a[j] == i + 1;
  }

  /** The facts about the renumbered table that fix its listing: every row
      of the owner carries one past the position of its id, and every listed
      id has a row of the owner. */
  predicate NumberedByPosition(db: Db, ids: seq<int>, owner: int) {
    && StatusesValid(db)
    && (forall k :: 0 <= k < |ids| ==> StatusCrud.LastIndex(ids, ids[k]) == k)
    && (forall x :: x in db.statuses && x.userId == owner ==>
          x.id in ids && x.order == 1 + StatusCrud.LastIndex(ids, x.id))
    && (forall k :: 0 <= k < |ids| ==> OwnsStatus(db.statuses, owner, ids[k]))
  }

  /** `r` shows exactly the statuses of `owner`. */
  predicate ShowsOwned(db: Db, owner: int, r: seq<Status>) {
    && (forall i :: 0 <= i < |r| ==> r[i] in db.statuses && r[i].userId == owner)
    && (forall x :: x in db.statuses && x.userId == owner ==> x in r)
  }

  /** The listing shows exactly the owner's statuses, without repeats and in
      ascending order. */
  lemma ListingShape(db: Db, owner: int)
    requires StatusesValid(db)
    ensures var r := StatusCrud.GetStatuses(db, owner);
      && ShowsOwned(db, owner, r)
      && NoDuplicates(r)
      && forall i, j :: 0 <= i < j < |r| ==> r[i].order <= r[j].order
  {
    var r := StatusCrud.GetStatuses(db, owner);
    ListingDistinct(db, owner);
    forall i | 0 <= i < |r| ensures r[i] in db.statuses && r[i].userId == owner {
      assert r[i] in r;
    }
  }

  /** Shown rows with equal orders are equal, so an ascending listing is
      strictly ascending. */
  lemma ShownStrictlyAscending(db: Db, ids: seq<int>, owner: int, r: seq<Status>)
    requires NumberedByPosition(db, ids, owner)
    requires ShowsOwned(db, owner, r) && NoDuplicates(r)
    requires forall i, j :: 0 <= i < j < |r| ==> r[i].order <= r[j].order
    ensures forall i, j :: 0 <= i < j < |r| ==> r[i].order < r[j].order
  {
    forall i, j | 0 <= i < j < |r| ensures r[i].order < r[j].order {
      assert r[i] in db.statuses && r[j] in db.statuses;
    }
  }

  /** Every number from 1 to the length of the list is the order of some
      shown status. */
  lemma ShownCoverPositions(db: Db, ids: seq<int>, owner: int, r: seq<Status>, v: int)
    requires NumberedByPosition(db, ids, owner)
    requires ShowsOwned(db, owner, r)
    requires 1 <= v <= |ids|
    ensures v in Orders(r)
  {
    assert OwnsStatus(db.statuses, owner, ids[v - 1]);
    var p :| 0 <= p < |db.statuses| && db.statuses[p].id == ids[v - 1] && db.statuses[p].userId == owner;
    var y := db.statuses[p];
    assert y in db.statuses && y in r;
    var i :| 0 <= i < |r| && r[i] == y;
    assert Orders(r)[i] == v;
  }

  /** The orders of `r`, position by position. */
  function Orders(r: seq<Status>): (a: seq<int>)
    ensures |a| == |r| && forall i :: 0 <= i < |r| ==> a[i] == r[i].order
  {
    seq(|r|, i requires 0 <= i < |r| => r[i].order)
  }

  /** A strictly ascending sequence of rows whose orders are one past the
      last position of their id, and which takes every order from 1 to the
      length of the list, is the list itself. */
  lemma RowsFollowList(r: seq<Status>, ids: seq<int>)
    requires forall k :: 0 <= k < |ids| ==> StatusCrud.LastIndex(ids, ids[k]) == k
    requires forall i :: 0 <= i < |r| ==> r[i].id in ids && r[i].order == 1 + StatusCrud.LastIndex(ids, r[i].id)
    requires forall i, j :: 0 <= i < j < |r| ==> r[i].order < r[j].order
    requires forall v :: 1 <= v <= |ids| ==> v in Orders(r)
    ensures |r| == |ids|
    ensures forall k :: 0 <= k < |ids| ==> r[k].id == ids[k] && r[k].order == k + 1
  {
    var a := Orders(r);
    forall i | 0 <= i < |r| ensures 1 <= a[i] <= |ids| {
      assert a[i] == 1 + StatusCrud.LastIndex(ids, r[i].id);
    }
    StrictlyIncreasingOnto(a, |ids|);
    forall k | 0 <= k < |ids| ensures r[k].id == ids[k] {
      assert a[k] == k + 1;
      assert r[k].id == ids[StatusCrud.LastIndex(ids, r[k].id)];
    }
  }

  /** Rows that show the owner's statuses in ascending order of a table
      numbered by positions follow the list. */
  lemma ShownFollowList(db: Db, ids: seq<int>, owner: int, r: seq<Status>)
    requires NumberedByPosition(db, ids, owner)
    requires ShowsOwned(db, owner, r) && NoDuplicates(r)
    requires forall i, j :: 0 <= i < j < |r| ==> r[i].order <= r[j].order
    ensures |r| == |ids|
    ensures forall k :: 0 <= k < |ids| ==> r[k].id == ids[k] && r[k].order == k + 1
  {
    ShownStrictlyAscending(db, ids, owner, r);
    forall i | 0 <= i < |r|
      ensures r[i].id in ids && r[i].order == 1 + StatusCrud.LastIndex(ids, r[i].id)
    {
      assert r[i] in db.statuses;
    }
    forall v | 1 <= v <= |ids| ensures v in Orders(r) {
      ShownCoverPositions(db, ids, owner, r, v);
    }
    RowsFollowList(r, ids);
  }

  /** The listing of a table numbered by positions follows the list. */
  lemma ListingFollowsList(db: Db, ids: seq<int>, owner: int)
    requires NumberedByPosition(db, ids, owner)
    ensures var r := StatusCrud.GetStatuses(db, owner);
      && |r| == |ids|
      && forall k :: 0 <= k < |ids| ==> r[k].id == ids[k] && r[k].order == k + 1
  {
    var r := StatusCrud.GetStatuses(db, owner);
    ListingShape(db, owner);
    ShownFollowList(db, ids, owner, r);
  }

  /** A gated reorder by a list without repeats leaves the table numbered by
      list position. */
  lemma ReorderNumbersByPosition(db: Db, ids: seq<int>, owner: int)
    requires StatusesValid(db)
    requires NoDuplicates(ids)
    requires StatusRouter.ReorderGate(db, ids, owner)
    ensures NumberedByPosition(StatusCrud.ReorderStatuses(db, ids, owner).0, ids, owner)
  {
    var db' := StatusCrud.ReorderStatuses(db, ids, owner).0;
    GateNamesOwnedRows(db, ids, owner);
    RenumberedValid(db, db'.statuses, ids, owner);
    LastIndexOfDistinct(ids);
    forall x | x in db'.statuses && x.userId == owner
      ensures x.id in ids && x.order == 1 + StatusCrud.LastIndex(ids, x.id)
    {
      RenumberedOwnedRow(db.statuses, db'.statuses, ids, owner, x);
    }
    forall k | 0 <= k < |ids| ensures OwnsStatus(db'.statuses, owner, ids[k]) {
      assert ids[k] in ids;
      var p :| 0 <= p < |db.statuses| && db.statuses[p].id == ids[k] && db.statuses[p].userId == owner;
      assert db'.statuses[p].id == ids[k] && db'.statuses[p].userId == owner;
    }
  }

  /** Reordering with a list that names each of the owner's statuses exactly
      once numbers them 1 to N in list order, and the listing returned shows
      them in that order. */
  lemma ReorderNumbersInListOrder(db: Db, ids: seq<int>, owner: int)
    requires Valid(db)
    requires NoDuplicates(ids)
    requires StatusRouter.ReorderGate(db, ids, owner)
    ensures var listing := StatusCrud.ReorderStatuses(db, ids, owner).1;
      && |listing| == |ids|
      && forall k :: 0 <= k < |ids| ==> listing[k].id == ids[k] && listing[k].order == k + 1
  {
    var db' := StatusCrud.ReorderStatuses(db, ids, owner).0;
    ReorderNumbersByPosition(db, ids, owner);
    ListingFollowsList(db', ids, owner);
  }

  /** The last occurrence is the only position that holds `x` with no `x`
      after it. */
  lemma LastIndexIsLastOccurrence(ids: seq<int>, x: int, k: int)
    requires 0 <= k < |ids| && ids[k] == x
    requires forall j :: k < j < |ids| ==> ids[j] != x
    ensures StatusCrud.LastIndex(ids, x) == k
  {
    var l := StatusCrud.LastIndex(ids, x);
    assert ids[l] == x;
  }

  /** The ids an owner of exactly two statuses has. */
  lemma TwoRowOwnedIds(db: Db, a: Status, b: Status)
    requires db.statuses == [a, b] && a.userId == b.userId
    ensures forall x :: x in StatusRouter.OwnedIds(db, a.userId) <==> x == a.id || x == b.id
  {
    assert a in db.statuses && b in db.statuses;
    forall x | x in StatusRouter.OwnedIds(db, a.userId) ensures x == a.id || x == b.id {
      var s :| s in db.statuses && s.userId == a.userId && s.id == x;
    }
  }

  /** A list that names a status twice still passes the set comparison: for
      an owner with statuses A and B, the list [A, B, A] is accepted. A ends
      with the number of its last position and the number 1 is left unused,
      so the numbering is no longer 1 to N (but still without repeats). */
  lemma RepeatedIdTakesLastPosition(db: Db, ids: seq<int>, a: Status, b: Status)
    requires db.statuses == [a, b] && a.userId == b.userId && a.id != b.id
    requires |ids| == 3 && ids[0] == a.id && ids[1] == b.id && ids[2] == a.id
    ensures var res := StatusRouter.ReorderStatuses(db, Some(ids), a.userId);
      && res.1.Ok?
      && res.0.statuses == [a.(order := 3), b.(order := 2)]
  {
    var owner := a.userId;
    RepeatedIdPassesGate(db, ids, a, b);
    var res := StatusRouter.ReorderStatuses(db, Some(ids), owner);
    var crud := StatusCrud.ReorderStatuses(db, ids, owner);
    assert res.1.Ok? && res.0 == crud.0;
    RepeatedIdRenumbering(db.statuses, crud.0.statuses, ids, a, b);
  }

  lemma RepeatedIdPassesGate(db: Db, ids: seq<int>, a: Status, b: Status)
    requires db.statuses == [a, b] && a.userId == b.userId
    requires |ids| == 3 && ids[0] == a.id && ids[1] == b.id && ids[2] == a.id
    ensures StatusRouter.ReorderGate(db, ids, a.userId)
  {
    TwoRowOwnedIds(db, a, b);
    assert ids[0] in ids && ids[1] in ids;
    forall x | x in ids ensures x in StatusRouter.OwnedIds(db, a.userId) {
      var i :| 0 <= i < |ids| && ids[i] == x;
    }
    StatusRouter.ReorderGateIsSetEquality(db, ids, a.userId);
  }

  lemma RepeatedIdRenumbering(before: seq<Status>, after: seq<Status>, ids: seq<int>, a: Status, b: Status)
    requires before == [a, b] && a.userId == b.userId && a.id != b.id
    requires |ids| == 3 && ids[0] == a.id && ids[1] == b.id && ids[2] == a.id
    requires StatusCrud.Renumbered(before, after, ids, a.userId)
    ensures after == [a.(order := 3), b.(order := 2)]
  {
    LastIndexIsLastOccurrence(ids, a.id, 2);
    LastIndexIsLastOccurrence(ids, b.id, 1);
    assert ids[0] in ids && ids[1] in ids;
    assert after[0] == a.(order := 3);
    assert after[1] == b.(order := 2);
  }
}

=== FILE: status_router.dfy ===
/** The `/statuses` endpoints (api/app/routers/status.py). `owner` is the user
    id the access-token dependency resolved (see `Tokens.GetCurrentUserId`).
    Dependencies run before the request body is validated, so a missing
    status answers 404 even when the body is malformed. */
module StatusRouter {
  import opened Results
  import opened Models
  import opened Sorting
  import opened StatusSchemas
  import StatusCrud

  const StatusNotFound := "Status not found"
  const ReorderSetMismatch := "全てのステータスIDを過不足なく指定してください"
  const StatusInUse := "このステータスに紐付くタスクが存在するため削除できません"

  /** `get_status_or_404`: the owner's status with this id, or 404 when it does
      not exist or belongs to someone else. */
  function GetStatusOr404(db: Db, id: int, owner: int): (r: Result<Status, Failure>)
    ensures r.Ok? <==> OwnsStatus(db.statuses, owner, id)
    ensures r.Ok? ==> r.value in db.statuses && r.value.id == id && r.value.userId == owner
    ensures r.Err? ==> r.error == NotFound(StatusNotFound)
  {
    match StatusCrud.GetStatus(db, id, owner)
    case None => Err(NotFound(StatusNotFound))
    case Some(s) => Ok(s)
  }

  /** `create_status`: 422 for a malformed body, otherwise a new status of the
      caller with the next id, ordered one above the caller's highest order
      (1 for a first status). */
  function CreateStatus(db: Db, raw: StatusIn, owner: int): (res: (Db, Result<Status, Failure>))
    ensures res.1.Err? <==> StatusSchemas.ValidateStatus(raw).Err?
    ensures res.1.Err? ==> res.0 == db && res.1.error == Unprocessable
    ensures res.1.Ok? ==>
      && res.1.value.id == db.nextStatusId && res.1.value.userId == owner
      && res.1.value.name == raw.name.value && res.1.value.color == raw.color.value
      && res.0 == db.(statuses := db.statuses + [res.1.value], nextStatusId := db.nextStatusId + 1)
    ensures res.1.Ok? ==> forall t :: t in db.statuses && t.userId == owner ==> t.order < res.1.value.order
    ensures res.1.Ok? && (forall t :: t in db.statuses ==> t.userId != owner) ==> res.1.value.order == 1
    ensures res.1.Ok? && (exists t :: t in db.statuses && t.userId == owner) ==>
      exists t :: t in db.statuses && t.userId == owner && t.order + 1 == res.1.value.order
  {
    match StatusSchemas.ValidateStatus(raw)
    case Err(e) => (db, Err(e))
    case Ok(data) =>
      var (db', s) := StatusCrud.CreateStatus(db, data, owner);
      (db', Ok(s))
  }

  /** The ids of the owner's statuses. */
  function OwnedIds(db: Db, owner: int): set<int> {
    set s | s in db.statuses && s.userId == owner :: s.id
  }

  /** The ids of the statuses the owner's listing shows. */
  function ListedIds(db: Db, owner: int): (r: set<int>)
    ensures r == OwnedIds(db, owner)
  {
    var listing := StatusCrud.GetStatuses(db, owner);
    var r := set s | s in listing :: s.id;
    forall x | x in OwnedIds(db, owner) ensures x in r {
      var s :| s in db.statuses && s.userId == owner && s.id == x;
      assert s in listing;
    }
    r
  }

  /** The set comparison the reorder endpoint makes: the ids in the request,
      duplicates collapsed, against the ids of the owner's listed statuses. */
  predicate ReorderGate(db: Db, ids: seq<int>, owner: int) {
    (set x | x in ids) == ListedIds(db, owner)
  }

  /** The gate is exactly set equality with the owner's status ids. */
  lemma ReorderGateIsSetEquality(db: Db, ids: seq<int>, owner: int)
    ensures ReorderGate(db, ids, owner) <==> (forall x :: x in ids <==> x in OwnedIds(db, owner))
  {
    var given := set x | x in ids;
    assert forall x :: x in given <==> x in ids;
    if forall x :: x in ids <==> x in OwnedIds(db, owner) {
      assert given == OwnedIds(db, owner);
    }
  }

  /** `reorder_statuses`: 422 for a missing or empty list, 400 unless the list
      names exactly the owner's statuses, otherwise the renumbered listing. */
  function ReorderStatuses(db: Db, raw: Option<seq<int>>, owner: int): (res: (Db, Result<seq<Status>, Failure>))
    ensures res.1.Ok? <==> raw.Some? && |raw.value| >= 1 && ReorderGate(db, raw.value, owner)
    ensures res.1.Err? ==> res.0 == db
    ensures (raw.None? || |raw.value| == 0) ==> res.1 == Err(Unprocessable)
    ensures raw.Some? && |raw.value| >= 1 && !ReorderGate(db, raw.value, owner) ==>
      res.1 == Err(BadRequest(ReorderSetMismatch))
    ensures res.1.Ok? ==> (res.0, res.1.value) == StatusCrud.ReorderStatuses(db, raw.value, owner)
  {
    match StatusSchemas.ValidateReorder(raw)
    case Err(e) => (db, Err(e))
    case Ok(ids) =>
      if !ReorderGate(db, ids, owner) then (db, Err(BadRequest(ReorderSetMismatch)))
      else
        var (db', listing) := StatusCrud.ReorderStatuses(db, ids, owner);
        (db', Ok(listing))
  }

  /** `update_status`: 404 for a status the caller does not own, then 422 for a
      malformed body, otherwise the new name and color. */
  function UpdateStatus(db: Db, id: int, raw: StatusIn, owner: int): (res: (Db, Result<Status, Failure>))
    ensures !OwnsStatus(db.statuses, owner, id) ==> res == (db, Err(NotFound(StatusNotFound)))
    ensures OwnsStatus(db.statuses, owner, id) && StatusSchemas.ValidateStatus(raw).Err? ==>
      res == (db, Err(Unprocessable))
    ensures res.1.Ok? <==> OwnsStatus(db.statuses, owner, id) && StatusSchemas.ValidateStatus(raw).Ok?
    ensures res.1.Ok? ==>
      && res.1.value.id == id && res.1.value.userId == owner
      && res.1.value.name == raw.name.value && res.1.value.color == raw.color.value
      && (exists s :: s in db.statuses && s.id == id && s.userId == owner && s.order == res.1.value.order)
    ensures res.1.Ok? ==>
      && |res.0.statuses| == |db.statuses|
      && (forall i :: 0 <= i < |db.statuses| ==>
            res.0.statuses[i] == if db.statuses[i].id == id then res.1.value else db.statuses[i])
      && res.0 == db.(statuses := res.0.statuses)
  {
    match GetStatusOr404(db, id, owner)
    case Err(e) => (db, Err(e))
    case Ok(s) =>
      match StatusSchemas.ValidateStatus(raw)
      case Err(e) => (db, Err(e))
      case Ok(data) =>
        var (db', s') := StatusCrud.UpdateStatus(db, s, data);
        (db', Ok(s'))
  }

  /** `delete_status`: 404 for a status the caller does not own, 409 while any
      task refers to it, otherwise the status is removed. */
  function DeleteStatus(db: Db, id: int, owner: int): (res: (Db, Result<(), Failure>))
    ensures !OwnsStatus(db.statuses, owner, id) ==> res == (db, Err(NotFound(StatusNotFound)))
    ensures OwnsStatus(db.statuses, owner, id) && (exists t :: t in db.tasks && t.statusId == id) ==>
      res == (db, Err(Conflict(StatusInUse)))
    ensures res.1.Ok? <==>
      OwnsStatus(db.statuses, owner, id) && forall t :: t in db.tasks ==> t.statusId != id
    ensures res.1.Ok? ==>
      && (forall s :: s in res.0.statuses <==> s in db.statuses && s.id != id)
      && (forall s :: multiset(res.0.statuses)[s] == if s.id != id then multiset(db.statuses)[s] else 0)
      && res.0 == db.(statuses := res.0.statuses)
  {
    match GetStatusOr404(db, id, owner)
    case Err(e) => (db, Err(e))
    case Ok(s) =>
      if StatusCrud.HasTasksWithStatus(db, s.id) then (db, Err(Conflict(StatusInUse)))
      else (StatusCrud.DeleteStatus(db, s), Ok(()))
  }

  // ---- properties --------------------------------------------------------

  /** A deleted status is gone: asking for it afterwards answers 404. */
  lemma DeletedStatusIsGone(db: Db, id: int, owner: int)
    requires DeleteStatus(db, id, owner).1.Ok?
    ensures GetStatusOr404(DeleteStatus(db, id, owner).0, id, owner) == Err(NotFound(StatusNotFound))
  {
    var db' := DeleteStatus(db, id, owner).0;
    assert forall i :: 0 <= i < |db'.statuses| ==> db'.statuses[i] in db'.statuses;
  }

  /** Creating statuses keeps the store consistent. */
  lemma CreatePreservesValid(db: Db, data: StatusPayload, owner: int)
    requires Valid(db)
    ensures Valid(StatusCrud.CreateStatus(db, data, owner).0)
  {
    var (db', s) := StatusCrud.CreateStatus(db, data, owner);
    assert s.order >= 1 by {
      if exists t :: t in db.statuses && t.userId == owner {
        var t :| t in db.statuses && t.userId == owner && t.order + 1 == s.order;
        var k :| 0 <= k < |db.statuses| && db.statuses[k] == t;
        assert StatusRowOk(db.statuses[k], db.nextStatusId);
      }
    }
    AppendedStatusValid(db, s);
    AppendedStatusKeepsTasks(db, s);
  }

  /** Appending a status with the next id and an order above every order of
      its owner keeps the status conditions. */
  lemma AppendedStatusValid(db: Db, s: Status)
    requires StatusesValid(db)
    requires s.id == db.nextStatusId && s.order >= 1
    requires forall t :: t in db.statuses && t.userId == s.userId ==> t.order < s.order
    ensures StatusesValid(db.(statuses := db.statuses + [s], nextStatusId := db.nextStatusId + 1))
  {
    var after := db.statuses + [s];
    var next := db.nextStatusId + 1;
    forall i | 0 <= i < |after| ensures StatusRowOk(after[i], next) {
      if i < |db.statuses| {
        assert after[i] == db.statuses[i] && StatusRowOk(db.statuses[i], db.nextStatusId);
      }
    }
    forall i, j | 0 <= i < j < |after| ensures StatusesApart(after[i], after[j]) {
      if j < |db.statuses| {
        assert StatusesApart(db.statuses[i], db.statuses[j]);
      } else {
        var t := db.statuses[i];
        assert t in db.statuses && StatusRowOk(t, db.nextStatusId);
      }
    }
  }

  /** Appending a status leaves every task's status in place. */
  lemma AppendedStatusKeepsTasks(db: Db, s: Status)
    requires TasksValid(db)
    ensures TasksValid(db.(statuses := db.statuses + [s], nextStatusId := db.nextStatusId + 1))
  {
    var after := db.statuses + [s];
    forall i | 0 <= i < |db.tasks|
      ensures OwnsStatus(after, db.tasks[i].userId, db.tasks[i].statusId)
    {
      assert OwnsStatus(db.statuses, db.tasks[i].userId, db.tasks[i].statusId);
      var k :| 0 <= k < |db.statuses| && db.statuses[k].id == db.tasks[i].statusId
        && db.statuses[k].userId == db.tasks[i].userId;
      assert after[k] == db.statuses[k];
    }
  }

  /** Three statuses created for an owner who has none get orders 1, 2 and 3,
      in creation order. */
  lemma ThreeCreatesNumberOneTwoThree(db: Db, a: StatusPayload, b: StatusPayload, c: StatusPayload, owner: int)
    requires forall s :: s in db.statuses ==> s.userId != owner
    ensures var (db1, s1) := StatusCrud.CreateStatus(db, a, owner);
      var (db2, s2) := StatusCrud.CreateStatus(db1, b, owner);
      var (db3, s3) := StatusCrud.CreateStatus(db2, c, owner);
      s1.order == 1 && s2.order == 2 && s3.order == 3
  {
    var (db1, s1) := StatusCrud.CreateStatus(db, a, owner);
    var (db2, s2) := StatusCrud.CreateStatus(db1, b, owner);
    assert forall t :: t in db1.statuses && t.userId == owner ==> t == s1;
    assert forall t :: t in db2.statuses && t.userId == owner ==> t == s1 || t == s2;
  }

  /** Updating a status keeps the store consistent. */
  lemma UpdatePreservesValid(db: Db, id: int, raw: StatusIn, owner: int)
    requires Valid(db)
    ensures Valid(UpdateStatus(db, id, raw, owner).0)
  {
    var (db', r) := UpdateStatus(db, id, raw, owner);
    if r.Ok? {
      assert SameStatusKeys(db.statuses, db'.statuses);
      TasksValidSameKeys(db, db'.statuses);
      assert forall i :: 0 <= i < |db.statuses| ==> db'.statuses[i].order == db.statuses[i].order;
      forall i, j | 0 <= i < j < |db'.statuses| ensures StatusesApart(db'.statuses[i], db'.statuses[j]) {
        assert StatusesApart(db.statuses[i], db.statuses[j]);
      }
      forall i | 0 <= i < |db'.statuses| ensures StatusRowOk(db'.statuses[i], db'.nextStatusId) {
        assert StatusRowOk(db.statuses[i], db.nextStatusId);
      }
    }
  }

  /** Removing status rows keeps the status conditions. */
  lemma FilterStatusesValid(db: Db, keep: Status -> bool)
    requires StatusesValid(db)
    ensures StatusesValid(db.(statuses := Filter(db.statuses, keep)))
  {
    var kept := Filter(db.statuses, keep);
    FilterKeepsPairwise(db.statuses, keep, StatusesApart);
    forall i | 0 <= i < |kept| ensures StatusRowOk(kept[i], db.nextStatusId) {
      assert kept[i] in db.statuses;
    }
  }

  /** Removing a status no task refers to leaves every task reference intact. */
  lemma TasksValidWithout(db: Db, id: int)
    requires TasksValid(db)
    requires forall t :: t in db.tasks ==> t.statusId != id
    ensures TasksValid(db.(statuses := Filter(db.statuses, (x: Status) => x.id != id)))
  {
    var kept := Filter(db.statuses, (x: Status) => x.id != id);
    forall i | 0 <= i < |db.tasks|
      ensures OwnsStatus(kept, db.tasks[i].userId, db.tasks[i].statusId)
    {
      var t := db.tasks[i];
      assert t in db.tasks;
      var k :| 0 <= k < |db.statuses| && db.statuses[k].id == t.statusId && db.statuses[k].userId == t.userId;
      assert db.statuses[k] in kept;
      var m :| 0 <= m < |kept| && kept[m] == db.statuses[k];
    }
  }

  /** Deleting a status keeps the store consistent: the in-use check means no
      task is left pointing at the removed row. */
  lemma DeletePreservesValid(db: Db, id: int, owner: int)
    requires Valid(db)
    ensures Valid(DeleteStatus(db, id, owner).0)
  {
    var (db', r) := DeleteStatus(db, id, owner);
    if r.Ok? {
      var s := StatusCrud.GetStatus(db, id, owner).value;
      assert db' == db.(statuses := Filter(db.statuses, (x: Status) => x.id != s.id));
      FilterStatusesValid(db, (x: Status) => x.id != s.id);
      TasksValidWithout(db, s.id);
    }
  }
}

=== FILE: task_crud.dfy ===
/** Storage operations on tasks (api/app/crud/task.py). Every query is
    scoped to the owning user. Due dates are day numbers. */
module TaskCrud {
  import opened Results
  import opened Models
  import opened Sorting
  import opened Text
  import opened TaskSchemas

  function DueKey(t: Task): int {
    t.dueDate
  }

  function LatestFirstKey(t: Task): int {
    -t.dueDate
  }

  /** How a keyword is tested against a title or a content: `Text.LikeContains`
      is what `column.contains(kw)` compiles to, `Text.Contains` the literal
      substring search. */
  type Matcher = (string, string) -> bool

  /** The keyword test of one row: the keyword occurs in the title or in the
      content. */
  function KeywordTest(kw: string, matches: Matcher): Task -> bool {
    (t: Task) => matches(t.title, kw) || matches(t.content, kw)
  }

  /** The keyword condition: no keyword, or an empty one, selects every task;
      otherwise the keyword must match the title or the content. */
  predicate KeywordSelects(t: Task, keyword: Option<string>, matches: Matcher) {
    keyword.None? || keyword.value == ""
    || matches(t.title, keyword.value) || matches(t.content, keyword.value)
  }

  /** The rows `get_tasks` returns: the owner's tasks that satisfy the keyword
      and fall within the inclusive due-date bounds that are given. */
  predicate Selected(t: Task, owner: int, keyword: Option<string>, from: Option<int>, to: Option<int>,
                     matches: Matcher) {
    && t.userId == owner
    && KeywordSelects(t, keyword, matches)
    && (from.None? || from.value <= t.dueDate)
    && (to.None? || t.dueDate <= to.value)
  }

  /** One optional `.filter(...)` of the query: applied when `active`. */
  function NarrowIf(q: seq<Task>, active: bool, p: Task -> bool): (r: seq<Task>)
    ensures forall t :: multiset(r)[t] == (if !active || p(t) then multiset(q)[t] else 0)
  {
    if active then Filter(q, p) else q
  }

  /** The filtering part of `get_tasks`: the owner's rows, then the keyword,
      then the lower and the upper due-date bound, each only when given. */
  function Narrow(tasks: seq<Task>, owner: int, keyword: Option<string>, from: Option<int>, to: Option<int>,
                  matches: Matcher)
    : (r: seq<Task>)
    ensures forall t :: multiset(r)[t] == (if Selected(t, owner, keyword, from, to, matches) then multiset(tasks)[t] else 0)
  {
    var kw := if keyword.Some? then keyword.value else "";
    var lo := if from.Some? then from.value else 0;
    var hi := if to.Some? then to.value else 0;
    var q0 := Filter(tasks, (t: Task) => t.userId == owner);
    var q1 := NarrowIf(q0, kw != "", KeywordTest(kw, matches));
    var q2 := NarrowIf(q1, from.Some?, (t: Task) => t.dueDate >= lo);
    var q3 := NarrowIf(q2, to.Some?, (t: Task) => t.dueDate <= hi);
    assert forall t :: KeywordSelects(t, keyword, matches) <==> kw == "" || KeywordTest(kw, matches)(t);
    q3
  }

  /** `order_by(desc(due_date))` when `latestFirst`, `order_by(asc(due_date))`
      otherwise. */
  function OrderByDue(q: seq<Task>, latestFirst: bool): (r: seq<Task>)
    ensures multiset(r) == multiset(q)
    ensures latestFirst ==> forall i, j :: 0 <= i < j < |r| ==> r[i].dueDate >= r[j].dueDate
    ensures !latestFirst ==> forall i, j :: 0 <= i < j < |r| ==> r[i].dueDate <= r[j].dueDate
  {
    if latestFirst then
      var r := SortBy(q, LatestFirstKey);
      assert forall i, j :: 0 <= i < j < |r| ==> LatestFirstKey(r[i]) <= LatestFirstKey(r[j]);
      r
    else
      var r := SortBy(q, DueKey);
      assert forall i, j :: 0 <= i < j < |r| ==> DueKey(r[i]) <= DueKey(r[j]);
      r
  }

  /** `get_tasks`: the selected rows ordered by due date, latest first exactly
      when `order` is "desc". Tasks with equal due dates come in no promised
      order. */
  function GetTasks(db: Db, owner: int, order: string, keyword: Option<string>, from: Option<int>, to: Option<int>,
                    matches: Matcher)
    : (r: seq<Task>)
    ensures forall t :: multiset(r)[t] == (if Selected(t, owner, keyword, from, to, matches) then multiset(db.tasks)[t] else 0)
    ensures forall t :: t in r <==> t in db.tasks && Selected(t, owner, keyword, from, to, matches)
    ensures order == "desc" ==> forall i, j :: 0 <= i < j < |r| ==> r[i].dueDate >= r[j].dueDate
    ensures order != "desc" ==> forall i, j :: 0 <= i < j < |r| ==> r[i].dueDate <= r[j].dueDate
  {
    var r := OrderByDue(Narrow(db.tasks, owner, keyword, from, to, matches), order == "desc");
    SelectionMembers(r, db.tasks, owner, keyword, from, to, matches);
    r
  }

  /** A sequence holding each selected task as often as `tasks` does, and no
      other, holds exactly the selected tasks of `tasks`. */
  lemma SelectionMembers(r: seq<Task>, tasks: seq<Task>, owner: int, keyword: Option<string>,
                         from: Option<int>, to: Option<int>, matches: Matcher)
    requires forall t :: multiset(r)[t] == (if Selected(t, owner, keyword, from, to, matches) then multiset(tasks)[t] else 0)
    ensures forall t :: t in r <==> t in tasks && Selected(t, owner, keyword, from, to, matches)
  {
    forall t ensures t in r <==> t in tasks && Selected(t, owner, keyword, from, to, matches) {
      assert t in r <==> multiset(r)[t] > 0;
      assert t in tasks <==> multiset(tasks)[t] > 0;
    }
  }

  /** Two matchers that agree on every title and content of the table give the
      same listing, row for row and in the same order. */
  lemma SameMatchSameListing(db: Db, owner: int, order: string, keyword: Option<string>,
                             from: Option<int>, to: Option<int>, m1: Matcher, m2: Matcher)
    requires keyword.Some? ==> forall i :: 0 <= i < |db.tasks| ==>
      m1(db.tasks[i].title, keyword.value) == m2(db.tasks[i].title, keyword.value)
      && m1(db.tasks[i].content, keyword.value) == m2(db.tasks[i].content, keyword.value)
    ensures GetTasks(db, owner, order, keyword, from, to, m1) == GetTasks(db, owner, order, keyword, from, to, m2)
  {
    if keyword.Some? {
      var kw := keyword.value;
      var q0 := Filter(db.tasks, (t: Task) => t.userId == owner);
      forall i | 0 <= i < |q0| ensures KeywordTest(kw, m1)(q0[i]) == KeywordTest(kw, m2)(q0[i]) {
        assert q0[i] in db.tasks;
        var k :| 0 <= k < |db.tasks| && db.tasks[k] == q0[i];
      }
      FilterSamePredicate(q0, KeywordTest(kw, m1), KeywordTest(kw, m2));
    }
  }

  /** The first task in `tasks` with this id and owner. */
  function FindTask(tasks: seq<Task>, id: int, owner: int): (r: Option<Task>)
    ensures r.Some? ==> r.value in tasks && r.value.id == id && r.value.userId == owner
    ensures r.None? ==> forall t :: t in tasks ==> t.id != id || t.userId != owner
  {
    if |tasks| == 0 then None
    else if tasks[0].id == id && tasks[0].userId == owner then Some(tasks[0])
    else FindTask(tasks[1..], id, owner)
  }

  /** `get_task`: the task with this id, if `owner` owns it. */
  function GetTask(db: Db, id: int, owner: int): (r: Option<Task>)
    ensures r.Some? ==> r.value in db.tasks && r.value.id == id && r.value.userId == owner
    ensures r.None? <==> forall t :: t in db.tasks ==> t.id != id || t.userId != owner
  {
    FindTask(db.tasks, id, owner)
  }

  /** `create_task`: a new task of `owner` holding the payload, with the next
      free id; no other row changes. */
  function CreateTask(db: Db, data: TaskPayload, owner: int): (res: (Db, Task))
    ensures var t := res.1;
      && t.id == db.nextTaskId && t.userId == owner
      && t.title == data.title && t.content == data.content
      && t.dueDate == data.dueDate && t.statusId == data.statusId
    ensures res.0 == db.(tasks := db.tasks + [res.1], nextTaskId := db.nextTaskId + 1)
  {
    var t := Task(db.nextTaskId, data.title, data.content, data.dueDate, data.statusId, owner);
    (db.(tasks := db.tasks + [t], nextTaskId := db.nextTaskId + 1), t)
  }

  /** `update_task`: every payload field is written over the stored task; its
      id and owner stay, and every other row stays as it was. */
  function UpdateTask(db: Db, task: Task, data: TaskPayload): (res: (Db, Task))
    requires task in db.tasks
    ensures res.1.id == task.id && res.1.userId == task.userId
    ensures res.1.title == data.title && res.1.content == data.content
    ensures res.1.dueDate == data.dueDate && res.1.statusId == data.statusId
    ensures |res.0.tasks| == |db.tasks|
    ensures forall i :: 0 <= i < |db.tasks| ==>
      res.0.tasks[i] == if db.tasks[i].id == task.id then res.1 else db.tasks[i]
    ensures res.0 == db.(tasks := res.0.tasks)
  {
    var updated := task.(title := data.title, content := data.content,
                         dueDate := data.dueDate, statusId := data.statusId);
    var ts := seq(|db.tasks|, i requires 0 <= i < |db.tasks| =>
      if db.tasks[i].id == task.id then updated else db.tasks[i]);
    (db.(tasks := ts), updated)
  }

  /** `delete_task`: removes the row with the task's id and nothing else. */
  function DeleteTask(db: Db, task: Task): (r: Db)
    ensures forall t :: t in r.tasks <==> t in db.tasks && t.id != task.id
    ensures forall t :: multiset(r.tasks)[t] == if t.id != task.id then multiset(db.tasks)[t] else 0
    ensures r == db.(tasks := r.tasks)
  {
    db.(tasks := Filter(db.tasks, (t: Task) => t.id != task.id))
  }
}

=== FILE: task_router.dfy ===
/** The `/tasks` endpoints (api/app/routers/task.py). `owner` is the user id
    the access-token dependency resolved. The task-or-404 dependency runs
    before the body is validated; the status check runs after. */
module TaskRouter {
  import opened Results
  import opened Models
  import opened TaskSchemas
  import TaskCrud
  import StatusCrud
  import StatusRouter
  import Sorting
  import opened Text

  const TaskNotFound := "Task not found"

  /** The `order` query parameter, a string enumeration. */
  datatype SortOrder = Asc | Desc

  function SortOrderValue(o: SortOrder): (s: string)
    ensures s == "desc" <==> o == Desc
  {
    match o
    case Asc => "asc"
    case Desc => "desc"
  }

  /** `get_task_or_404`: the caller's task with this id, or 404 when it does
      not exist or belongs to someone else. */
  function GetTaskOr404(db: Db, id: int, owner: int): (r: Result<Task, Failure>)
    ensures r.Ok? <==> exists t :: t in db.tasks && t.id == id && t.userId == owner
    ensures r.Ok? ==> r.value in db.tasks && r.value.id == id && r.value.userId == owner
    ensures r.Err? ==> r.error == NotFound(TaskNotFound)
  {
    match TaskCrud.GetTask(db, id, owner)
    case None => Err(NotFound(TaskNotFound))
    case Some(t) => Ok(t)
  }

  /** The order `get_tasks` is asked for: latest first unless the caller asks
      for ascending order. */
  function OrderParam(order: Option<SortOrder>): (s: string)
    ensures s == "desc" <==> order != Some(Asc)
  {
    var o := match order case None => Desc case Some(v) => v;
    SortOrderValue(o)
  }

  /** `list_tasks`: the caller's tasks matching the optional keyword `q`,
      ordered by due date, latest first unless `order` says ascending. The
      endpoint passes no date bounds. The keyword goes into a `LIKE` pattern
      unescaped, so its `%` and `_` act as wildcards. */
  function ListTasks(db: Db, owner: int, order: Option<SortOrder>, q: Option<string>): (r: seq<Task>)
    ensures forall t :: t in r <==>
      && t in db.tasks && t.userId == owner
      && (q.None? || q.value == "" || LikeContains(t.title, q.value) || LikeContains(t.content, q.value))
    ensures forall t ::
      multiset(r)[t] == (if t.userId == owner && (q.None? || q.value == "" || LikeContains(t.title, q.value) || LikeContains(t.content, q.value))
                         then multiset(db.tasks)[t] else 0)
    ensures order != Some(Asc) ==> forall i, j :: 0 <= i < j < |r| ==> r[i].dueDate >= r[j].dueDate
    ensures order == Some(Asc) ==> forall i, j :: 0 <= i < j < |r| ==> r[i].dueDate <= r[j].dueDate
  {
    TaskCrud.GetTasks(db, owner, OrderParam(order), q, None, None, LikeContains)
  }

  /** `list_tasks` as evidently intended: the keyword is searched for as a
      literal piece of the title or the content. */
  function ListTasksIntended(db: Db, owner: int, order: Option<SortOrder>, q: Option<string>): (r: seq<Task>)
    ensures forall t :: t in r <==>
      && t in db.tasks && t.userId == owner
      && (q.None? || q.value == "" || Contains(t.title, q.value) || Contains(t.content, q.value))
    ensures forall t ::
      multiset(r)[t] == (if t.userId == owner && (q.None? || q.value == "" || Contains(t.title, q.value) || Contains(t.content, q.value))
                         then multiset(db.tasks)[t] else 0)
    ensures order != Some(Asc) ==> forall i, j :: 0 <= i < j < |r| ==> r[i].dueDate >= r[j].dueDate
    ensures order == Some(Asc) ==> forall i, j :: 0 <= i < j < |r| ==> r[i].dueDate <= r[j].dueDate
  {
    TaskCrud.GetTasks(db, owner, OrderParam(order), q, None, None, Contains)
  }

  /** `create_task`: 422 for a malformed body, 404 when the named status is
      not one of the caller's, otherwise the new task. */
  function CreateTask(db: Db, raw: TaskIn, owner: int): (res: (Db, Result<Task, Failure>))
    ensures res.1.Err? ==> res.0 == db
    ensures ValidateTask(raw).Err? ==> res.1 == Err(Unprocessable)
    ensures ValidateTask(raw).Ok? && !OwnsStatus(db.statuses, owner, raw.statusId.value) ==>
      res.1 == Err(NotFound(StatusRouter.StatusNotFound))
    ensures res.1.Ok? <==> ValidateTask(raw).Ok? && OwnsStatus(db.statuses, owner, raw.statusId.value)
    ensures res.1.Ok? ==>
      && res.1.value.userId == owner && res.1.value.statusId == raw.statusId.value
      && res.1.value.title == raw.title.value && res.1.value.content == raw.content.value
      && res.1.value.dueDate == raw.dueDate.value && res.1.value.id == db.nextTaskId
      && res.0 == db.(tasks := db.tasks + [res.1.value], nextTaskId := db.nextTaskId + 1)
  {
    match ValidateTask(raw)
    case Err(e) => (db, Err(e))
    case Ok(data) =>
      if StatusCrud.GetStatus(db, data.statusId, owner).None? then
        (db, Err(NotFound(StatusRouter.StatusNotFound)))
      else
        var (db', t) := TaskCrud.CreateTask(db, data, owner);
        (db', Ok(t))
  }

  /** `update_task`: 404 for a task the caller does not own, 422 for a
      malformed body, 404 when the named status is not one of the caller's,
      otherwise the task with the new fields. */
  function UpdateTask(db: Db, id: int, raw: TaskIn, owner: int): (res: (Db, Result<Task, Failure>))
    ensures res.1.Err? ==> res.0 == db
    ensures GetTaskOr404(db, id, owner).Err? ==> res.1 == Err(NotFound(TaskNotFound))
    ensures GetTaskOr404(db, id, owner).Ok? && ValidateTask(raw).Err? ==> res.1 == Err(Unprocessable)
    ensures (GetTaskOr404(db, id, owner).Ok? && ValidateTask(raw).Ok?
      && !OwnsStatus(db.statuses, owner, raw.statusId.value)) ==>
      res.1 == Err(NotFound(StatusRouter.StatusNotFound))
    ensures res.1.Ok? <==>
      && GetTaskOr404(db, id, owner).Ok?
      && ValidateTask(raw).Ok? && OwnsStatus(db.statuses, owner, raw.statusId.value)
    ensures res.1.Ok? ==>
      && res.1.value.id == id && res.1.value.userId == owner
      && res.1.value.statusId == raw.statusId.value && res.1.value.title == raw.title.value
      && res.1.value.content == raw.content.value && res.1.value.dueDate == raw.dueDate.value
    ensures res.1.Ok? ==>
      && |res.0.tasks| == |db.tasks|
      && (forall i :: 0 <= i < |db.tasks| ==>
            res.0.tasks[i] == if db.tasks[i].id == id then res.1.value else db.tasks[i])
      && res.0 == db.(tasks := res.0.tasks)
  {
    match GetTaskOr404(db, id, owner)
    case Err(e) => (db, Err(e))
    case Ok(task) =>
      match ValidateTask(raw)
      case Err(e) => (db, Err(e))
      case Ok(data) =>
        if StatusCrud.GetStatus(db, data.statusId, owner).None? then
          (db, Err(NotFound(StatusRouter.StatusNotFound)))
        else
          var (db', t) := TaskCrud.UpdateTask(db, task, data);
          (db', Ok(t))
  }

  /** `delete_task`: 404 for a task the caller does not own, otherwise the
      task is removed. */
  function DeleteTask(db: Db, id: int, owner: int): (res: (Db, Result<(), Failure>))
    ensures res.1.Ok? <==> GetTaskOr404(db, id, owner).Ok?
    ensures res.1.Err? ==> res == (db, Err(NotFound(TaskNotFound)))
    ensures res.1.Ok? ==>
      && (forall t :: t in res.0.tasks <==> t in db.tasks && t.id != id)
      && (forall t :: multiset(res.0.tasks)[t] == if t.id != id then multiset(db.tasks)[t] else 0)
      && res.0 == db.(tasks := res.0.tasks)
  {
    match GetTaskOr404(db, id, owner)
    case Err(e) => (db, Err(e))
    case Ok(task) => (TaskCrud.DeleteTask(db, task), Ok(()))
  }

  // ---- properties --------------------------------------------------------

  /** For a keyword without `%`, `_` or `\`, the endpoint as written lists
      exactly what the intended one lists, in the same order. */
  lemma ListTasksLiteralKeyword(db: Db, owner: int, order: Option<SortOrder>, q: Option<string>)
    requires q.Some? ==> IsLiteral(q.value)
    ensures ListTasks(db, owner, order, q) == ListTasksIntended(db, owner, order, q)
  {
    if q.Some? {
      forall i | 0 <= i < |db.tasks|
        ensures LikeContains(db.tasks[i].title, q.value) == Contains(db.tasks[i].title, q.value)
        ensures LikeContains(db.tasks[i].content, q.value) == Contains(db.tasks[i].content, q.value)
      {
      }
    }
    TaskCrud.SameMatchSameListing(db, owner, OrderParam(order), q, None, None, LikeContains, Contains);
  }

  /** Searching for `_` lists every task of the caller with a non-empty title
      or content, where the intended search lists only those containing an
      underscore. */
  lemma UnderscoreKeywordSelectsAnyText(db: Db, owner: int, order: Option<SortOrder>, t: Task)
    requires t in db.tasks && t.userId == owner
    ensures t in ListTasks(db, owner, order, Some("_")) <==> |t.title| > 0 || |t.content| > 0
    ensures t in ListTasksIntended(db, owner, order, Some("_")) <==> '_' in t.title || '_' in t.content
  {
    UnderscoreKeywordMatchesNonEmpty(t.title);
    UnderscoreKeywordMatchesNonEmpty(t.content);
    ContainsOneChar(t.title, '_');
    ContainsOneChar(t.content, '_');
  }

  /** Searching for `%` lists every task of the caller. */
  lemma PercentKeywordListsAll(db: Db, owner: int, order: Option<SortOrder>)
    ensures forall t :: t in ListTasks(db, owner, order, Some("%")) <==> t in db.tasks && t.userId == owner
  {
    forall t | t in db.tasks && t.userId == owner ensures t in ListTasks(db, owner, order, Some("%")) {
      PercentKeywordMatchesAll(t.title);
    }
  }

  /** A created task can be fetched back by its id, unchanged. */
  lemma CreatedTaskIsFound(db: Db, raw: TaskIn, owner: int)
    requires Valid(db)
    requires CreateTask(db, raw, owner).1.Ok?
    ensures var (db', r) := CreateTask(db, raw, owner);
      GetTaskOr404(db', r.value.id, owner) == Ok(r.value)
  {
    var (db', r) := CreateTask(db, raw, owner);
    var t := r.value;
    assert t.id == db.nextTaskId;
    assert forall u :: u in db.tasks ==> u.id != t.id;
  }

  /** A deleted task is gone: asking for it afterwards answers 404. */
  lemma DeletedTaskIsGone(db: Db, id: int, owner: int)
    requires DeleteTask(db, id, owner).1.Ok?
    ensures GetTaskOr404(DeleteTask(db, id, owner).0, id, owner) == Err(NotFound(TaskNotFound))
  {
  }

  /** Another user's task is invisible: fetching, updating or deleting it
      answers 404 and changes nothing. */
  lemma ForeignTaskIsInvisible(db: Db, t: Task, raw: TaskIn, caller: int)
    requires Valid(db) && t in db.tasks && t.userId != caller
    ensures GetTaskOr404(db, t.id, caller) == Err(NotFound(TaskNotFound))
    ensures UpdateTask(db, t.id, raw, caller) == (db, Err(NotFound(TaskNotFound)))
    ensures DeleteTask(db, t.id, caller) == (db, Err(NotFound(TaskNotFound)))
  {
    forall u | u in db.tasks && u.id == t.id ensures u == t {
      var i :| 0 <= i < |db.tasks| && db.tasks[i] == u;
      var j :| 0 <= j < |db.tasks| && db.tasks[j] == t;
    }
  }

  /** Creating a task keeps the store consistent: the new task refers to a
      status of its own owner. */
  lemma CreatePreservesValid(db: Db, raw: TaskIn, owner: int)
    requires Valid(db)
    ensures Valid(CreateTask(db, raw, owner).0)
  {
    var (db', r) := CreateTask(db, raw, owner);
    if r.Ok? {
      forall i | 0 <= i < |db'.tasks|
        ensures 1 <= db'.tasks[i].id < db'.nextTaskId
        ensures OwnsStatus(db'.statuses, db'.tasks[i].userId, db'.tasks[i].statusId)
      {
        if i < |db.tasks| {
          assert db'.tasks[i] == db.tasks[i];
        }
      }
      forall i, j | 0 <= i < j < |db'.tasks| ensures db'.tasks[i].id != db'.tasks[j].id {
        assert db'.tasks[i] == db.tasks[i];
      }
    }
  }

  /** Updating a task keeps the store consistent: a new status must be one of
      the owner's own. */
  lemma UpdatePreservesValid(db: Db, id: int, raw: TaskIn, owner: int)
    requires Valid(db)
    ensures Valid(UpdateTask(db, id, raw, owner).0)
  {
    var (db', r) := UpdateTask(db, id, raw, owner);
    if r.Ok? {
      forall i | 0 <= i < |db'.tasks|
        ensures db'.tasks[i].id == db.tasks[i].id
        ensures OwnsStatus(db'.statuses, db'.tasks[i].userId, db'.tasks[i].statusId)
      {
      }
    }
  }

  /** Deleting a task keeps the store consistent. */
  lemma DeletePreservesValid(db: Db, id: int, owner: int)
    requires Valid(db)
    ensures Valid(DeleteTask(db, id, owner).0)
  {
    var (db', r) := DeleteTask(db, id, owner);
    if r.Ok? {
      var t := GetTaskOr404(db, id, owner).value;
      var p := (u: Task) => u.id != t.id;
      assert db'.tasks == Sorting.Filter(db.tasks, p);
      Sorting.FilterKeepsPairwise(db.tasks, p, (a: Task, b: Task) => a.id != b.id);
      forall i | 0 <= i < |db'.tasks|
        ensures 1 <= db'.tasks[i].id < db'.nextTaskId
        ensures OwnsStatus(db'.statuses, db'.tasks[i].userId, db'.tasks[i].statusId)
      {
        assert db'.tasks[i] in db.tasks;
        var k :| 0 <= k < |db.tasks| && db.tasks[k] == db'.tasks[i];
      }
    }
  }
}

=== FILE: text.dfy ===
/** String matching used by the task keyword search: plain substring
    containment, and the PostgreSQL `LIKE` matcher that SQLAlchemy's
    `contains()` compiles to. */
module Text {

  /** `prefix` is an initial segment of `s`. */
  predicate StartsWith(s: string, prefix: string) {
    |prefix| <= |s| && s[..|prefix|] == prefix
  }

  /** `kw` occurs in `s` starting at position `i`. */
  predicate OccursAt(s: string, kw: string, i: int) {
    0 <= i && i + |kw| <= |s| && s[i..i + |kw|] == kw
  }

  /** `kw` occurs in `s` as a contiguous substring. */
  function Contains(s: string, kw: string): (r: bool)
    ensures r <==> exists i :: OccursAt(s, kw, i)
    decreases |s|
  {
    if StartsWith(s, kw) then
      assert OccursAt(s, kw, 0);
      true
    else if |s| == 0 then
      assert forall i :: !OccursAt(s, kw, i);
      false
    else
      var r := Contains(s[1..], kw);
      assert r ==> exists i :: OccursAt(s, kw, i) by {
        if r {
          var i :| OccursAt(s[1..], kw, i);
          assert s[1..][i..i + |kw|] == s[i + 1..i + 1 + |kw|];
          assert OccursAt(s, kw, i + 1);
        }
      }
      assert (exists i :: OccursAt(s, kw, i)) ==> r by {
        if exists i :: OccursAt(s, kw, i) {
          var i :| OccursAt(s, kw, i);
          assert i != 0;
          assert s[1..][i - 1..i - 1 + |kw|] == s[i..i + |kw|];
          assert OccursAt(s[1..], kw, i - 1);
        }
      }
      r
  }

  /** The characters PostgreSQL's `LIKE` gives a meaning in a pattern:
      `%` (any run of characters), `_` (any one character) and `\` (the default
      escape character, which makes the next character literal). */
  predicate IsLikeSpecial(c: char) {
    c == '%' || c == '_' || c == '\\'
  }

  /** `s` matches the `LIKE` pattern `p` (case-sensitive, as in PostgreSQL). A
      pattern ending in a lone escape character matches nothing. */
  function LikeMatch(p: string, s: string): (r: bool)
    ensures IsLiteral(p) ==> (r <==> s == p)
    decreases |p|, |s|
  {
    if |p| == 0 then |s| == 0
    else if p[0] == '%' then LikeMatch(p[1..], s) || (|s| > 0 && LikeMatch(p, s[1..]))
    else if p[0] == '_' then |s| > 0 && LikeMatch(p[1..], s[1..])
    else if p[0] == '\\' then |p| > 1 && |s| > 0 && s[0] == p[1] && LikeMatch(p[2..], s[1..])
    else |s| > 0 && s[0] == p[0] && LikeMatch(p[1..], s[1..])
  }

  /** The keyword filter as written: `column.contains(kw)` becomes
      `column LIKE '%' || kw || '%'`, with the keyword's own wildcards left
      active. */
  function LikeContains(s: string, kw: string): (r: bool)
    ensures IsLiteral(kw) ==> (r <==> Contains(s, kw))
  {
    var m := LikeMatch("%" + kw + "%", s);
    if IsLiteral(kw) then LikePatternLiteral(s, kw); m else m
  }

  /** A keyword in which `LIKE` sees no wildcard and no escape. */
  predicate IsLiteral(kw: string) {
    forall k :: 0 <= k < |kw| ==> !IsLikeSpecial(kw[k])
  }

  /** The pattern `%` matches every string. */
  lemma {:induction false} PercentMatchesAll(s: string)
    ensures LikeMatch("%", s)
    decreases |s|
  {
    assert "%"[1..] == "";
    if |s| > 0 {
      PercentMatchesAll(s[1..]);
    }
  }

  /** For a literal keyword, `kw%` matches exactly the strings that start with it. */
  lemma {:induction false} LiteralPrefixMatch(kw: string, s: string)
    requires IsLiteral(kw)
    ensures LikeMatch(kw + "%", s) <==> StartsWith(s, kw)
    decreases |kw|
  {
    if |kw| == 0 {
      assert kw + "%" == "%";
      PercentMatchesAll(s);
    } else {
      var p := kw + "%";
      assert p[0] == kw[0] && !IsLikeSpecial(kw[0]);
      assert p[1..] == kw[1..] + "%";
      assert IsLiteral(kw[1..]) by {
        forall k | 0 <= k < |kw[1..]| ensures !IsLikeSpecial(kw[1..][k]) {
          assert kw[1..][k] == kw[k + 1];
        }
      }
      if |s| > 0 {
        LiteralPrefixMatch(kw[1..], s[1..]);
        if StartsWith(s, kw) {
          assert s[1..][..|kw[1..]|] == s[1..|kw|] == kw[1..];
        }
        if s[0] == kw[0] && StartsWith(s[1..], kw[1..]) {
          assert s[..|kw|] == [s[0]] + s[1..][..|kw[1..]|];
          assert kw == [kw[0]] + kw[1..];
        }
      }
    }
  }

  /** With a keyword free of wildcards and escapes, the `LIKE` filter and plain
      substring containment agree on every string. */
  lemma {:induction false} LikePatternLiteral(s: string, kw: string)
    requires IsLiteral(kw)
    ensures LikeMatch("%" + kw + "%", s) <==> Contains(s, kw)
    decreases |s|
  {
    var p := "%" + kw + "%";
    assert p[0] == '%';
    assert p[1..] == kw + "%";
    LiteralPrefixMatch(kw, s);
    if |s| > 0 {
      LikePatternLiteral(s[1..], kw);
    }
  }

  /** The keyword `_` is accepted by the `LIKE` filter on a title that does
      not contain an underscore at all. */
  lemma UnderscoreKeywordMatchesWithoutUnderscore()
    ensures LikeContains("a", "_")
    ensures !Contains("a", "_")
  {
    assert ("%" + "_" + "%")[1..] == "_%";
    assert "_%"[1..] == "%";
    assert "a"[1..] == "";
    assert "%"[1..] == "";
    assert |"_"| == 1 && "_"[0] == '_' && "a"[0] == 'a';
    assert "a"[..1] != "_";
    assert !StartsWith("a", "_") && !StartsWith("", "_");
    assert !Contains("", "_");
  }

  /** The keyword `_` makes the `LIKE` filter accept every non-empty text and
      only those. */
  lemma UnderscoreKeywordMatchesNonEmpty(s: string)
    ensures LikeContains(s, "_") <==> |s| > 0
  {
    var p := "%" + "_" + "%";
    assert p[0] == '%' && p[1..] == "_%";
    assert "_%"[0] == '_' && "_%"[1..] == "%";
    if |s| > 0 {
      PercentMatchesAll(s[1..]);
      assert LikeMatch("_%", s);
    } else {
      assert "%"[1..] == "";
      assert !LikeMatch("_%", s);
    }
  }

  /** The keyword `%` makes the `LIKE` filter accept every text. */
  lemma PercentKeywordMatchesAll(s: string)
    ensures LikeContains(s, "%")
  {
    var p := "%" + "%" + "%";
    assert p[0] == '%' && p[1..] == "%%";
    assert "%%"[0] == '%' && "%%"[1..] == "%";
    PercentMatchesAll(s);
  }

  /** A one-character keyword occurs exactly when that character does. */
  lemma ContainsOneChar(s: string, c: char)
    ensures Contains(s, [c]) <==> c in s
  {
    if c in s {
      var i :| 0 <= i < |s| && s[i] == c;
      assert OccursAt(s, [c], i);
    }
    if Contains(s, [c]) {
      var i :| OccursAt(s, [c], i);
      assert s[i] == s[i..i + 1][0] == c;
    }
  }
}

=== FILE: tokens.dfy ===
/** Password hashing, typed expiring tokens and the refresh cookie
    (api/app/auth.py).

    A token is modelled by the claims it carries once decoded (`sub`, `type`,
    `exp`) together with whether its signature checks out under the server's
    secret key; signing and decoding themselves are not modelled. Time is an
    integer count of seconds. */
module Tokens {
  import opened Results
  import opened Models

  datatype TokenType = Access | Refresh | PasswordReset

  /** A token's claims: `sub` is absent when the payload has no subject, `typ`
      when it has no `type` claim or one the application does not use. */
  datatype Token = Token(sub: Option<int>, typ: Option<TokenType>, exp: int, validSig: bool)

  /** The payload a caller hands to `create_access_token`. */
  datatype Claims = Claims(sub: Option<int>, typ: Option<TokenType>, exp: Option<int>)

  const SecondsPerMinute := 60
  const SecondsPerDay := 86400

  /** The detail strings of the 401 responses token verification raises. */
  const InvalidOrExpired := "Invalid or expired refresh token"
  const InvalidTokenType := "Invalid token type"
  const InvalidToken := "Invalid token"
  const CouldNotValidate := "Could not validate credentials"

  // ---- passwords ---------------------------------------------------------

  function HashPassword(password: string): PasswordHash {
    Digest(password)
  }

  function VerifyPassword(plain: string, hashed: PasswordHash): bool {
    hashed == HashPassword(plain)
  }

  /** A password verifies against a stored hash exactly when that hash was made
      from the same password. */
  lemma VerifyPasswordIffSame(plain: string, original: string)
    ensures VerifyPassword(plain, HashPassword(original)) <==> plain == original
  {
  }

  // ---- issuing -----------------------------------------------------------

  /** A freshly signed token for `userId` of the given type, valid for
      `lifetime` seconds from `now`. */
  function CreateToken(userId: int, typ: TokenType, lifetime: int, now: int): (t: Token)
    ensures t.sub == Some(userId) && t.typ == Some(typ)
    ensures t.exp == now + lifetime && t.validSig
  {
    Token(Some(userId), Some(typ), now + lifetime, true)
  }

  /** `create_access_token`: the caller's payload, with `exp` and `type`
      overwritten whatever the payload said. */
  function CreateAccessToken(data: Claims, now: int, expireMinutes: int): (t: Token)
    ensures t.typ == Some(Access)
    ensures t.exp == now + expireMinutes * SecondsPerMinute
    ensures t.sub == data.sub && t.validSig
  {
    Token(data.sub, Some(Access), now + expireMinutes * SecondsPerMinute, true)
  }

  /** `create_refresh_token`: a refresh token for `userId` valid for
      `expireDays` days. */
  function CreateRefreshToken(userId: int, now: int, expireDays: int): (t: Token)
    ensures t == CreateToken(userId, Refresh, expireDays * SecondsPerDay, now)
  {
    Token(Some(userId), Some(Refresh), now + expireDays * SecondsPerDay, true)
  }

  /** An access token made from a payload naming a subject is the token
      `CreateToken` issues for that subject. */
  lemma AccessTokenIsTyped(userId: int, data: Claims, now: int, expireMinutes: int)
    requires data.sub == Some(userId)
    ensures CreateAccessToken(data, now, expireMinutes)
         == CreateToken(userId, Access, expireMinutes * SecondsPerMinute, now)
  {
  }

  // ---- verification ------------------------------------------------------

  /** A token is live while `now` is strictly before its expiry. */
  predicate Live(t: Token, now: int) {
    t.validSig && now < t.exp
  }

  /** `verify_token(token, expected)`, generalising `verify_refresh_token`: the
      signature and expiry are checked by decoding, then the type, then the
      presence of a subject. */
  function Verify(t: Token, expected: TokenType, now: int): (r: Result<int, Failure>)
    ensures r.Ok? <==> Live(t, now) && t.typ == Some(expected) && t.sub.Some?
    ensures r.Ok? ==> Some(r.value) == t.sub
    ensures !Live(t, now) ==> r == Err(Unauthorized(InvalidOrExpired))
    ensures Live(t, now) && t.typ != Some(expected) ==> r == Err(Unauthorized(InvalidTokenType))
    ensures Live(t, now) && t.typ == Some(expected) && t.sub.None? ==>
      r == Err(Unauthorized(InvalidToken))
  {
    if !t.validSig || t.exp <= now then Err(Unauthorized(InvalidOrExpired))
    else if t.typ != Some(expected) then Err(Unauthorized(InvalidTokenType))
    else if t.sub.None? then Err(Unauthorized(InvalidToken))
    else Ok(t.sub.value)
  }

  /** `verify_refresh_token`: the subject of a live refresh token. A bad
      signature or an expired token, a token of another type and a token
      without a subject each get their own 401 detail, checked in that order. */
  function VerifyRefreshToken(t: Token, now: int): (r: Result<int, Failure>)
    ensures r.Ok? <==> Live(t, now) && t.typ == Some(Refresh) && t.sub.Some?
    ensures r.Ok? ==> Some(r.value) == t.sub
    ensures !Live(t, now) ==> r == Err(Unauthorized(InvalidOrExpired))
    ensures Live(t, now) && t.typ != Some(Refresh) ==> r == Err(Unauthorized(InvalidTokenType))
    ensures Live(t, now) && t.typ == Some(Refresh) && t.sub.None? ==> r == Err(Unauthorized(InvalidToken))
  {
    Verify(t, Refresh, now)
  }

  /** A refresh token from `create_refresh_token` verifies as its user until
      it expires, and from then on is refused as expired. */
  lemma RefreshTokenRoundTrip(userId: int, issuedAt: int, expireDays: int, now: int)
    ensures VerifyRefreshToken(CreateRefreshToken(userId, issuedAt, expireDays), now)
         == if now < issuedAt + expireDays * SecondsPerDay then Ok(userId) else Err(Unauthorized(InvalidOrExpired))
  {
  }

  /** A token issued for `userId` verifies as that user, for the type it was
      issued with, at every instant before it expires and at none after. */
  lemma IssuedTokenVerifies(userId: int, typ: TokenType, lifetime: int, issuedAt: int, now: int)
    ensures Verify(CreateToken(userId, typ, lifetime, issuedAt), typ, now)
         == (if now < issuedAt + lifetime then Ok(userId) else Err(Unauthorized(InvalidOrExpired)))
  {
  }

  /** A live token of one type is refused wherever another type is expected. */
  lemma NoTypeConfusion(t: Token, expected: TokenType, now: int)
    requires t.typ.Some? && t.typ.value != expected
    ensures Verify(t, expected, now).Err?
    ensures Live(t, now) ==> Verify(t, expected, now) == Err(Unauthorized(InvalidTokenType))
  {
  }

  /** `get_current_user_id`: the subject of a live access token. */
  function GetCurrentUserId(t: Token, now: int): (r: Result<int, Failure>)
    ensures r.Ok? <==> Live(t, now) && t.typ == Some(Access) && t.sub.Some?
    ensures r.Ok? ==> Some(r.value) == t.sub
  {
    Verify(t, Access, now)
  }

  /** `get_current_user`: the stored user a live access token names. Every
      failure gives the same 401. */
  function GetCurrentUser(db: Db, t: Token, now: int): (r: Result<User, Failure>)
    ensures r.Ok? <==>
      Live(t, now) && t.typ == Some(Access) && t.sub.Some? && FindUser(db.users, t.sub.value).Some?
    ensures r.Ok? ==> r.value in db.users && Some(r.value.id) == t.sub
    ensures r.Err? ==> r.error == Unauthorized(CouldNotValidate)
  {
    if !t.validSig || t.exp <= now || t.typ != Some(Access) || t.sub.None? then
      Err(Unauthorized(CouldNotValidate))
    else
      match FindUser(db.users, t.sub.value)
      case None => Err(Unauthorized(CouldNotValidate))
      case Some(u) => Ok(u)
  }

  /** A refresh or password-reset token never resolves to a current user,
      however valid it is otherwise. */
  lemma OnlyAccessTokensAuthenticate(db: Db, userId: int, typ: TokenType, lifetime: int, issuedAt: int, now: int)
    requires typ != Access
    ensures GetCurrentUser(db, CreateToken(userId, typ, lifetime, issuedAt), now).Err?
  {
  }

  // ---- the refresh cookie ------------------------------------------------

  /** A browser identifies a cookie by its name and path. */
  datatype CookieId = CookieId(name: string, path: string)

  /** The cookie effect of one response. */
  datatype CookieOp =
    | SetCookie(id: CookieId, value: Token, httpOnly: bool, secure: bool, sameSite: string)
    | DeleteCookie(id: CookieId, httpOnly: bool, secure: bool, sameSite: string)
    | NoCookieChange

  /** The cookies a browser holds. */
  type Jar = map<CookieId, Token>

  /** What a browser does with a response's cookie effect. */
  function ApplyCookie(jar: Jar, op: CookieOp): (r: Jar)
    ensures op.SetCookie? ==> op.id in r && r[op.id] == op.value
    ensures op.DeleteCookie? ==> op.id !in r
    ensures forall id :: id in r && (op.NoCookieChange? || id != op.id) ==> id in jar && r[id] == jar[id]
    ensures forall id :: id in jar && (op.NoCookieChange? || id != op.id) ==> id in r
  {
    match op
    case SetCookie(id, v, _, _, _) => jar[id := v]
    case DeleteCookie(id, _, _, _) => jar - {id}
    case NoCookieChange => jar
  }

  /** The refresh token cookie, scoped to the `/auth` routes. */
  const RefreshCookie := CookieId("refresh_token", "/auth")

  function SetRefreshCookie(t: Token, cookieSecure: bool): (op: CookieOp)
    ensures op.SetCookie? && op.id == RefreshCookie && op.value == t
    ensures op.httpOnly && op.sameSite == "lax" && op.secure == cookieSecure
  {
    SetCookie(CookieId("refresh_token", "/auth"), t, true, cookieSecure, "lax")
  }

  function ClearRefreshCookie(cookieSecure: bool): (op: CookieOp)
    ensures op.DeleteCookie? && op.id == RefreshCookie
    ensures op.httpOnly && op.sameSite == "lax" && op.secure == cookieSecure
  {
    DeleteCookie(CookieId("refresh_token", "/auth"), true, cookieSecure, "lax")
  }

  /** Clearing removes the cookie that setting stored, because both name the
      same key and path; no other cookie is touched. */
  lemma ClearRemovesSetCookie(jar: Jar, t: Token, secure1: bool, secure2: bool)
    ensures var after := ApplyCookie(ApplyCookie(jar, SetRefreshCookie(t, secure1)), ClearRefreshCookie(secure2));
      && RefreshCookie !in after
      && forall id :: id != RefreshCookie ==> (id in after <==> id in jar)
  {
  }
}

=== FILE: user_crud.dfy ===
/** Storage operations on users (api/app/crud/user.py). The unique
    constraints on `username` and `email` are enforced by the database at
    commit; a violation rolls the session back, so the table is left as it
    was, and the driver's unique-violation error reaches the caller. */
module UserCrud {
  import opened Results
  import opened Models
  import opened Tokens
  import opened AuthSchemas

  /** The driver error a unique constraint raises. */
  datatype DbError = UniqueViolation

  /** `get_user_by_email`: the first user whose email is exactly `email`. */
  function GetUserByEmail(users: seq<User>, email: string): (r: Option<User>)
    ensures r.Some? ==> r.value in users && r.value.email == email
    ensures r.None? <==> forall u :: u in users ==> u.email != email
  {
    if |users| == 0 then None
    else if users[0].email == email then Some(users[0])
    else GetUserByEmail(users[1..], email)
  }

  /** A consistent table holds at most one user per email. */
  lemma EmailIdentifiesUser(db: Db, u: User)
    requires UsersValid(db) && u in db.users
    ensures GetUserByEmail(db.users, u.email) == Some(u)
  {
    var v := GetUserByEmail(db.users, u.email).value;
    var i :| 0 <= i < |db.users| && db.users[i] == u;
    var j :| 0 <= j < |db.users| && db.users[j] == v;
  }

  /** Looking a user up by primary key finds that very user. */
  lemma IdIdentifiesUser(db: Db, u: User)
    requires UsersValid(db) && u in db.users
    ensures FindUser(db.users, u.id) == Some(u)
  {
    var v := FindUser(db.users, u.id).value;
    var i :| 0 <= i < |db.users| && db.users[i] == u;
    var j :| 0 <= j < |db.users| && db.users[j] == v;
  }

  /** `create_user`: a new user with the next id and the hash of the
      password, unless the username or the email is already taken. */
  function CreateUser(db: Db, data: UserCreate): (res: Result<(Db, User), DbError>)
    ensures res.Err? <==> exists u :: u in db.users && (u.username == data.username || u.email == data.email)
    ensures res.Ok? ==>
      var (db', u) := res.value;
      && u == User(db.nextUserId, data.username, data.email, HashPassword(data.password))
      && db' == db.(users := db.users + [u], nextUserId := db.nextUserId + 1)
  {
    if exists i :: 0 <= i < |db.users| && (db.users[i].username == data.username || db.users[i].email == data.email)
    then Err(UniqueViolation)
    else
      var u := User(db.nextUserId, data.username, data.email, HashPassword(data.password));
      Ok((db.(users := db.users + [u], nextUserId := db.nextUserId + 1), u))
  }

  /** Replaces the row whose id is `u.id` by `u`. */
  function ReplaceUser(users: seq<User>, u: User): (r: seq<User>)
    ensures |r| == |users|
    ensures forall i :: 0 <= i < |users| ==> r[i] == if users[i].id == u.id then u else users[i]
  {
    seq(|users|, i requires 0 <= i < |users| => if users[i].id == u.id then u else users[i])
  }

  /** `update_username`: the stored user gets the new username unless another
      user already has it; setting one's own current name is no conflict. */
  function UpdateUsername(db: Db, user: User, newUsername: string): (res: Result<(Db, User), DbError>)
    requires user in db.users
    ensures res.Err? <==> exists u :: u in db.users && u.id != user.id && u.username == newUsername
    ensures res.Ok? ==>
      && res.value.1 == user.(username := newUsername)
      && res.value.0 == db.(users := ReplaceUser(db.users, res.value.1))
  {
    if exists i :: 0 <= i < |db.users| && db.users[i].id != user.id && db.users[i].username == newUsername
    then Err(UniqueViolation)
    else
      var u := user.(username := newUsername);
      Ok((db.(users := ReplaceUser(db.users, u)), u))
  }

  /** `update_password`: the stored user gets the hash of the new password. */
  function UpdatePassword(db: Db, user: User, newPassword: string): (res: (Db, User))
    requires user in db.users
    ensures res.1 == user.(hashedPassword := HashPassword(newPassword))
    ensures res.0 == db.(users := ReplaceUser(db.users, res.1))
  {
    var u := user.(hashedPassword := HashPassword(newPassword));
    (db.(users := ReplaceUser(db.users, u)), u)
  }

  // ---- the user table stays consistent ------------------------------------

  /** Creating a user keeps ids, usernames and emails unique. */
  lemma CreatePreservesValid(db: Db, data: UserCreate)
    requires Valid(db)
    ensures CreateUser(db, data).Ok? ==> Valid(CreateUser(db, data).value.0)
  {
    if CreateUser(db, data).Ok? {
      var (db', u) := CreateUser(db, data).value;
      forall i, j | 0 <= i < j < |db'.users|
        ensures db'.users[i].id != db'.users[j].id
        ensures db'.users[i].username != db'.users[j].username
        ensures db'.users[i].email != db'.users[j].email
      {
        assert db'.users[i] == db.users[i] && db.users[i] in db.users;
      }
    }
  }

  /** Replacing a user by one with the same id and no clashing username or
      email keeps the user table consistent. */
  lemma ReplaceKeepsValid(db: Db, user: User, u: User)
    requires Valid(db) && user in db.users && u.id == user.id && u.email == user.email
    requires forall v :: v in db.users && v.id != user.id ==> v.username != u.username
    ensures Valid(db.(users := ReplaceUser(db.users, u)))
  {
    var users' := ReplaceUser(db.users, u);
    var k :| 0 <= k < |db.users| && db.users[k] == user;
    assert forall i :: 0 <= i < |db.users| && db.users[i].id == user.id ==> i == k;
    forall i, j | 0 <= i < j < |users'|
      ensures users'[i].id != users'[j].id
      ensures users'[i].username != users'[j].username
      ensures users'[i].email != users'[j].email
    {
      assert db.users[i] in db.users && db.users[j] in db.users;
    }
  }

  /** Renaming a user keeps the user table consistent. */
  lemma UpdateUsernamePreservesValid(db: Db, user: User, newUsername: string)
    requires Valid(db) && user in db.users
    ensures UpdateUsername(db, user, newUsername).Ok? ==> Valid(UpdateUsername(db, user, newUsername).value.0)
  {
    if UpdateUsername(db, user, newUsername).Ok? {
      ReplaceKeepsValid(db, user, user.(username := newUsername));
    }
  }

  /** Changing a password keeps the user table consistent. */
  lemma UpdatePasswordPreservesValid(db: Db, user: User, newPassword: string)
    requires Valid(db) && user in db.users
    ensures Valid(UpdatePassword(db, user, newPassword).0)
  {
    forall v | v in db.users && v.id != user.id ensures v.username != user.username {
      var i :| 0 <= i < |db.users| && db.users[i] == v;
      var k :| 0 <= k < |db.users| && db.users[k] == user;
    }
    ReplaceKeepsValid(db, user, user.(hashedPassword := HashPassword(newPassword)));
  }
}
